=== FILE: README.md ===
# ava frame-graph engine, modelled in Dafny

ava renders a video as numbered still frames. A video is described as an
ordered list of node descriptions (`name`, `type`, `params`, `inputs`).
`CreateGraph` turns that list into a directed acyclic graph of nodes.
`Exec(i)` rebuilds the graph and asks its last node for frame `i`, writing
the frame to a numbered PNG file. The script's main block maps `Exec` over
every index below the stream length of the result, on a process pool, and
then deletes the temporaries it left behind.

This project models the engine of the library (`ava/__init__.py`) and of
the older script (`ava.py`, with the example graph it carries):

- **Graph** and **Builder**: the node kinds, the state each kind's
  constructor stores, the keyword binding of `**params`, the arity
  assertions, and both builders' loops, including how each one handles a
  missing `params` key and an unknown `type`.
- **Graph.Length**: stream-length propagation (`GetStreamLength` /
  `GetStreamSize`).
- **Boundaries** and **Segments**: the cross-blend boundaries
  (`GetStreamStartIndices`) and the segment scan of `ConcatNode.Execute`.
- **BlendFactors** and **Fades**: the integer strength and blur radius of a
  blended frame, and the per-frame action of the fade nodes.
- **Evaluate**: the recursive evaluation of one frame. It is modelled as
  the trace of backend calls the evaluation makes, in order, or the
  exception it raises.
- **Soundness**: the end-to-end guarantee. On a consistent graph every
  frame index renders. Each temporary is written before it is read, every
  source read stays inside the graph's image sequences, and the last call
  writes the target.
- **Freshness**: which files a frame's evaluation may overwrite. With no
  node named like a node above it, each temporary a node reads holds what
  the intended input wrote; a graph reusing a name shows an overwrite.
- **Naming**: temporary and output file names. Different (process, node,
  slot) triples never share a temporary key. Different frames never share
  an output file. The final sweep deletes every temporary, and every
  other file of the same name shape.
- **Render**: `Exec` and the frame count the main block maps over. `Exec`
  takes the revision (below) it evaluates; the source's `Exec` is the
  `AsWritten` one.
- **Example**: the script's example graph. Its stream is 3612 frames, and
  every one of them renders.

Python's `int(x / y)` on floats is modelled on exact rationals as
truncation toward zero (`Common.TruncDiv`). Python exceptions are the
`Fault` values of a `Result`, so each error path of the source is an
explicit outcome.

The blend strength and the blur radius (`BlendFactors.Strength`,
`BlendFactors.BlurRadius`) follow the code's `int(...)`, which truncates
toward zero.

## Model

| member | source | states |
|---|---|---|
| Common.TruncDiv | ava/__init__.py:324-331 | Python's int() of an exact quotient: \|q\|·\|b\| ≤ \|a\| < (\|q\|+1)·\|b\|, with the sign of a/b, and equal to floor division when both operands are non-negative |
| Naming.Decimal | ava/__init__.py:55-62 | str() of a natural number is a non-empty string of digits with no leading zero (unless the number is 0) |
| Naming.DecimalRoundTrip | ava/__init__.py:55-62 | reading the decimal text of n back as digits gives n |
| Naming.TempKeyInjective | ava/__init__.py:55-62 | the text '{pid}_{name}_{slot}' hashed for a temporary determines pid, name and slot, whatever the node name contains |
| Naming.SweepMatchesTemporaries | ava.py:677-678 | the glob "_tmp_AVA__*.tga" matches exactly the names `_tmp_AVA__<digest>.tga` with a slash-free digest, so a user's own file of that shape is swept too (see "## Left out") |
| Naming.ZeroPad8RoundTrip | ava/__init__.py:395 | the zero-padded frame number reads back as the frame number, and is exactly 8 characters below 10^8 |
| Naming.FrameFileNamesDistinct | ava/__init__.py:395 | two frame indices get the same output file name exactly when they are equal |
| Naming.TemporariesAreSwept | ava/__init__.py:55-62 | every temporary the run creates (a 40-digit lowercase hex digest) is removed by the sweep |
| Naming.UserFileSwept | ava.py:677-678 | the sweep is wider than the temporaries: "_tmp_AVA__mine.tga", whose digest is not a SHA-1 hex digest and which no temporary is named, is removed too |
| Naming.FramesAreNotSwept | ava.py:677-678 | no output frame file is matched by the temporaries' sweep |
| Graph.MinLength | ava/__init__.py:67-68 | min over the list of the inputs' lengths: ValueError with no inputs; a value exactly when every input has one, no larger than any input's length and equal to one of them; otherwise the exception of the first input whose length fails |
| Graph.Lengths | ava/__init__.py:298 | the list of the inputs' lengths: defined exactly when every input's length is, element by element equal to them; otherwise the exception of the first input whose length fails |
| Graph.FirstFailureWins | ava/__init__.py:67-68 | a merge over [None, an input-less merge] raises the first input's AttributeError, not the second's ValueError |
| Graph.SingleInputKeepsLength | ava/__init__.py:67-68 | a default-Execute node with one input, other than a fade, has its input's length |
| Boundaries.StartIndices | ava/__init__.py:284-291 | n lengths give n+1 boundaries; no lengths is the IndexError of streams[-1] |
| Boundaries.StartIndicesRecurrence | ava/__init__.py:284-291 | B0 = 0, Bi = Bi-1 + Li-1 - W for 0 < i < n, Bn = Bn-1 + Ln-1 |
| Boundaries.TotalLength | ava/__init__.py:303-304 | the concatenation's length (last boundary) is the sum of the lengths less W for each of the n-1 joins |
| Boundaries.BoundariesIncrease | ava/__init__.py:284-291 | when every non-final input is longer than W and the last is non-empty, the boundaries strictly increase |
| Boundaries.ThreeTensWindowFour | ava/__init__.py:284-291 | lengths [10, 10, 10] with W = 4 give boundaries [0, 6, 12, 22] |
| Boundaries.GetStreamStartIndices | ava.py:223-230 | the generator's loop yields exactly StartIndices, or raises IndexError on an empty list |
| Segments.ScanFrom | ava/__init__.py:307-308 | a segment found by the scan holds the index: b[i] ≤ idx < b[i+1] |
| Segments.FindSegment | ava/__init__.py:307-308 | the scan loop stops at the first segment holding the index, reports reaching the last boundary, or finds nothing |
| Segments.SegmentFoundInRange | ava/__init__.py:307-308 | every index from the first boundary up to (not including) the last lands in some segment |
| Segments.SegmentUnique | ava/__init__.py:307-308 | with increasing boundaries the segment found is the one segment that holds the index |
| Segments.ConcatRoute | ava/__init__.py:306-337 | IndexError exactly when the scan reaches the last boundary; nothing written exactly when no segment holds the index; a blend only for a segment after the first, at a position below W |
| Segments.BlendZone | ava/__init__.py:310-315 | a blend happens exactly in the first W frames of every segment but the first, and never when W ≤ 0 |
| Segments.RouteInRange | ava/__init__.py:306-337 | every index of the stream routes to a direct read of input i below its length (and at least W unless i = 0), or to a blend reading the last W frames of input i-1 and the first W of input i |
| Segments.FirstFrameDirect | ava/__init__.py:310-313 | frame 0 of a concatenation is frame 0 of its first input |
| Segments.RouteOutOfRange | ava/__init__.py:306-308 | past the end of the stream the scan raises IndexError; before its start nothing is written |
| BlendFactors.Strength | ava/__init__.py:324-331 | the blend percentage is int(r / W · 100): 0 ≤ s < 100 and s·W ≤ 100·r < (s+1)·W |
| BlendFactors.BlurRadius | ava/__init__.py:324-331 | the blur radius is int((1 - \|r/W - 0.5\|·2) · 16): between 0 and 16, bracketing the exact value |
| BlendFactors.StrengthNonDecreasing | ava/__init__.py:324-331 | the strength starts at 0 and never falls across the window |
| BlendFactors.BlurZeroAtStart | ava/__init__.py:324-331 | the first blended frame is not blurred |
| BlendFactors.BlurSymmetric | ava/__init__.py:324-331 | frames equally far from both ends of the window get the same blur |
| BlendFactors.BlurRisesToMiddle | ava/__init__.py:324-331 | over the first half of the window the blur never falls |
| BlendFactors.BlurPeaksAtMiddle | ava/__init__.py:324-331 | the middle frame of the window has the largest blur |
| BlendFactors.BlurFullAtEvenMiddle | ava/__init__.py:324-331 | with an even window the middle frame gets the full radius 16 |
| Fades.FadeOutAction | ava/__init__.py:247-256 | ZeroDivisionError exactly when the duration is 0; frames before length - duration are copied, the rest modulated; blurred exactly when blur is set |
| Fades.FadeOutInWindow | ava/__init__.py:247-256 | inside the window the progress p is the truncated percentage passed, 0 ≤ p < 100; brightness 100 - p; blur radius 16p/100, below 16 |
| Fades.FadeOutDarkens | ava/__init__.py:247-256 | later frames of a fade-out are never brighter |
| Fades.FadeInActionAsWritten | ava/__init__.py:270-279 | the fade-in as written: ZeroDivisionError exactly for duration 0, frames from the duration on copied, the others modulated, blurred exactly when blur is set |
| Fades.FadeInAction | ava/__init__.py:270-279 | the fade-in with progress counted from frame 0: ZeroDivisionError exactly for duration 0; the first duration frames modulated, the rest copied; blurred exactly when blur is set |
| Fades.FadeInInWindow | ava/__init__.py:270-279 | inside the window the brightness is the truncated percentage passed, 0 on the first frame, below 100, with radius 16(100 - p)/100 |
| Fades.FadeInBrightens | ava/__init__.py:270-279 | later frames of a fade-in are never darker |
| Fades.FadesMirror | ava/__init__.py:247-279 | k frames into equal-length fade windows, the fade-in and fade-out brightnesses add up to 100 |
| Fades.FadeInAgreesOnWholeStream | ava/__init__.py:270-279 | the fade-in as written agrees with the corrected one when the fade covers the whole stream |
| Fades.FadeInAsWrittenCounterexample | ava/__init__.py:270-279 | a 24-frame fade-in over 48 frames modulates frame 0 to brightness -100 as written, 0 when corrected |
| Evaluate.SubstreamIndex | ava/__init__.py:190-195 | the corrected index of "## Findings": a substream's frame idx is input frame first + idx |
| Evaluate.SubstreamIndexInRange | ava/__init__.py:190-195 | every frame of a substream maps into input frames first .. last - 1 |
| Evaluate.SubstreamAsWrittenCounterexample | ava/__init__.py:193-195 | as written, frame 3 of a substream with first = 5 over a 20-frame image sequence reads source frame -2, where the corrected plan reads frame 8; the two indices agree when first = 0 |
| Evaluate.NodeStep | ava/__init__.py:44-53 | a node raises only when it is None or its concatenation scan runs off the boundaries; its own call writes the target; a node with no call of its own delegates at most one request, into the target |
| Evaluate.PlanWritesTarget | ava/__init__.py:44-53 | the last call of any frame's trace writes the target the node was handed |
| Evaluate.FilterPlan | ava/__init__.py:44-53 | a default-Execute node evaluates every input in order, at its own index, into the temporary of that slot, then runs its Eval on those temporaries into the target; a zero-duration fade raises after its input ran |
| Evaluate.ImageSequenceReadsOffsetFrame | ava/__init__.py:71-85 | frame idx of an image sequence is source image idx + offset; with offset 1, frame 2 reads image 3 |
| Evaluate.RepeatInputPinned | ava/__init__.py:230-232 | a repeated input renders its pinned frame, the same for every index asked |
| Evaluate.SubstreamDelegates | ava/__init__.py:193-195 | a substream's frame idx is its input's frame idx - first as written, and first + idx once corrected (see "## Findings"), written into the target |
| Evaluate.SubstreamExample | ava/__init__.py:190-195 | first = 5, last = 15 gives 10 frames, and frame 3 is input frame 8 |
| Evaluate.ConcatDirectPlan | ava/__init__.py:310-336 | outside a blend zone a concatenation frame is its input's local frame, written into the target |
| Evaluate.PlansAgree | ava/__init__.py:44-53 | on a graph whose substreams all start at 0 and whose fade-ins all span their stream, the as-written and the corrected evaluations make the same calls for every frame |
| Evaluate.RunsAgree | ava/__init__.py:47-49 | on such a graph, running a node's requests gives the same trace under both evaluations |
| Evaluate.StepsAgree | ava/__init__.py:44-53 | on such a graph, each node decides the same requests and the same call under both evaluations |
| Evaluate.ConcatBlendPlan | ava/__init__.py:316-331 | in a blend zone the outgoing input goes to temporary 0 and the incoming one to temporary 1, then they are blended into the target with the strength and (exactly when blurring) the radius of the position |
| Soundness.ConsistentHasLength | ava/__init__.py:67-68 | every node of a consistent graph has a stream length |
| Soundness.ConsistentFramesRender | ava/__init__.py:44-53 | every frame index of a consistent node's stream renders with no exception; the trace is non-empty, well staged, ends by writing the target, and reads only frames of the graph's image sequences |
| Soundness.SourceFramesRender | ava/__init__.py:81-85 | a source renders each of its frames in one call that reads no temporary |
| Soundness.RepeatFramesRender | ava/__init__.py:230-232 | a consistent repeated input renders every index asked for |
| Soundness.SubstreamWithinInput | ava/__init__.py:190-195 | with the corrected index of "## Findings", a consistent substream asks its input only for frames the input has |
| Soundness.SubstreamFramesRender | ava/__init__.py:193-195 | with the corrected index of "## Findings", a substream renders through its input's frame first + idx |
| Soundness.ConcatFramesRender | ava/__init__.py:306-337 | a consistent concatenation renders every index of its stream |
| Soundness.ConcatCrossRender | ava/__init__.py:316-331 | a frame in a blend zone renders both inputs' frames, and the blend reads only the two temporaries just written |
| Soundness.BlendPlanJoins | ava/__init__.py:316-331 | the plan of a blend-zone frame is the left input's trace into temporary 0, the right input's into temporary 1, then one blend of temporary 1 into temporary 0 |
| Soundness.FilterFramesRender | ava/__init__.py:44-53 | a consistent default-Execute node renders every index of its stream |
| Soundness.StagedInputsRender | ava/__init__.py:47-49 | staging the inputs raises nothing and writes every slot's temporary before the node's Eval |
| Freshness.PlanWritesOnly | ava/__init__.py:44-62 | evaluating a frame of a node writes its target and temporaries of that node or of nodes below it, and no other file |
| Freshness.RunWritesOnly | ava/__init__.py:47-49 | requests that target the node's target or its own temporaries write only files the node may write |
| Freshness.StepTargets | ava/__init__.py:44-53 | every request a node makes targets its own target or one of its own temporaries |
| Freshness.StagingReaches | ava/__init__.py:49 | when staging the inputs succeeds, input k's evaluation and the staging after it succeed |
| Freshness.StagingSplits | ava/__init__.py:49 | the staged trace is a prefix, then input k's trace into slot k, then the staging of the later inputs |
| Freshness.LaterStagingSparesSlot | ava/__init__.py:47-49 | with no node named like one of its ancestors, staging inputs after k never writes slot k |
| Freshness.FilterSlotsFresh | ava/__init__.py:44-53 | with unique names below the node, its trace is some calls, input k's trace (ending with the write of slot k), calls that never write slot k, then the Eval over the slots: the Eval reads in slot k what input k produced |
| Freshness.ConcatTempFresh | ava/__init__.py:316-322 | with unique names below a concatenation, the incoming input's evaluation never overwrites temporary 0, which holds the outgoing frame |
| Freshness.DuplicateNameClobbers | ava/__init__.py:44-62 | a consistent merge named "m" over x and a label also named "m" stages z into slot 0 after x, so the merge reads z's frame where x's belongs |
| Freshness.ClobberGraph | ava/__init__.py:387 | that graph is consistent and breaks the unique-name condition |
| Freshness.ClobberStaging | ava/__init__.py:47-49 | staging that merge's inputs writes slot 0 twice, x's frame then z's, then slot 1 |
| Freshness.ClobberInnerPlan | ava/__init__.py:44-53 | the inner label stages z into slot 0 of the shared name and annotates it into slot 1 |
| Builder.BindOne | ava/__init__.py:357-386 | a keyword parameter is the given value if its kind fits and a TypeError if it does not, the default if it is not given; a missing required one is a TypeError (see "## Left out" for the kind check) |
| Builder.Bind | ava/__init__.py:357-386 | **params binds exactly when every key names a parameter and every required one is given, with the value's kind; otherwise TypeError |
| Builder.ScriptClass | ava.py:617-636 | every type the script knows selects the class the library selects for it |
| Builder.MakeImageSequence | ava/__init__.py:75-79 | an image sequence keeps no inputs; bad parameters are a TypeError |
| Builder.MakeRepeatImage | ava/__init__.py:209-212 | a still image keeps no inputs; bad parameters are a TypeError |
| Builder.MakeMerge | ava/__init__.py:116-117 | a merge builds exactly when no parameters are given, keeping every input |
| Builder.MakeConcat | ava/__init__.py:296-301 | no inputs raise; a built concatenation keeps its inputs and stores the boundaries of their lengths for its window; the script's always blurs |
| Builder.MakeFadeOut | ava/__init__.py:239-245 | a built fade-out has exactly one input, captures its length and is no longer than it; two or more inputs raise |
| Builder.MakeMergeTiled | ava/__init__.py:160-163 | a built tiled merge keeps its inputs, no more than columns × rows; the script's always tiles 2x2 |
| Builder.MakeCrop | ava/__init__.py:106-108 | a built crop keeps its inputs, at most one; two or more raise |
| Builder.MakeAddLabel | ava/__init__.py:92-95 | a built label keeps its inputs, at most one; two or more raise |
| Builder.MakeRepeatInput | ava/__init__.py:225-228 | a built repeat keeps its inputs, at most one; two or more raise |
| Builder.MakeSubstream | ava/__init__.py:185-188 | a built substream keeps its inputs, at most one; two or more raise |
| Builder.MakeOutput | ava/__init__.py:176-177 | an output node builds exactly when it has at most one input, ignoring any parameters |
| Builder.MakeResize | ava/__init__.py:125-128 | a built resize keeps its inputs, at most one; two or more raise |
| Builder.MakeChangeCanvasSize | ava/__init__.py:139-151 | a built canvas change keeps its inputs, at most one; two or more raise |
| Builder.MakeOverlay | ava/__init__.py:199-201 | a built overlay keeps its inputs, at most one; two or more raise |
| Builder.MadeArity | ava/__init__.py:36-42 | sources keep no inputs, every other class keeps exactly the resolved inputs, and single-input classes at most one |
| Builder.TooManyInputsFail | ava/__init__.py:36-42 | a single-input class handed two or more inputs raises |
| Builder.FadeOutBuilt | ava/__init__.py:239-245 | a fade-out that builds has one input, captured its length and is no longer than it |
| Builder.FadeOutDurationChecked | ava/__init__.py:239-245 | a fade-out longer than its input fails the assertion; one that fits is built with the input's length |
| Builder.ConcatBuilt | ava/__init__.py:296-301 | a concatenation with no inputs raises; one that builds stores the boundaries of its inputs' lengths |
| Builder.ScriptNodeAgrees | ava.py:602-639 | each node the script's constructors build, the library's build identically |
| Builder.Lookup | ava/__init__.py:342-346 | input names resolve exactly when all are bound, element by element; an unbound one is a KeyError |
| Builder.InputNodes | ava/__init__.py:342-355 | a missing or None 'inputs' means no inputs; otherwise every name must be bound |
| Builder.Step | ava/__init__.py:349-387 | one loop iteration adds exactly the entry's name to the bound names, binds it to the new current node and leaves every other name's node alone; a repeated name is rebound |
| Builder.StepInputsBound | ava/__init__.py:342-355 | the node an iteration builds takes its inputs only among nodes bound before it, unless the script skipped an unknown type and kept the previous node |
| Builder.BuildStopsAt | ava/__init__.py:349-387 | once a prefix of the list raises, the whole list raises the same |
| Builder.CreateGraph | ava/__init__.py:339-389 | the loop returns the last node built, or the first exception |
| Builder.NamesBound | ava/__init__.py:387 | the names bound after the loop are exactly the entries' names |
| Builder.ResolvesOnlyBackward | ava/__init__.py:342-346 | in a list that builds, every input name of entry i is the name of an earlier entry |
| Builder.ForwardReferenceFails | ava/__init__.py:342-346 | an input naming no earlier entry makes the build raise |
| Builder.LibraryKnownKinds | ava/__init__.py:385-386 | the library builds a list only if it knows every type, and an unknown type raises |
| Builder.ScriptRequiresParams | ava.py:614 | the script builds a list only if every entry has a 'params' key, and one without it raises |
| Builder.RootIsLastBound | ava/__init__.py:387-389 | the result is the node bound to the last entry's name; an empty list gives None |
| Builder.ScriptUnknownKeepsPrevious | ava.py:612-637 | in the script an unknown type binds its name to the node built before it (None when first) and leaves that node the result |
| Builder.ScriptAgreesWithLibrary | ava.py:602-639 | wherever the script builds a list of types it knows, the library builds the same graph |
| Render.Exec | ava/__init__.py:391-395 | Exec, as written or corrected, raises what building the graph raises, and AttributeError when the result is None |
| Render.ScriptExec | ava.py:641-645 | the script's Exec(i) raises what its builder raises, and otherwise ends by writing "poutput/test{i:08}.png", a name the final sweep leaves alone |
| Render.FrameCount | ava.py:667 | the number of frames mapped over is the stream length of the graph's result, or the build's exception |
| Render.ExecPlansRoot | ava/__init__.py:391-395 | once the graph builds, Exec of either revision is that revision's trace of the result's frame i into the frame's numbered file |
| Render.EmptyGraphFails | ava/__init__.py:391-395 | an empty description list makes Exec and the frame count raise AttributeError |
| Render.EveryFrameRenders | ava.py:657-674 | for a graph that builds consistently, every index the main block maps over renders without an exception into its own numbered file, which the final sweep leaves alone: always when corrected, and as written when substreams start at 0 and fade-ins span their stream (see "## Left out") |
| Render.RevisionRenders | ava/__init__.py:44-53 | a consistent node's frame renders and ends by writing the target, under the corrected revision, and under the as-written one on graphs the corrections leave unchanged |
| Render.ExecAsWrittenCounterexample | ava/__init__.py:193-195 | a two-entry list (20 images, then SubSequence first 5, last 15) builds a consistent 10-frame graph whose frame 3 the as-written Exec reads from image -2 and the corrected Exec from image 8 |
| Render.ExecWritesOutput | ava/__init__.py:395 | whatever Exec does, under either revision, its last call writes the frame's numbered file |
| Render.FramesWriteDistinctFiles | ava.py:674 | two different indices, on any two workers, write two different output files, under either revision |
| Example.BoundariesOfClips | ava.py:587-593 | the nine clip lengths with a 16-frame window give boundaries [0, 56, 340, 444, 1128, 1812, 2496, 2704, 2912, 3612] |
| Example.TitleClip | ava.py:566-578 | the fading title is consistent and 72 frames long |
| Example.TiledClip | ava.py:315-346 | the tiled clip is consistent and 300 frames long |
| Example.ComparisonClip | ava.py:423-551 | each half-and-half comparison is consistent and 700 frames long |
| Example.FourSideBySideClip | ava.py:397-532 | the four-way side-by-side clip is consistent and 700 frames long |
| Example.ShortCut | ava.py:552-564 | a cut of the first 224 frames of a consistent 700-frame clip is consistent and 224 frames long |
| Example.ClipsFit | ava.py:587-593 | every clip of the concatenation is consistent and has the length listed for it |
| Example.ConcatOfClips | ava.py:587-600 | nine consistent clips of the listed lengths, concatenated and handed to the output node, make a consistent 3612-frame stream |
| Example.RootLengthAndConsistency | ava.py:274-600 | the example graph is consistent and 3612 frames long, the clip lengths' sum less 8 × 16 |
| Example.ExampleFramesRender | ava.py:657-674 | every one of the 3612 frames renders into "poutput/test{i:08}.png" with a well-staged trace reading only the example's sources |
| Example.ExampleUnaffectedByCorrections | ava.py:274-600 | every frame of the example graph makes the same calls under the as-written and the corrected evaluation |
| Example.ExampleBoundariesIncrease | ava.py:587-593 | the example's boundaries strictly increase |
| Example.ExampleBlendFrame | ava.py:244-271 | frame 60 blends the title's frame 60 with the tiled clip's frame 4, at strength 25 and radius 8 |
| Example.ExampleLastFrame | ava.py:244-271 | frame 3611 is frame 699 of the fullscreen clip, and asking for frame 3612 raises IndexError |

## Left out

- ImageMagick is not called. Each backend call keeps only its operation, the files it reads and the file it writes. The exact argv is not modelled, including the one-element input list handed to `convert` as a single argument.
- The SHA-1 digest of a temporary's key and `os.getpid()` are not modelled. A temporary is the triple (process id, node name, slot). `Naming.TempKeyInjective` shows that the hashed text is injective; a collision-free digest is assumed in prose only.
- The process pool is not modelled. Frames are evaluated one at a time for a given process id. `Render.FramesWriteDistinctFiles` covers the one cross-worker property (distinct output files).
- `glob`, `os.remove`, `print`, the progress print every 100 frames and `DumpGraph` are not modelled. `Naming.SweptBy` models only which names the sweep matches.
- Floating point is idealised to exact rationals before `int()` truncates. Float rounding error is not modelled.
- `str.format` on an image sequence's format string is not modelled. A source read is the pair (format, frame number).
- A description without a 'name' or 'type' key (a KeyError in both builders) is not modelled. `Desc` always carries both.
- Parameter values are typed (int, string, bool). A value of the wrong kind is a TypeError at build time, while Python would accept it and fail later or never.
- `os.path.join(folder, ...)` is modelled as `folder + "/" + ...`.
- `FadeInNode` is reachable from neither builder. Its per-frame action is modelled (`Fades.FadeInAction`), but no description builds it.
- Example: the example graph is written as the node tree the script's builder makes from its descriptions. It is not obtained by running `Builder.Build` over the 42 descriptions. The consistency and length proofs hold for any leaves with the listed kinds and frame counts, and are applied to the script's leaves.
- Naming.SweepMatchesTemporaries: states the names the glob matches, `_tmp_AVA__<digest>.tga` with any slash-free digest. That is wider than the temporaries, whose digest is 40 hex digits, so a user's file of that shape is deleted too (`Naming.UserFileSwept`).
- Soundness.ConsistentFramesRender: "well staged" says every temporary read was written by an earlier call, not by which one. That the write is the intended input's is proved separately, under unique names below each node (`Freshness.FilterSlotsFresh`, `Freshness.ConcatTempFresh`). The builders let a name be reused (ava/__init__.py:387), and `Freshness.DuplicateNameClobbers` shows the overwrite that can then happen.
- Example: the example's node names are all distinct, so no node shares its name with a node below it, but `Freshness.UniqueNames` is not proved for `Example.ExampleRoot`. The freshness theorems (`Freshness.FilterSlotsFresh`, `Freshness.ConcatTempFresh`) are therefore not applied to the example. Its frames are proved well staged, not proved to read the intended input's write.
- Render.EveryFrameRenders: as written, it is promised only for graphs whose substreams start at frame 0 and whose fade-ins span their stream. On other consistent graphs the as-written Exec asks a substream's input for frame `index - first`, which can lie outside it (`Render.ExecAsWrittenCounterexample`).
- Render.ExecPlansRoot: states which revision's trace Exec is. For the source's `AsWritten` Exec, that trace equals the corrected one only on the graphs of `Evaluate.PlansAgree`.
- Builder.ScriptClass: states only that the script's dispatch agrees with the library's where it knows the type. The names it refuses are in its body, not in its contract.

## Findings

| source | as written | input that shows it | evidently intended | confidence | as-written member | corrected member |
|---|---|---|---|---|---|---|
| ava/__init__.py:270-279 | FadeInNode.Eval measures progress from `length - duration`, copied from the fade-out, while it modulates the first `duration` frames | duration 24 over a 48-frame stream: frame 0 gets brightness -100 | progress `int(index / duration * 100)`, from 0 on the first frame towards 100 | not executed | Fades.FadeInAsWrittenCounterexample | Fades.FadeInInWindow |
| ava/__init__.py:193-195 | SubstreamNode.Execute asks its input for frame `index - first`, while its length is `last - first` | first 5, last 15: frame 3 asks the input for frame -2 | frame `first + index`, inside `first .. last - 1` | not executed | Evaluate.SubstreamAsWrittenCounterexample | Evaluate.SubstreamIndexInRange |

The evaluation (`Evaluate.NodeStep`, `Evaluate.Plan`) takes a `Revision`: `AsWritten` follows the code, `Corrected` uses the intended fade-in and substream index, and the soundness theorems are about `Corrected`. `Render.Exec` takes the revision too; the source's `Exec` is `AsWritten`. The two agree on every graph whose substreams start at 0 and whose fade-ins span their stream (`Evaluate.PlansAgree`), and the example graph is one of them (`Example.ExampleUnaffectedByCorrections`).

=== FILE: backend.dfy ===
/** What a frame evaluation asks of the image backend.  The engine drives
    ImageMagick's convert, composite and montage; the model keeps only which
    operation runs, which files it reads and which file it writes. */
module Backend {
  import opened Common

  /** A file a call writes.  Temp(pid, node, slot) is the temporary that
      GetTemporary(slot) names for node `node` in process `pid`
      (ava/__init__.py:55-62); distinct triples are distinct files.
      File(name) is a name the caller chose, such as an output frame. */
  datatype Path = Temp(pid: nat, node: string, slot: nat) | File(name: string)

  /** The image operation of a node's Eval, with the parameters it was built with. */
  datatype Action =
    | Annotate(text: string, corner: string)                       // AddLabelNode
    | CropTo(hSize: int, vSize: int, hOffset: int, vOffset: int)   // CropNode
    | Append                                                       // MergeNode
    | ResizeTo(width: int, height: int)                            // ResizeNode
    | Extent(width: int, height: int, hShift: int, vShift: int)    // ChangeCanvasSizeNode
    | Montage(columns: int, rows: int)                             // MergeTiledNode
    | Normalize                                                    // OutputNode
    | Composite(overlay: string)                                   // OverlayNode
    | Copy                                                         // a fade outside its window
    | Modulate(brightness: int, blur: Option<int>)                 // a fade inside its window

  /** One backend call; every call writes exactly one file, `out`. */
  datatype Call =
    | ReadFrame(format: string, number: int, out: Path)     // ImageSequence: source frame `number`
    | ReadImage(image: string, out: Path)                   // RepeatImageNode: the still image
    | Apply(node: string, action: Action, ins: seq<Path>, out: Path)
    | Blend(node: string, strength: int, blur: Option<int>, incoming: Path, outgoing: Path, out: Path)

  /** The files a call reads, in argument order. */
  function Reads(c: Call): (ps: seq<Path>)
    ensures c.Blend? ==> ps == [c.incoming, c.outgoing]
    ensures c.ReadFrame? || c.ReadImage? ==> ps == []
  {
    match c
    case ReadFrame(_, _, _) => []
    case ReadImage(_, _) => []
    case Apply(_, _, ins, _) => ins
    case Blend(_, _, _, incoming, outgoing, _) => [incoming, outgoing]
  }
}

=== FILE: blend.dfy ===
/** The two numbers a cross-blend frame hands to the compositor
    (ava/__init__.py:324-331, ava.py:262-265).  With rightIndex r frames
    into a window of W frames, inFactor = r / W and
    blurFactor = 1 - |inFactor - 0.5| * 2; the strength is int(inFactor * 100)
    and the radius int(blurFactor * 16).  Both are computed here on exact
    rationals, so int() is a truncating division. */
module BlendFactors {
  import opened Common

  /** Percentage of the incoming segment in the blended frame. */
  function Strength(right: int, w: int): (s: int)
    requires 0 <= right < w
    ensures 0 <= s < 100
    ensures s * w <= 100 * right < (s + 1) * w
  {
    var s := TruncDiv(100 * right, w);
    LessByMul(s, 100, w);
    s
  }

  /** Blur radius: 16 (1 - |2r/W - 1|) truncated, a triangle over the window. */
  function BlurRadius(right: int, w: int): (b: int)
    requires 0 <= right < w
    ensures 0 <= b <= 16
    ensures b * w <= 16 * (w - Abs(2 * right - w)) < (b + 1) * w
  {
    var b := TruncDiv(16 * (w - Abs(2 * right - w)), w);
    LessByMul(b, 17, w);
    b
  }

  /** The strength starts at 0 and never falls as the window is crossed. */
  lemma StrengthNonDecreasing(r1: int, r2: int, w: int)
    requires 0 <= r1 <= r2 < w
    ensures Strength(0, w) == 0
    ensures Strength(r1, w) <= Strength(r2, w)
  {
    DivMonotone(100 * r1, 100 * r2, w);
  }

  /** The first blended frame is not blurred. */
  lemma BlurZeroAtStart(w: int)
    requires 0 < w
    ensures BlurRadius(0, w) == 0
  {
    assert Abs(2 * 0 - w) == w;
  }

  /** Frames equally far from the two ends of the window get the same blur. */
  lemma BlurSymmetric(r: int, w: int)
    requires 0 < r < w
    ensures BlurRadius(r, w) == BlurRadius(w - r, w)
  {
    assert Abs(2 * (w - r) - w) == Abs(2 * r - w);
  }

  /** On the first half of the window the blur never falls. */
  lemma BlurRisesToMiddle(r1: int, r2: int, w: int)
    requires 0 <= r1 <= r2 && 2 * r2 <= w && 0 < w
    ensures BlurRadius(r1, w) <= BlurRadius(r2, w)
  {
    assert Abs(2 * r1 - w) == w - 2 * r1;
    assert Abs(2 * r2 - w) == w - 2 * r2;
    DivMonotone(16 * (2 * r1), 16 * (2 * r2), w);
  }

  /** The middle frame of the window has the largest blur. */
  lemma BlurPeaksAtMiddle(r: int, w: int)
    requires 0 <= r < w
    ensures BlurRadius(r, w) <= BlurRadius(w / 2, w)
  {
    MiddleIsClosest(r, w);
    DivMonotone(16 * (w - Abs(2 * r - w)), 16 * (w - Abs(2 * (w / 2) - w)), w);
  }

  /** No frame of the window is nearer its centre than frame W / 2. */
  lemma MiddleIsClosest(r: int, w: int)
    requires 0 <= r < w
    ensures Abs(2 * r - w) >= Abs(2 * (w / 2) - w)
  {
    var m := w / 2;
    assert w == 2 * m + w % 2;
    if w % 2 == 1 {
      assert 2 * r - w != 0;
    }
  }

  /** With an even window the middle frame gets the full radius of 16. */
  lemma BlurFullAtEvenMiddle(w: int)
    requires 0 < w && w % 2 == 0
    ensures BlurRadius(w / 2, w) == 16
  {
    assert Abs(2 * (w / 2) - w) == 0;
    assert (16 * w) / w == 16;
  }
}

=== FILE: boundaries.dfy ===
/** Segment boundaries of a concatenation (GetStreamStartIndices,
    ava/__init__.py:284-291 and ava.py:223-230).  For input lengths
    L0..Ln-1 and a cross-blend window W the boundaries are B0 = 0,
    Bi = Bi-1 + Li-1 - W for 1 <= i <= n-1, and Bn = Bn-1 + Ln-1: adjacent
    segments overlap by W frames and Bn is the length of the whole stream. */
module Boundaries {
  import opened Common

  function Sum(s: seq<int>): int {
    if s == [] then 0 else Sum(s[..|s| - 1]) + s[|s| - 1]
  }

  /** Boundary k < n in closed form: the lengths before segment k, less one
      window per join already passed. */
  function Boundary(lengths: seq<int>, w: int, k: nat): int
    requires k <= |lengths|
  {
    Sum(lengths[..k]) - k * w
  }

  /** The list the generator yields, or the IndexError raised by
      streams[-1] when there are no inputs. */
  function StartIndices(lengths: seq<int>, w: int): (r: Result<seq<int>>)
    ensures r.Ok? <==> |lengths| > 0
    ensures r.Ok? ==> |r.value| == |lengths| + 1
    ensures r.Err? ==> r.fault == IndexError
  {
    if |lengths| == 0 then Err(IndexError)
    else
      var n := |lengths|;
      Ok(seq(n, k requires 0 <= k < n => Boundary(lengths, w, k)) + [Boundary(lengths, w, n) + w])
  }

  lemma SumSnoc(s: seq<int>, k: nat)
    requires k < |s|
    ensures Sum(s[..k + 1]) == Sum(s[..k]) + s[k]
  {
    assert s[..k + 1][..k] == s[..k];
  }

  /** The boundaries obey the generator's recurrence: a first 0, each later
      one the previous plus the previous length less the window, and the
      last one the previous plus the last length with no window taken off. */
  lemma StartIndicesRecurrence(lengths: seq<int>, w: int)
    requires |lengths| > 0
    ensures var b := StartIndices(lengths, w).value;
      && b[0] == 0
      && (forall i :: 1 <= i < |lengths| ==> b[i] == b[i - 1] + lengths[i - 1] - w)
      && b[|lengths|] == b[|lengths| - 1] + lengths[|lengths| - 1]
  {
    var b := StartIndices(lengths, w).value;
    var n := |lengths|;
    assert lengths[..0] == [];
    BoundaryAt(lengths, w, 0);
    forall i | 1 <= i < n
      ensures b[i] == b[i - 1] + lengths[i - 1] - w
    {
      EntryStep(lengths, w, i);
    }
    EntryStep(lengths, w, n);
  }

  /** Successive entries of the list differ by one length, less the window
      except at the last entry. */
  lemma EntryStep(lengths: seq<int>, w: int, i: nat)
    requires 1 <= i <= |lengths|
    ensures var b := StartIndices(lengths, w).value;
      b[i] == b[i - 1] + lengths[i - 1] - (if i < |lengths| then w else 0)
  {
    BoundaryAt(lengths, w, i);
    BoundaryAt(lengths, w, i - 1);
    BoundaryStep(lengths, w, i - 1);
  }

  /** Entry k of the list is boundary k in closed form, the last entry
      with the window given back. */
  lemma BoundaryAt(lengths: seq<int>, w: int, k: nat)
    requires 0 < |lengths| && k <= |lengths|
    ensures StartIndices(lengths, w).value[k]
         == if k < |lengths| then Boundary(lengths, w, k) else Boundary(lengths, w, k) + w
  {
  }

  /** One step of the closed form: the next boundary adds one length and
      takes off one window. */
  lemma BoundaryStep(lengths: seq<int>, w: int, k: nat)
    requires k < |lengths|
    ensures Boundary(lengths, w, k + 1) == Boundary(lengths, w, k) + lengths[k] - w
  {
    SumSnoc(lengths, k);
    assert (k + 1) * w == k * w + w;
  }

  /** The concatenation's length is the sum of its inputs' lengths less one
      window per join. */
  lemma TotalLength(lengths: seq<int>, w: int)
    requires |lengths| > 0
    ensures var b := StartIndices(lengths, w).value;
      b[|lengths|] == Sum(lengths) - (|lengths| - 1) * w
  {
    assert lengths[..|lengths|] == lengths;
  }

  /** Every segment ends where the next begins plus the overlap: the gap
      between successive boundaries is the segment length less the window,
      except for the last segment, which keeps its whole length. */
  predicate Blendable(lengths: seq<int>, w: int) {
    && |lengths| > 0
    && 0 <= w
    && (forall k :: 0 <= k < |lengths| - 1 ==> lengths[k] > w)
    && lengths[|lengths| - 1] > 0
  }

  predicate StrictlyIncreasing(b: seq<int>) {
    forall i, j :: 0 <= i < j < |b| ==> b[i] < b[j]
  }

  /** When every non-final input is longer than the window and the last is
      non-empty, the boundaries are strictly increasing (and so all segments
      are non-empty). */
  lemma {:induction false} BoundariesIncrease(lengths: seq<int>, w: int)
    requires Blendable(lengths, w)
    ensures StrictlyIncreasing(StartIndices(lengths, w).value)
  {
    var b := StartIndices(lengths, w).value;
    StartIndicesRecurrence(lengths, w);
    assert forall i :: 0 <= i < |b| - 1 ==> b[i] < b[i + 1];
    forall i, j | 0 <= i < j < |b|
      ensures b[i] < b[j]
    {
      StepsIncrease(b, i, j);
    }
  }

  lemma {:induction false} StepsIncrease(b: seq<int>, i: nat, j: nat)
    requires i < j < |b|
    requires forall k :: 0 <= k < |b| - 1 ==> b[k] < b[k + 1]
    ensures b[i] < b[j]
    decreases j - i
  {
    if i + 1 < j {
      StepsIncrease(b, i + 1, j);
    }
  }

  /** A small case worked through: three 10-frame streams with a
      4-frame window. */
  lemma ThreeTensWindowFour()
    ensures StartIndices([10, 10, 10], 4) == Ok([0, 6, 12, 22])
  {
    var l := [10, 10, 10];
    assert l[..0] == [] && l[..1] == [10] && l[..2] == [10, 10] && l[..3] == l;
    assert Sum([10]) == 10 by { assert [10][..0] == []; }
    assert Sum([10, 10]) == 20 by { assert [10, 10][..1] == [10]; }
    assert Sum(l) == 30 by { assert l[..2] == [10, 10]; }
    var b := StartIndices(l, 4).value;
    assert b[0] == 0 && b[1] == 6 && b[2] == 12 && b[3] == 22;
    assert b == [0, 6, 12, 22];
  }

  /** GetStreamStartIndices as the source runs it: a running total yielded
      once before the loop and once per input but the last, then the final
      total plus the last length. */
  method GetStreamStartIndices(streams: seq<int>, blendFactor: int) returns (r: Result<seq<int>>)
    ensures r == StartIndices(streams, blendFactor)
  {
    var ci := 0;
    var yielded := [ci];
    var i := 0;
    while i < |streams| - 1
      invariant 0 <= i <= |streams| - 1 || i == 0
      invariant |yielded| == i + 1
      invariant forall k :: 0 <= k <= i ==> yielded[k] == Boundary(streams, blendFactor, k)
      invariant ci == Boundary(streams, blendFactor, i)
    {
      SumSnoc(streams, i);
      assert (i + 1) * blendFactor == i * blendFactor + blendFactor;
      ci := ci + streams[i];
      ci := ci - blendFactor;
      yielded := yielded + [ci];
      i := i + 1;
    }
    if |streams| == 0 {
      return Err(IndexError);
    }
    var n := |streams|;
    SumSnoc(streams, n - 1);
    assert n * blendFactor == (n - 1) * blendFactor + blendFactor;
    assert i == n - 1;
    yielded := yielded + [ci + streams[n - 1]];
    ghost var expected := StartIndices(streams, blendFactor).value;
    assert |yielded| == |expected|;
    assert forall k :: 0 <= k <= n ==> yielded[k] == expected[k];
    assert yielded == expected;
    return Ok(yielded);
  }
}

=== FILE: builder.dfy ===
/** CreateGraph (ava/__init__.py:339-389, ava.py:602-639): builds the graph
    from an ordered list of node descriptions, binding each description's
    name to the node it builds, resolving input names against the names
    bound so far, and returning the last node built. */
module Builder {
  import opened Common
  import opened Boundaries
  import opened Graph

  /** Which of the two builders runs: the library's, or the older script's. */
  datatype Variant = Library | Script

  /** A parameter value in a description. */
  datatype Value = Int(i: int) | Str(s: string) | Bool(b: bool)

  datatype ValueKind = IntKind | StrKind | BoolKind

  function KindOf(v: Value): ValueKind {
    match v
    case Int(_) => IntKind
    case Str(_) => StrKind
    case Bool(_) => BoolKind
  }

  /** A dictionary key of a description: missing, present with None, or
      present with a value. */
  datatype Field<T> = Absent | NoneValue | Given(value: T)

  /** One entry of the description list. */
  datatype Desc = Desc(name: string, kind: string, params: Field<map<string, Value>>, inputs: Field<seq<string>>)

  // ----- keyword binding of a node constructor -----

  /** A keyword parameter of a node constructor: required, or with a default
      whose kind is the parameter's kind. */
  datatype Param = Required(key: string, kind: ValueKind) | Optional(key: string, default: Value)

  function ParamKind(p: Param): ValueKind {
    match p
    case Required(_, kind) => kind
    case Optional(_, default) => KindOf(default)
  }

  function Keys(specs: seq<Param>): set<string> {
    set k | 0 <= k < |specs| :: specs[k].key
  }

  /** One parameter: the given value if it has the parameter's kind and a
      TypeError if it does not; the default when it is not given; a missing
      required parameter is a TypeError. */
  function BindOne(params: map<string, Value>, p: Param): (r: Result<Value>)
    ensures r.Err? ==> r.fault == TypeError
    ensures r.Ok? ==> KindOf(r.value) == ParamKind(p)
    ensures r.Ok? && p.key !in params ==> p.Optional? && r.value == p.default
    ensures r.Ok? && p.key in params ==> r.value == params[p.key]
  {
    if p.key in params then
      if KindOf(params[p.key]) == ParamKind(p) then Ok(params[p.key]) else Err(TypeError)
    else if p.Optional? then Ok(p.default)
    else Err(TypeError)
  }

  function BindEach(params: map<string, Value>, specs: seq<Param>): (r: Result<seq<Value>>)
    ensures r.Ok? <==> forall k :: 0 <= k < |specs| ==> BindOne(params, specs[k]).Ok?
    ensures r.Err? ==> r.fault == TypeError
    ensures r.Ok? ==> |r.value| == |specs| && forall k :: 0 <= k < |specs| ==> r.value[k] == BindOne(params, specs[k]).value
  {
    if |specs| == 0 then Ok([])
    else
      var v :- BindOne(params, specs[0]);
      var rest := BindEach(params, specs[1..]);
      assert forall k :: 1 <= k < |specs| ==> specs[k] == specs[1..][k - 1];
      var vs :- rest;
      Ok([v] + vs)
  }

  /** Calling a constructor with **params: a key the constructor has no
      parameter for (including 'name' and 'inputs', which are passed
      positionally) is a TypeError, and so is a missing required parameter. */
  function Bind(params: map<string, Value>, specs: seq<Param>): (r: Result<seq<Value>>)
    ensures r.Ok? <==> params.Keys <= Keys(specs) && forall k :: 0 <= k < |specs| ==> BindOne(params, specs[k]).Ok?
    ensures r.Err? ==> r.fault == TypeError
    ensures r.Ok? ==> |r.value| == |specs|
    ensures r.Ok? ==> forall k :: 0 <= k < |specs| ==> KindOf(r.value[k]) == ParamKind(specs[k])
    ensures r.Ok? ==> forall k :: 0 <= k < |specs| ==> r.value[k] == BindOne(params, specs[k]).value
  {
    if !(params.Keys <= Keys(specs)) then Err(TypeError) else BindEach(params, specs)
  }

  /** Node.__init__'s arity assertion; the minimum is always 0. */
  function CheckArity(inputs: seq<Node>, max: Option<int>): (r: Result<seq<Node>>)
    ensures r.Ok? <==> max.None? || |inputs| <= max.value
    ensures r.Ok? ==> r.value == inputs
    ensures r.Err? ==> r.fault == AssertionError
  {
    if max.Some? && |inputs| > max.value then Err(AssertionError) else Ok(inputs)
  }

  // ----- the node kinds -----

  /** The node classes a description's 'type' can select. */
  datatype NodeClass =
    | ImageSequenceNode | CropNode | AddLabelNode | MergeNode | ConcatNode | FadeOutNode
    | RepeatImageNode | RepeatInputNode | SubstreamNode | OutputNode | MergeTiledNode
    | ResizeNode | ChangeCanvasSizeNode | OverlayNode

  /** The library's dispatch on 'type' (ava/__init__.py:357-386). */
  function LibraryClass(t: string): Option<NodeClass> {
    if t == "ImageSequence" then Some(ImageSequenceNode)
    else if t == "Crop" then Some(CropNode)
    else if t == "AddLabel" then Some(AddLabelNode)
    else if t == "Merge" then Some(MergeNode)
    else if t == "Concatenate" then Some(ConcatNode)
    else if t == "FadeOut" then Some(FadeOutNode)
    else if t == "StillImage" || t == "Image" then Some(RepeatImageNode)
    else if t == "EvaluateFrame" then Some(RepeatInputNode)
    else if t == "SubSequence" then Some(SubstreamNode)
    else if t == "Output" then Some(OutputNode)
    else if t == "MergeTiled" then Some(MergeTiledNode)
    else if t == "Resize" then Some(ResizeNode)
    else if t == "ChangeCanvasSize" then Some(ChangeCanvasSizeNode)
    else if t == "Overlay" then Some(OverlayNode)
    else None
  }

  /** The script's dispatch (ava.py:617-636): the same names, less 'Image',
      'EvaluateFrame', 'Resize', 'ChangeCanvasSize' and 'Overlay'. */
  function ScriptClass(t: string): (c: Option<NodeClass>)
    ensures c.Some? ==> c == LibraryClass(t)
  {
    var c := LibraryClass(t);
    if t == "Image" || (c.Some? && c.value in {RepeatInputNode, ResizeNode, ChangeCanvasSizeNode, OverlayNode}) then None
    else c
  }

  function ClassOf(v: Variant, t: string): Option<NodeClass> {
    if v == Library then LibraryClass(t) else ScriptClass(t)
  }

  /** The classes that keep Node's default limit of one input. */
  predicate SingleInput(c: NodeClass) {
    || c.CropNode? || c.AddLabelNode? || c.FadeOutNode? || c.RepeatInputNode? || c.SubstreamNode?
    || c.OutputNode? || c.ResizeNode? || c.ChangeCanvasSizeNode? || c.OverlayNode?
  }

  /** The node a class's constructor builds from the bound parameters and
      the resolved inputs, or the exception it raises. */
  function MakeNode(v: Variant, name: string, c: NodeClass, params: map<string, Value>, inputs: seq<Node>): Result<Node> {
    match c
    case ImageSequenceNode => MakeImageSequence(name, params)
    case RepeatImageNode => MakeRepeatImage(name, params)
    case MergeNode => MakeMerge(name, params, inputs)
    case ConcatNode => MakeConcat(v, name, params, inputs)
    case FadeOutNode => MakeFadeOut(name, params, inputs)
    case MergeTiledNode => MakeMergeTiled(v, name, params, inputs)
    case CropNode => MakeCrop(name, params, inputs)
    case AddLabelNode => MakeAddLabel(name, params, inputs)
    case RepeatInputNode => MakeRepeatInput(name, params, inputs)
    case SubstreamNode => MakeSubstream(name, params, inputs)
    case OutputNode => MakeOutput(name, inputs)
    case ResizeNode => MakeResize(name, params, inputs)
    case ChangeCanvasSizeNode => MakeChangeCanvasSize(name, params, inputs)
    case OverlayNode => MakeOverlay(name, params, inputs)
  }

  /** ImageSequence(name, format, count, offset=0); any inputs are ignored. */
  function MakeImageSequence(name: string, params: map<string, Value>): (r: Result<Node>)
    ensures r.Ok? ==> Inputs(r.value) == []
    ensures r.Err? ==> r.fault == TypeError
  {
    var a :- Bind(params, [Required("format", StrKind), Required("count", IntKind), Optional("offset", Int(0))]);
    Ok(ImageSequence(name, a[0].s, a[1].i, a[2].i))
  }

  /** RepeatImageNode(name, image, duration=24); any inputs are ignored. */
  function MakeRepeatImage(name: string, params: map<string, Value>): (r: Result<Node>)
    ensures r.Ok? ==> Inputs(r.value) == []
    ensures r.Err? ==> r.fault == TypeError
  {
    var a :- Bind(params, [Required("image", StrKind), Optional("duration", Int(24))]);
    Ok(RepeatImage(name, a[0].s, a[1].i))
  }

  /** MergeNode(name, inputs): no keyword parameters, no input limit. */
  function MakeMerge(name: string, params: map<string, Value>, inputs: seq<Node>): (r: Result<Node>)
    ensures r.Ok? <==> params == map[]
    ensures r.Ok? ==> r.value == Filter(name, Merge, inputs)
  {
    var _ :- Bind(params, []);
    Ok(Filter(name, Merge, inputs))
  }

  /** ConcatNode(name, inputs, crossBlendDuration=0, blur=True); the
      script's has no blur parameter and always blurs.  The inputs' lengths
      are taken and the boundaries computed when the node is built. */
  function MakeConcat(v: Variant, name: string, params: map<string, Value>, inputs: seq<Node>): (r: Result<Node>)
    ensures inputs == [] ==> r.Err?
    ensures r.Ok? ==> r.value.Concat? && r.value.inputs == inputs && Lengths(inputs).Ok?
    ensures r.Ok? ==> r.value.prefixSum == StartIndices(Lengths(inputs).value, r.value.blend).value
    ensures r.Ok? && v == Script ==> r.value.blur
  {
    var a :- Bind(params, if v == Library then [Optional("crossBlendDuration", Int(0)), Optional("blur", Bool(true))]
                          else [Optional("crossBlendDuration", Int(0))]);
    var blur := if v == Library then a[1].b else true;
    var lengths :- Lengths(inputs);
    var prefixSum :- StartIndices(lengths, a[0].i);
    Ok(Concat(name, inputs, a[0].i, blur, prefixSum))
  }

  /** FadeOutNode(name, inputs, fadeOutDuration=24, blur=False): one input
      at most, whose length (asked for by inputs[0]) is captured and must be
      at least the duration. */
  function MakeFadeOut(name: string, params: map<string, Value>, inputs: seq<Node>): (r: Result<Node>)
    ensures r.Ok? ==> |inputs| == 1 && r.value.Filter? && r.value.op.FadeOut? && r.value.inputs == inputs
    ensures r.Ok? ==> Length(inputs[0]) == Ok(r.value.op.length) && r.value.op.duration <= r.value.op.length
    ensures |inputs| > 1 ==> r.Err?
  {
    var a :- Bind(params, [Optional("fadeOutDuration", Int(24)), Optional("blur", Bool(false))]);
    var ins :- CheckArity(inputs, Some(1));
    if |ins| == 0 then Err(IndexError)
    else
      var length :- Length(ins[0]);
      if a[0].i > length then Err(AssertionError)
      else Ok(Filter(name, FadeOut(a[0].i, a[1].b, length), ins))
  }

  /** MergeTiledNode: the library's takes columns=2, rows=2 and at most
      rows * columns inputs; the script's takes no parameters, at most 4
      inputs, and always tiles 2x2. */
  function MakeMergeTiled(v: Variant, name: string, params: map<string, Value>, inputs: seq<Node>): (r: Result<Node>)
    ensures r.Ok? ==> r.value.Filter? && r.value.op.MergeTiled? && r.value.inputs == inputs
    ensures r.Ok? ==> |inputs| <= r.value.op.columns * r.value.op.rows
    ensures r.Ok? && v == Script ==> r.value.op == MergeTiled(2, 2)
  {
    if v == Library then
      var a :- Bind(params, [Optional("columns", Int(2)), Optional("rows", Int(2))]);
      var ins :- CheckArity(inputs, Some(a[1].i * a[0].i));
      Ok(Filter(name, MergeTiled(a[0].i, a[1].i), ins))
    else
      var _ :- Bind(params, []);
      var ins :- CheckArity(inputs, Some(4));
      Ok(Filter(name, MergeTiled(2, 2), ins))
  }

  // The classes below keep Node's default limit of one input; keyword
  // binding is checked before the limit.

  function MakeCrop(name: string, params: map<string, Value>, inputs: seq<Node>): (r: Result<Node>)
    ensures r.Ok? ==> Inputs(r.value) == inputs && |inputs| <= 1
    ensures |inputs| > 1 ==> r.Err?
  {
    var a :- Bind(params, [Required("hSize", IntKind), Required("vSize", IntKind),
                           Optional("hOffset", Int(0)), Optional("vOffset", Int(0))]);
    var ins :- CheckArity(inputs, Some(1));
    Ok(Filter(name, Crop(a[0].i, a[1].i, a[2].i, a[3].i), ins))
  }

  function MakeAddLabel(name: string, params: map<string, Value>, inputs: seq<Node>): (r: Result<Node>)
    ensures r.Ok? ==> Inputs(r.value) == inputs && |inputs| <= 1
    ensures |inputs| > 1 ==> r.Err?
  {
    var a :- Bind(params, [Required("label", StrKind), Optional("corner", Str("SouthWest"))]);
    var ins :- CheckArity(inputs, Some(1));
    Ok(Filter(name, AddLabel(a[0].s, a[1].s), ins))
  }

  function MakeRepeatInput(name: string, params: map<string, Value>, inputs: seq<Node>): (r: Result<Node>)
    ensures r.Ok? ==> Inputs(r.value) == inputs && |inputs| <= 1
    ensures |inputs| > 1 ==> r.Err?
  {
    var a :- Bind(params, [Required("frame", IntKind), Optional("duration", Int(24))]);
    var ins :- CheckArity(inputs, Some(1));
    Ok(RepeatInput(name, ins, a[0].i, a[1].i))
  }

  function MakeSubstream(name: string, params: map<string, Value>, inputs: seq<Node>): (r: Result<Node>)
    ensures r.Ok? ==> Inputs(r.value) == inputs && |inputs| <= 1
    ensures |inputs| > 1 ==> r.Err?
  {
    var a :- Bind(params, [Optional("first", Int(0)), Optional("last", Int(0))]);
    var ins :- CheckArity(inputs, Some(1));
    Ok(Substream(name, ins, a[0].i, a[1].i))
  }

  /** OutputNode is called without the parameters, so any it is given are ignored. */
  function MakeOutput(name: string, inputs: seq<Node>): (r: Result<Node>)
    ensures r.Ok? <==> |inputs| <= 1
    ensures r.Ok? ==> r.value == Filter(name, Output, inputs)
  {
    var ins :- CheckArity(inputs, Some(1));
    Ok(Filter(name, Output, ins))
  }

  function MakeResize(name: string, params: map<string, Value>, inputs: seq<Node>): (r: Result<Node>)
    ensures r.Ok? ==> Inputs(r.value) == inputs && |inputs| <= 1
    ensures |inputs| > 1 ==> r.Err?
  {
    var a :- Bind(params, [Optional("maximumWidth", Int(256)), Optional("maximumHeight", Int(256))]);
    var ins :- CheckArity(inputs, Some(1));
    Ok(Filter(name, Resize(a[0].i, a[1].i), ins))
  }

  function MakeChangeCanvasSize(name: string, params: map<string, Value>, inputs: seq<Node>): (r: Result<Node>)
    ensures r.Ok? ==> Inputs(r.value) == inputs && |inputs| <= 1
    ensures |inputs| > 1 ==> r.Err?
  {
    var a :- Bind(params, [Optional("width", Int(256)), Optional("height", Int(256)),
                           Optional("hShift", Int(0)), Optional("vShift", Int(0))]);
    var ins :- CheckArity(inputs, Some(1));
    Ok(Filter(name, ChangeCanvasSize(a[0].i, a[1].i, a[2].i, a[3].i), ins))
  }

  function MakeOverlay(name: string, params: map<string, Value>, inputs: seq<Node>): (r: Result<Node>)
    ensures r.Ok? ==> Inputs(r.value) == inputs && |inputs| <= 1
    ensures |inputs| > 1 ==> r.Err?
  {
    var a :- Bind(params, [Required("overlay", StrKind)]);
    var ins :- CheckArity(inputs, Some(1));
    Ok(Filter(name, Overlay(a[0].s), ins))
  }

  /** What a successful constructor call guarantees about the inputs the
      node keeps: sources keep none, every other class keeps exactly the
      resolved inputs, and single-input classes at most one of them. */
  lemma MadeArity(v: Variant, name: string, c: NodeClass, params: map<string, Value>, inputs: seq<Node>)
    requires MakeNode(v, name, c, params, inputs).Ok?
    ensures var n := MakeNode(v, name, c, params, inputs).value;
      && (c == ImageSequenceNode || c == RepeatImageNode ==> Inputs(n) == [])
      && (c != ImageSequenceNode && c != RepeatImageNode ==> Inputs(n) == inputs)
      && (SingleInput(c) ==> |inputs| <= 1)
  {
    KeptInputs(v, name, c, params, inputs);
    if SingleInput(c) && |inputs| > 1 {
      TooManyInputsFail(v, name, c, params, inputs);
    }
  }

  lemma KeptInputs(v: Variant, name: string, c: NodeClass, params: map<string, Value>, inputs: seq<Node>)
    requires MakeNode(v, name, c, params, inputs).Ok?
    ensures var n := MakeNode(v, name, c, params, inputs).value;
      && (c == ImageSequenceNode || c == RepeatImageNode ==> Inputs(n) == [])
      && (c != ImageSequenceNode && c != RepeatImageNode ==> Inputs(n) == inputs)
  {
    match c
    case MergeNode =>
    case ConcatNode =>
    case FadeOutNode =>
    case MergeTiledNode =>
    case _ =>
  }

  /** Conversely, a single-input class handed two or more inputs raises. */
  lemma TooManyInputsFail(v: Variant, name: string, c: NodeClass, params: map<string, Value>, inputs: seq<Node>)
    requires SingleInput(c) && |inputs| > 1
    ensures MakeNode(v, name, c, params, inputs).Err?
  {
  }

  /** A fade-out that builds has exactly one input, captured its length,
      and is no longer than it. */
  lemma FadeOutBuilt(v: Variant, name: string, params: map<string, Value>, inputs: seq<Node>)
    requires MakeNode(v, name, FadeOutNode, params, inputs).Ok?
    ensures var n := MakeNode(v, name, FadeOutNode, params, inputs).value;
      && n.Filter? && n.op.FadeOut? && n.inputs == inputs && |inputs| == 1
      && Length(inputs[0]) == Ok(n.op.length)
      && n.op.duration <= n.op.length
  {
  }

  /** A fade-out longer than its input is refused by the assertion, and
      one that fits is built with the input's length. */
  lemma FadeOutDurationChecked(v: Variant, name: string, input: Node, d: int, length: int)
    requires Length(input) == Ok(length)
    ensures var r := MakeNode(v, name, FadeOutNode, map["fadeOutDuration" := Int(d)], [input]);
      && (d > length ==> r == Err(AssertionError))
      && (d <= length ==> r == Ok(Filter(name, FadeOut(d, false, length), [input])))
  {
    var params := map["fadeOutDuration" := Int(d)];
    FadeOutDurationBinds(d);
    assert CheckArity([input], Some(1)) == Ok([input]);
    assert [input][0] == input;
    assert MakeFadeOut(name, params, [input])
        == if d > length then Err(AssertionError) else Ok(Filter(name, FadeOut(d, false, length), [input]));
    FadeOutDispatch(v, name, params, [input]);
  }

  lemma FadeOutDispatch(v: Variant, name: string, params: map<string, Value>, inputs: seq<Node>)
    ensures MakeNode(v, name, FadeOutNode, params, inputs) == MakeFadeOut(name, params, inputs)
  {
  }

  /** An explicit fadeOutDuration binds as given, with blur left off. */
  lemma FadeOutDurationBinds(d: int)
    ensures Bind(map["fadeOutDuration" := Int(d)], [Optional("fadeOutDuration", Int(24)), Optional("blur", Bool(false))])
         == Ok([Int(d), Bool(false)])
  {
    var params := map["fadeOutDuration" := Int(d)];
    var specs := [Optional("fadeOutDuration", Int(24)), Optional("blur", Bool(false))];
    assert specs[0].key == "fadeOutDuration";
    assert params.Keys <= Keys(specs);
    var a := Bind(params, specs).value;
    assert a[0] == Int(d) && a[1] == Bool(false);
    assert a == [Int(d), Bool(false)];
  }

  /** A concatenation that builds stores the boundaries of its inputs'
      lengths for its window; one with no inputs raises. */
  lemma ConcatBuilt(v: Variant, name: string, params: map<string, Value>, inputs: seq<Node>)
    ensures inputs == [] ==> MakeNode(v, name, ConcatNode, params, inputs).Err?
    ensures var r := MakeNode(v, name, ConcatNode, params, inputs);
      r.Ok? ==>
        && r.value.Concat? && r.value.inputs == inputs
        && Lengths(inputs).Ok?
        && r.value.prefixSum == StartIndices(Lengths(inputs).value, r.value.blend).value
        && (v == Script ==> r.value.blur)
  {
  }

  lemma BindNothing(params: map<string, Value>)
    requires Bind(params, []).Ok?
    ensures params == map[]
  {
    assert Keys([]) == {};
  }

  /** Every description the script builds, the library builds to the same
      node: the script's concatenation always blurs, as the library's does
      by default, and its fixed 2x2 tiling is the library's default tiling. */
  lemma ScriptNodeAgrees(name: string, c: NodeClass, params: map<string, Value>, inputs: seq<Node>)
    requires MakeNode(Script, name, c, params, inputs).Ok?
    ensures MakeNode(Library, name, c, params, inputs) == MakeNode(Script, name, c, params, inputs)
  {
    if c == ConcatNode {
      var one := [Optional("crossBlendDuration", Int(0))];
      var two := [Optional("crossBlendDuration", Int(0)), Optional("blur", Bool(true))];
      var a := Bind(params, one).value;
      assert Keys(one) == {"crossBlendDuration"} by { assert one[0].key == "crossBlendDuration"; }
      assert two[0].key == "crossBlendDuration" && two[1].key == "blur";
      assert "blur" !in params;
      assert params.Keys <= Keys(two);
      var b := Bind(params, two).value;
      assert b[0] == a[0] && b[1] == Bool(true);
    } else if c == MergeTiledNode {
      BindNothing(params);
      var two := [Optional("columns", Int(2)), Optional("rows", Int(2))];
      var b := Bind(params, two).value;
      assert b[0] == Int(2) && b[1] == Int(2);
    }
  }

  // ----- the builder loop -----

  /** The names bound so far and the node last built ('n'; None before the
      first entry). */
  datatype Built = Built(nodes: map<string, Node>, root: Node)

  /** The keyword parameters of a description.  The library treats a missing
      'params' like None (and an empty dictionary, which is falsy, gives the
      same {}); the script subscripts node['params'] and so needs the key. */
  function Params(v: Variant, f: Field<map<string, Value>>): (r: Result<map<string, Value>>)
    ensures r.Err? <==> v == Script && f.Absent?
    ensures r.Err? ==> r.fault == KeyError
    ensures r.Ok? && f.Given? ==> r.value == f.value
    ensures r.Ok? && !f.Given? ==> r.value == map[]
  {
    match f
    case Absent => if v == Script then Err(KeyError) else Ok(map[])
    case NoneValue => Ok(map[])
    case Given(m) => Ok(m)
  }

  /** [g[inputName] for inputName in inputNames]: every name must be bound. */
  function Lookup(g: map<string, Node>, names: seq<string>): (r: Result<seq<Node>>)
    ensures r.Ok? <==> forall k :: 0 <= k < |names| ==> names[k] in g
    ensures r.Err? ==> r.fault == KeyError
    ensures r.Ok? ==> |r.value| == |names| && forall k :: 0 <= k < |names| ==> r.value[k] == g[names[k]]
  {
    if |names| == 0 then Ok([])
    else if names[0] !in g then Err(KeyError)
    else
      var rest := Lookup(g, names[1..]);
      assert forall k :: 1 <= k < |names| ==> names[k] == names[1..][k - 1];
      var tail :- rest;
      Ok([g[names[0]]] + tail)
  }

  /** GetInputNodes: a missing or None 'inputs' means no inputs. */
  function InputNodes(g: map<string, Node>, f: Field<seq<string>>): (r: Result<seq<Node>>)
    ensures r.Ok? <==> !f.Given? || forall k :: 0 <= k < |f.value| ==> f.value[k] in g
    ensures r.Err? ==> r.fault == KeyError
    ensures r.Ok? && !f.Given? ==> r.value == []
    ensures r.Ok? && f.Given? ==> |r.value| == |f.value| && forall k :: 0 <= k < |f.value| ==> r.value[k] == g[f.value[k]]
  {
    if f.Given? then Lookup(g, f.value) else Ok([])
  }

  /** One iteration of the loop: parameters, then inputs, then the dispatch
      on 'type'.  An unknown type raises in the library; in the script no
      branch runs and n keeps the node built before. */
  function Construct(v: Variant, g: map<string, Node>, prev: Node, d: Desc): Result<Node> {
    var params :- Params(v, d.params);
    var inputs :- InputNodes(g, d.inputs);
    match ClassOf(v, d.kind)
    case Some(c) => MakeNode(v, d.name, c, params, inputs)
    case None => if v == Library then Err(UnknownKind) else Ok(prev)
  }

  /** The state after the loop has run over the whole list, or the first
      exception raised. */
  function Build(v: Variant, descs: seq<Desc>): Result<Built>
    decreases |descs|
  {
    if |descs| == 0 then Ok(Built(map[], Null))
    else
      var before :- Build(v, descs[..|descs| - 1]);
      Step(v, before, descs[|descs| - 1])
  }

  /** The loop body: build the entry's node, bind its name to it, and make
      it the current node.  The bound names grow by the entry's name, which
      now names the current node; every other name keeps its node, so a
      repeated name is rebound and the old node stays reachable only from
      nodes built before. */
  function Step(v: Variant, before: Built, d: Desc): (r: Result<Built>)
    ensures r.Ok? <==> Construct(v, before.nodes, before.root, d).Ok?
    ensures r.Ok? ==> r.value.root == Construct(v, before.nodes, before.root, d).value
    ensures r.Ok? ==> r.value.nodes == before.nodes[d.name := r.value.root]
    ensures r.Err? ==> r.fault == Construct(v, before.nodes, before.root, d).fault
    ensures r.Ok? ==> r.value.nodes.Keys == before.nodes.Keys + {d.name}
    ensures r.Ok? ==> r.value.nodes[d.name] == r.value.root
    ensures r.Ok? ==> forall m :: m in before.nodes && m != d.name ==> r.value.nodes[m] == before.nodes[m]
  {
    var n :- Construct(v, before.nodes, before.root, d);
    Ok(Built(before.nodes[d.name := n], n))
  }

  /** The node an iteration builds takes its inputs only among the nodes
      bound before it (GetInputNodes looks every name up in the map), unless
      the script skipped an unknown type and kept the node built before. */
  lemma StepInputsBound(v: Variant, before: Built, d: Desc)
    requires Step(v, before, d).Ok?
    ensures var root := Step(v, before, d).value.root;
      || (v == Script && ClassOf(v, d.kind).None? && root == before.root)
      || forall k :: 0 <= k < |Inputs(root)| ==> Inputs(root)[k] in before.nodes.Values
  {
    var params := Params(v, d.params).value;
    var inputs := InputNodes(before.nodes, d.inputs).value;
    match ClassOf(v, d.kind)
    case Some(c) =>
      KeptInputs(v, d.name, c, params, inputs);
      assert forall k :: 0 <= k < |inputs| ==> inputs[k] in before.nodes.Values by {
        forall k | 0 <= k < |inputs| ensures inputs[k] in before.nodes.Values {
          assert inputs[k] == before.nodes[d.inputs.value[k]];
        }
      }
    case None =>
  }

  /** Once a prefix of the list raises, the whole list raises the same. */
  lemma {:induction false} BuildStopsAt(v: Variant, descs: seq<Desc>, m: nat)
    requires m <= |descs| && Build(v, descs[..m]).Err?
    ensures Build(v, descs) == Build(v, descs[..m])
    decreases |descs| - m
  {
    if m == |descs| {
      assert descs[..m] == descs;
    } else {
      assert descs[..m + 1][..m] == descs[..m];
      BuildStopsAt(v, descs, m + 1);
    }
  }

  /** One more description is one more loop iteration. */
  lemma BuildExtends(v: Variant, descs: seq<Desc>, i: nat, before: Built)
    requires i < |descs| && Build(v, descs[..i]) == Ok(before)
    ensures Build(v, descs[..i + 1]) == Step(v, before, descs[i])
  {
    assert descs[..i + 1][..i] == descs[..i];
  }

  /** CreateGraph as the source runs it: a dictionary and the current node
      updated once per description; the result is the last node built. */
  method CreateGraph(v: Variant, graphDesc: seq<Desc>) returns (r: Result<Node>)
    ensures Build(v, graphDesc).Ok? ==> r == Ok(Build(v, graphDesc).value.root)
    ensures Build(v, graphDesc).Err? ==> r == Err(Build(v, graphDesc).fault)
  {
    var g: map<string, Node> := map[];
    var n := Null;
    for i := 0 to |graphDesc|
      invariant Build(v, graphDesc[..i]) == Ok(Built(g, n))
    {
      var node := graphDesc[i];
      BuildExtends(v, graphDesc, i, Built(g, n));
      var made := Construct(v, g, n, node);
      if made.Err? {
        BuildStopsAt(v, graphDesc, i + 1);
        return Err(made.fault);
      }
      n := made.value;
      g := g[node.name := n];
    }
    assert graphDesc[..|graphDesc|] == graphDesc;
    return Ok(n);
  }

  /** The 'name' fields of a list of descriptions. */
  function Names(descs: seq<Desc>): set<string> {
    if |descs| == 0 then {} else Names(descs[..|descs| - 1]) + {descs[|descs| - 1].name}
  }

  /** A name is among the names exactly when some entry carries it. */
  lemma {:induction false} NamesListed(descs: seq<Desc>, x: string)
    ensures x in Names(descs) <==> exists k :: 0 <= k < |descs| && descs[k].name == x
  {
    if |descs| > 0 {
      var init := descs[..|descs| - 1];
      NamesListed(init, x);
      if x in Names(init) {
        var k :| 0 <= k < |init| && init[k].name == x;
        assert descs[k].name == x;
      }
      if exists k :: 0 <= k < |descs| && descs[k].name == x {
        var k :| 0 <= k < |descs| && descs[k].name == x;
        if k < |init| {
          assert init[k].name == x;
        }
      }
    }
  }

  /** The names bound are exactly the names of the descriptions. */
  lemma {:induction false} NamesBound(v: Variant, descs: seq<Desc>)
    requires Build(v, descs).Ok?
    ensures Build(v, descs).value.nodes.Keys == Names(descs)
  {
    if |descs| > 0 {
      var init := descs[..|descs| - 1];
      NamesBound(v, init);
      assert Build(v, descs) == Step(v, Build(v, init).value, descs[|descs| - 1]);
    }
  }

  /** A list that builds has every prefix build. */
  lemma {:induction false} BuildPrefixOk(v: Variant, descs: seq<Desc>, m: nat)
    requires m <= |descs| && Build(v, descs).Ok?
    ensures Build(v, descs[..m]).Ok?
    decreases |descs|
  {
    if m == |descs| {
      assert descs[..m] == descs;
    } else {
      var init := descs[..|descs| - 1];
      assert init[..m] == descs[..m];
      BuildPrefixOk(v, init, m);
    }
  }

  /** Inputs resolve only backward: in a list that builds, every input name
      of entry i is the name of an entry before i. */
  lemma ResolvesOnlyBackward(v: Variant, descs: seq<Desc>, i: nat, k: nat)
    requires Build(v, descs).Ok?
    requires i < |descs| && descs[i].inputs.Given? && k < |descs[i].inputs.value|
    ensures exists j :: 0 <= j < i && descs[j].name == descs[i].inputs.value[k]
  {
    BuildPrefixOk(v, descs, i + 1);
    var upto := descs[..i + 1];
    assert upto[..i] == descs[..i];
    NamesBound(v, descs[..i]);
    var name := descs[i].inputs.value[k];
    assert name in Build(v, descs[..i]).value.nodes;
    NamesListed(descs[..i], name);
    var j :| 0 <= j < i && descs[..i][j].name == name;
    assert descs[j].name == name;
  }

  /** And the converse: an input naming no earlier entry (a forward
      reference, or no entry at all) makes the build raise. */
  lemma ForwardReferenceFails(v: Variant, descs: seq<Desc>, i: nat, k: nat)
    requires i < |descs| && descs[i].inputs.Given? && k < |descs[i].inputs.value|
    requires forall j :: 0 <= j < i ==> descs[j].name != descs[i].inputs.value[k]
    ensures Build(v, descs).Err?
  {
    var upto := descs[..i + 1];
    assert upto[..i] == descs[..i];
    if Build(v, descs[..i]).Ok? {
      NamesBound(v, descs[..i]);
      var name := descs[i].inputs.value[k];
      NamesListed(descs[..i], name);
      assert name !in Build(v, descs[..i]).value.nodes;
    }
    BuildStopsAt(v, descs, i + 1);
  }

  /** The library builds a list only if every 'type' in it is one it knows;
      an entry of unknown type makes it raise. */
  lemma LibraryKnownKinds(descs: seq<Desc>, i: nat)
    requires i < |descs|
    ensures LibraryClass(descs[i].kind).None? ==> Build(Library, descs).Err?
    ensures Build(Library, descs).Ok? ==> LibraryClass(descs[i].kind).Some?
  {
    if LibraryClass(descs[i].kind).None? {
      BuildOneMore(Library, descs, i);
      if Build(Library, descs[..i]).Ok? {
        UnknownKindRaises(Build(Library, descs[..i]).value, descs[i]);
      }
      BuildStopsAt(Library, descs, i + 1);
    }
  }

  /** The loop over the first i + 1 entries is the loop over the first i
      followed by one more step. */
  lemma BuildOneMore(v: Variant, descs: seq<Desc>, i: nat)
    requires i < |descs|
    ensures Build(v, descs[..i + 1])
         == if Build(v, descs[..i]).Err? then Build(v, descs[..i]) else Step(v, Build(v, descs[..i]).value, descs[i])
  {
    assert descs[..i + 1][..i] == descs[..i];
  }

  /** In the library a description of unknown type raises, whatever the
      state of the loop. */
  lemma UnknownKindRaises(before: Built, d: Desc)
    requires LibraryClass(d.kind).None?
    ensures Step(Library, before, d).Err?
  {
  }

  /** The script builds a list only if every entry has a 'params' key; one
      without it makes the script raise. */
  lemma ScriptRequiresParams(descs: seq<Desc>, i: nat)
    requires i < |descs|
    ensures descs[i].params.Absent? ==> Build(Script, descs).Err?
    ensures Build(Script, descs).Ok? ==> !descs[i].params.Absent?
  {
    var upto := descs[..i + 1];
    assert upto[..i] == descs[..i];
    if descs[i].params.Absent? {
      BuildStopsAt(Script, descs, i + 1);
    }
  }

  /** The result is the node bound to the last entry's name; an empty list
      gives None. */
  lemma RootIsLastBound(v: Variant, descs: seq<Desc>)
    requires Build(v, descs).Ok?
    ensures |descs| == 0 ==> Build(v, descs).value.root == Null
    ensures |descs| > 0 ==> var b := Build(v, descs).value;
      descs[|descs| - 1].name in b.nodes && b.root == b.nodes[descs[|descs| - 1].name]
  {
  }

  /** In the script, an entry of unknown type binds its name to the node
      built before it (None when it comes first) and leaves that node the
      result. */
  lemma ScriptUnknownKeepsPrevious(descs: seq<Desc>, d: Desc)
    requires Build(Script, descs).Ok?
    requires ScriptClass(d.kind).None? && !d.params.Absent?
    requires InputNodes(Build(Script, descs).value.nodes, d.inputs).Ok?
    ensures var b := Build(Script, descs).value;
      Build(Script, descs + [d]) == Ok(Built(b.nodes[d.name := b.root], b.root))
    ensures descs == [] ==> Build(Script, descs + [d]).value.root == Null
  {
    assert (descs + [d])[..|descs|] == descs;
  }

  /** Wherever the script builds a list all of whose types it knows, the
      library builds the same graph. */
  lemma {:induction false} ScriptAgreesWithLibrary(descs: seq<Desc>)
    requires forall k :: 0 <= k < |descs| ==> ScriptClass(descs[k].kind).Some?
    requires Build(Script, descs).Ok?
    ensures Build(Library, descs) == Build(Script, descs)
  {
    if |descs| > 0 {
      var init := descs[..|descs| - 1];
      var d := descs[|descs| - 1];
      ScriptAgreesWithLibrary(init);
      var b := Build(Script, init).value;
      var c := ScriptClass(d.kind).value;
      assert Params(Library, d.params) == Params(Script, d.params);
      var params := Params(Script, d.params).value;
      var inputs := InputNodes(b.nodes, d.inputs).value;
      ScriptNodeAgrees(d.name, c, params, inputs);
    }
  }
}

=== FILE: common.dfy ===
/** Values shared by every part of the frame-graph model: optional values,
    results that carry the Python exception an operation raises, and the
    integer arithmetic that stands in for Python's float-then-int() steps. */
module Common {

  datatype Option<+T> = None | Some(value: T)

  /** The exception a failing Python operation raises.  The model never
      distinguishes two raises of the same class, so the class is enough. */
  datatype Fault =
    | IndexError         // a list subscript past its end: streams[-1], prefixSum[i+1], inputs[0]
    | KeyError           // a dictionary lookup of an absent key: an undefined input name, a missing 'params'
    | ValueError         // min() of an empty list
    | TypeError          // keyword parameters that do not fit a node constructor
    | AssertionError     // an arity or fade-duration assertion
    | ZeroDivisionError  // a fade whose duration is 0
    | AttributeError     // a method called on None
    | UnknownKind        // the library builder's "Unknown node type"

  /** Either the value an operation returns or the exception it raises.
      Failure-compatible, so `:-` propagates the first exception. */
  datatype Result<+T> = Ok(value: T) | Err(fault: Fault) {
    predicate IsFailure() { Err? }

    function PropagateFailure<U>(): Result<U>
      requires Err?
    {
      Err(fault)
    }

    function Extract(): T
      requires Ok?
    {
      value
    }
  }

  function Abs(x: int): nat {
    if x < 0 then -x else x
  }

  function Min(a: int, b: int): int {
    if a <= b then a else b
  }

  /** Python's int(a / b) computed on exact rationals: the quotient rounded
      toward zero (Dafny's own / rounds toward minus infinity). */
  function TruncDiv(a: int, b: int): (q: int)
    requires b != 0
    ensures Abs(q) * Abs(b) <= Abs(a) < (Abs(q) + 1) * Abs(b)
    ensures (a >= 0) == (b > 0) ==> q >= 0
    ensures (a <= 0) == (b > 0) ==> q <= 0
    ensures 0 <= a && 0 < b ==> q == a / b
  {
    var m := Abs(a) / Abs(b);
    DivBounds(Abs(a), Abs(b));
    if (a < 0) == (b < 0) then m else -m
  }

  /** Euclidean division of naturals brackets the dividend. */
  lemma DivBounds(x: nat, y: nat)
    requires y > 0
    ensures x / y >= 0
    ensures (x / y) * y <= x < (x / y + 1) * y
  {
    assert x == (x / y) * y + x % y;
    assert (x / y + 1) * y == (x / y) * y + y;
  }

  lemma LessByMul(x: int, y: int, d: int)
    requires 0 < d && x * d < y * d
    ensures x < y
  {
  }

  /** Euclidean division by a positive divisor is monotone in the dividend. */
  lemma DivMonotone(a: int, b: int, d: int)
    requires 0 <= a <= b && 0 < d
    ensures a / d <= b / d
  {
    assert a == (a / d) * d + a % d;
    assert b == (b / d) * d + b % d;
    assert (b / d + 1) * d == (b / d) * d + d;
    LessByMul(a / d, b / d + 1, d);
  }
}

=== FILE: evaluate.dfy ===
/** Producing one frame (Execute in ava/__init__.py and ava.py): the trace
    of backend calls a node makes to write frame `idx` of its stream to
    `target`, in the order it makes them, or the exception it raises.
    Each node first decides, without recursion, which of its inputs it
    evaluates at which index into which file, and which call of its own
    follows (NodeStep); Plan runs those requests and appends that call. */
module Evaluate {
  import opened Common
  import opened Backend
  import opened Graph
  import opened Segments
  import opened BlendFactors
  import opened Fades

  /** Which evaluation runs: the source as written, or with the two
      corrections of the substream index and the fade-in progress. */
  datatype Revision = AsWritten | Corrected

  /** Evaluate inputs[input] at `index`, writing to `target`. */
  datatype Request = Request(input: nat, index: int, target: Path)

  /** What a node does for one frame: the requests to its inputs, in order,
      then its own call (none, one, or an exception raised after the
      inputs have run). */
  datatype Step = Step(requests: seq<Request>, own: Result<Option<Call>>)

  /** The temporaries of a node's first `count` input slots. */
  function Slots(pid: nat, name: string, count: nat): (s: seq<Path>)
    ensures |s| == count && forall k :: 0 <= k < count ==> s[k] == Temp(pid, name, k)
  {
    seq(count, k requires 0 <= k < count => Temp(pid, name, k))
  }

  /** SubstreamNode.Execute as written: the input is asked for index - first. */
  function SubstreamIndexAsWritten(first: int, idx: int): int {
    idx - first
  }

  /** The input index of a substream's frame idx: the substream's frames are
      its input's frames first .. last - 1, so frame idx is input frame
      first + idx. */
  function SubstreamIndex(first: int, idx: int): (j: int)
    ensures 0 <= idx ==> first <= j
    ensures j - first == idx
  {
    idx + first
  }

  /** The Eval of a node with the default Execute, as a backend action. */
  function FilterAction(rev: Revision, op: Op, idx: int): (r: Result<Action>)
    ensures !IsFade(op) ==> r.Ok?
    ensures r.Err? ==> r == Err(ZeroDivisionError)
  {
    match op
    case AddLabel(text, corner) => Ok(Annotate(text, corner))
    case Crop(hSize, vSize, hOffset, vOffset) => Ok(CropTo(hSize, vSize, hOffset, vOffset))
    case Merge => Ok(Append)
    case Resize(w, h) => Ok(ResizeTo(w, h))
    case ChangeCanvasSize(w, h, hShift, vShift) => Ok(Extent(w, h, hShift, vShift))
    case MergeTiled(columns, rows) => Ok(Montage(columns, rows))
    case Output => Ok(Normalize)
    case Overlay(overlay) => Ok(Composite(overlay))
    case FadeOut(duration, blur, length) => FadeOutAction(duration, blur, length, idx)
    case FadeIn(duration, blur, length) =>
      if rev == AsWritten then FadeInActionAsWritten(duration, blur, length, idx)
      else FadeInAction(duration, blur, length, idx)
  }

  /** One node's decision for frame idx. */
  function NodeStep(rev: Revision, pid: nat, n: Node, idx: int, target: Path): (r: Result<Step>)
    ensures r.Err? <==> n.Null? || (n.Concat? && ConcatRoute(n.prefixSum, n.blend, idx).Err?)
    ensures r.Ok? && r.value.own.Ok? && r.value.own.value.Some? ==> r.value.own.value.value.out == target
    ensures r.Ok? && r.value.own == Ok(None) ==>
      |r.value.requests| <= 1 && forall q :: q in r.value.requests ==> q.target == target
  {
    match n
    case Null => Err(AttributeError)
    case ImageSequence(_, format, _, offset) =>
      Ok(Step([], Ok(Some(ReadFrame(format, idx + offset, target)))))
    case RepeatImage(_, image, _) =>
      Ok(Step([], Ok(Some(ReadImage(image, target)))))
    case RepeatInput(_, _, frame, _) =>
      Ok(Step([Request(0, frame, target)], Ok(None)))
    case Substream(_, _, first, _) =>
      var j := if rev == AsWritten then SubstreamIndexAsWritten(first, idx) else SubstreamIndex(first, idx);
      Ok(Step([Request(0, j, target)], Ok(None)))
    case Concat(name, _, w, blur, prefixSum) =>
      var route :- ConcatRoute(prefixSum, w, idx);
      (match route
      case Nothing => Ok(Step([], Ok(None)))
      case Direct(i, local) => Ok(Step([Request(i, local, target)], Ok(None)))
      case CrossBlend(i, left, right) =>
        var outgoing := Temp(pid, name, 0);
        var incoming := Temp(pid, name, 1);
        var radius := if blur then Some(BlurRadius(right, w)) else None;
        Ok(Step([Request(i - 1, left, outgoing), Request(i, right, incoming)],
                Ok(Some(Blend(name, Strength(right, w), radius, incoming, outgoing, target))))))
    case Filter(name, op, inputs) =>
      var slots := Slots(pid, name, |inputs|);
      var requests := seq(|inputs|, k requires 0 <= k < |inputs| => Request(k, idx, slots[k]));
      var own := match FilterAction(rev, op, idx)
        case Ok(a) => Ok(Some(Apply(name, a, slots, target)))
        case Err(f) => Err(f);
      Ok(Step(requests, own))
  }

  /** The calls made to write frame idx of n to target. */
  function Plan(rev: Revision, pid: nat, n: Node, idx: int, target: Path): Result<seq<Call>>
    decreases n, 1, 0
  {
    var step :- NodeStep(rev, pid, n, idx, target);
    var staged :- Run(rev, pid, n, step.requests);
    var own :- step.own;
    match own
    case None => Ok(staged)
    case Some(c) => Ok(staged + [c])
  }

  /** The requests run in order; asking for an input the node does not have
      is the IndexError of self.inputs[i]. */
  function Run(rev: Revision, pid: nat, n: Node, requests: seq<Request>): Result<seq<Call>>
    decreases n, 0, |requests|
  {
    if |requests| == 0 then Ok([])
    else
      var r := requests[0];
      if r.input >= |Inputs(n)| then Err(IndexError)
      else
        var first :- Plan(rev, pid, Inputs(n)[r.input], r.index, r.target);
        var rest :- Run(rev, pid, n, requests[1..]);
        Ok(first + rest)
  }

  /** A node that delegates one request runs exactly that input's plan. */
  lemma RunOne(rev: Revision, pid: nat, n: Node, r: Request)
    requires r.input < |Inputs(n)|
    ensures Run(rev, pid, n, [r]) == Plan(rev, pid, Inputs(n)[r.input], r.index, r.target)
  {
    var p := Plan(rev, pid, Inputs(n)[r.input], r.index, r.target);
    if p.Ok? {
      assert p.value + [] == p.value;
    }
  }

  /** Whatever a node does for a frame, the last call it makes writes the
      target it was handed: either its own call does, or the one input it
      delegates to writes the target directly. */
  lemma {:induction false} PlanWritesTarget(rev: Revision, pid: nat, n: Node, idx: int, target: Path)
    ensures var p := Plan(rev, pid, n, idx, target);
      p.Ok? && p.value != [] ==> p.value[|p.value| - 1].out == target
    decreases n
  {
    var s := NodeStep(rev, pid, n, idx, target);
    if s.Ok? && s.value.own == Ok(None) && |s.value.requests| == 1 {
      var r := s.value.requests[0];
      assert r in s.value.requests;
      if r.input < |Inputs(n)| {
        RunOne(rev, pid, n, r);
        PlanWritesTarget(rev, pid, Inputs(n)[r.input], r.index, r.target);
      }
    }
  }

  /** Node.Execute's two comprehensions read directly: input k, from `from`
      on, is evaluated at the node's own index into the temporary of slot k,
      and the first exception stops the evaluation. */
  function StageInputs(rev: Revision, pid: nat, name: string, inputs: seq<Node>, idx: int, from: nat): Result<seq<Call>>
    requires from <= |inputs|
    decreases |inputs| - from
  {
    if from == |inputs| then Ok([])
    else
      var first :- Plan(rev, pid, inputs[from], idx, Temp(pid, name, from));
      var rest :- StageInputs(rev, pid, name, inputs, idx, from + 1);
      Ok(first + rest)
  }

  lemma {:induction false} RunStagesInputs(rev: Revision, pid: nat, name: string, op: Op, inputs: seq<Node>, idx: int, target: Path, from: nat)
    requires from <= |inputs|
    ensures var requests := NodeStep(rev, pid, Filter(name, op, inputs), idx, target).value.requests;
      Run(rev, pid, Filter(name, op, inputs), requests[from..]) == StageInputs(rev, pid, name, inputs, idx, from)
    decreases |inputs| - from
  {
    var requests := NodeStep(rev, pid, Filter(name, op, inputs), idx, target).value.requests;
    if from < |inputs| {
      assert requests[from..][1..] == requests[from + 1..];
      assert requests[from..][0] == Request(from, idx, Temp(pid, name, from));
      RunStagesInputs(rev, pid, name, op, inputs, idx, target, from + 1);
    }
  }

  /** A node with the default Execute evaluates every input, in order, at
      its own frame index into the temporary of that input's slot, then
      runs its Eval on exactly those temporaries, writing the target; a fade
      whose duration is 0 raises only after its input has been evaluated. */
  lemma FilterPlan(rev: Revision, pid: nat, name: string, op: Op, inputs: seq<Node>, idx: int, target: Path)
    ensures Plan(rev, pid, Filter(name, op, inputs), idx, target) ==
      (var staged :- StageInputs(rev, pid, name, inputs, idx, 0);
       var a :- FilterAction(rev, op, idx);
       Ok(staged + [Apply(name, a, Slots(pid, name, |inputs|), target)]))
  {
    var requests := NodeStep(rev, pid, Filter(name, op, inputs), idx, target).value.requests;
    RunStagesInputs(rev, pid, name, op, inputs, idx, target, 0);
    assert requests[0..] == requests;
  }

  /** An image sequence reads source frame idx + offset: with offset 1 its
      frames 0, 1, 2 are source images 1, 2, 3. */
  lemma ImageSequenceReadsOffsetFrame(rev: Revision, pid: nat, name: string, format: string, count: int, offset: int, idx: int, target: Path)
    ensures Plan(rev, pid, ImageSequence(name, format, count, offset), idx, target)
         == Ok([ReadFrame(format, idx + offset, target)])
    ensures Plan(rev, pid, ImageSequence(name, format, 3, 1), 2, target) == Ok([ReadFrame(format, 3, target)])
  {
    assert [] + [ReadFrame(format, idx + offset, target)] == [ReadFrame(format, idx + offset, target)];
    assert [] + [ReadFrame(format, 3, target)] == [ReadFrame(format, 3, target)];
  }

  /** A repeated input renders its pinned frame whatever frame is asked
      for, straight into the target. */
  lemma RepeatInputPinned(rev: Revision, pid: nat, name: string, input: Node, frame: int, duration: int, i: int, j: int, target: Path)
    ensures Plan(rev, pid, RepeatInput(name, [input], frame, duration), i, target)
         == Plan(rev, pid, input, frame, target)
    ensures Plan(rev, pid, RepeatInput(name, [input], frame, duration), i, target)
         == Plan(rev, pid, RepeatInput(name, [input], frame, duration), j, target)
  {
    RunOne(rev, pid, RepeatInput(name, [input], frame, duration), Request(0, frame, target));
  }

  /** A substream's frame idx is its input's frame first + idx, written
      straight into the target; as written it is the input's frame
      idx - first. */
  lemma SubstreamDelegates(rev: Revision, pid: nat, name: string, input: Node, first: int, last: int, idx: int, target: Path)
    ensures rev == Corrected ==>
      Plan(rev, pid, Substream(name, [input], first, last), idx, target) == Plan(rev, pid, input, first + idx, target)
    ensures rev == AsWritten ==>
      Plan(rev, pid, Substream(name, [input], first, last), idx, target) == Plan(rev, pid, input, idx - first, target)
  {
    var j := if rev == AsWritten then SubstreamIndexAsWritten(first, idx) else SubstreamIndex(first, idx);
    RunOne(rev, pid, Substream(name, [input], first, last), Request(0, j, target));
  }

  /** For first = 5 and last = 15 the substream has 10 frames and its
      frame 3 is the input's frame 8. */
  lemma SubstreamExample(pid: nat, name: string, input: Node, target: Path)
    ensures Length(Substream(name, [input], 5, 15)) == Ok(10)
    ensures Plan(Corrected, pid, Substream(name, [input], 5, 15), 3, target) == Plan(Corrected, pid, input, 8, target)
  {
    SubstreamDelegates(Corrected, pid, name, input, 5, 15, 3, target);
  }

  /** Every frame of a substream maps into the input frames it covers. */
  lemma SubstreamIndexInRange(first: int, last: int, idx: int)
    requires 0 <= idx < last - first
    ensures first <= SubstreamIndex(first, idx) < last
  {
  }

  /** As written, frame 3 of the substream first = 5, last = 15 asks its
      input for frame -2, which no input has, instead of frame 8: over a
      20-frame image sequence the program as written reads source image -2
      where the corrected one reads image 8.  The two agree when first is 0. */
  lemma SubstreamAsWrittenCounterexample(pid: nat, name: string, source: string, format: string, idx: int, target: Path)
    ensures SubstreamIndexAsWritten(5, 3) == -2 && SubstreamIndex(5, 3) == 8
    ensures Plan(AsWritten, pid, Substream(name, [ImageSequence(source, format, 20, 0)], 5, 15), 3, target)
         == Ok([ReadFrame(format, -2, target)])
    ensures Plan(Corrected, pid, Substream(name, [ImageSequence(source, format, 20, 0)], 5, 15), 3, target)
         == Ok([ReadFrame(format, 8, target)])
    ensures SubstreamIndexAsWritten(0, idx) == SubstreamIndex(0, idx)
  {
    var input := ImageSequence(source, format, 20, 0);
    SubstreamDelegates(AsWritten, pid, name, input, 5, 15, 3, target);
    SubstreamDelegates(Corrected, pid, name, input, 5, 15, 3, target);
    ImageSequenceReadsOffsetFrame(AsWritten, pid, source, format, 20, 0, -2, target);
    ImageSequenceReadsOffsetFrame(Corrected, pid, source, format, 20, 0, 8, target);
  }

  /** A graph on which the two corrections change nothing: every substream
      starts at its input's frame 0 and every fade-in spans its whole
      stream. */
  predicate CorrectionsInert(n: Node) {
    && (n.Substream? ==> n.first == 0)
    && (n.Filter? && n.op.FadeIn? ==> n.op.duration == n.op.length)
    && forall k :: 0 <= k < |Inputs(n)| ==> CorrectionsInert(Inputs(n)[k])
  }

  /** On such a graph the program as written and the corrected one make
      the same calls for every frame, or raise the same exception. */
  lemma {:induction false} PlansAgree(pid: nat, n: Node, idx: int, target: Path)
    requires CorrectionsInert(n)
    ensures Plan(AsWritten, pid, n, idx, target) == Plan(Corrected, pid, n, idx, target)
    decreases n, 1, 0
  {
    StepsAgree(pid, n, idx, target);
    var s := NodeStep(Corrected, pid, n, idx, target);
    if s.Ok? {
      RunsAgree(pid, n, s.value.requests);
    }
  }

  lemma {:induction false} RunsAgree(pid: nat, n: Node, requests: seq<Request>)
    requires CorrectionsInert(n)
    ensures Run(AsWritten, pid, n, requests) == Run(Corrected, pid, n, requests)
    decreases n, 0, |requests|
  {
    if |requests| > 0 && requests[0].input < |Inputs(n)| {
      var r := requests[0];
      PlansAgree(pid, Inputs(n)[r.input], r.index, r.target);
      RunsAgree(pid, n, requests[1..]);
    }
  }

  /** One node decides the same requests and the same own call. */
  lemma StepsAgree(pid: nat, n: Node, idx: int, target: Path)
    requires CorrectionsInert(n)
    ensures NodeStep(AsWritten, pid, n, idx, target) == NodeStep(Corrected, pid, n, idx, target)
  {
    if n.Filter? && n.op.FadeIn? {
      FadeInAgreesOnWholeStream(n.op.duration, n.op.blur, n.op.length, idx);
    }
  }

  /** A concatenation frame outside every blend zone is its input's frame,
      written straight into the target. */
  lemma ConcatDirectPlan(rev: Revision, pid: nat, name: string, inputs: seq<Node>, w: int, blur: bool, b: seq<int>,
                         idx: int, target: Path, i: nat, local: int)
    requires ConcatRoute(b, w, idx) == Ok(Direct(i, local)) && i < |inputs|
    ensures Plan(rev, pid, Concat(name, inputs, w, blur, b), idx, target) == Plan(rev, pid, inputs[i], local, target)
  {
    RunOne(rev, pid, Concat(name, inputs, w, blur, b), Request(i, local, target));
  }

  /** A frame in a blend zone evaluates the outgoing input into the
      concatenation's temporary 0 and the incoming one into temporary 1, then
      blends them into the target, incoming first, with the strength and
      (exactly when blurring is on) the radius of the position in the window. */
  lemma ConcatBlendPlan(rev: Revision, pid: nat, name: string, inputs: seq<Node>, w: int, blur: bool, b: seq<int>,
                        idx: int, target: Path, i: nat, left: int, right: int)
    requires ConcatRoute(b, w, idx) == Ok(CrossBlend(i, left, right)) && i < |inputs|
    ensures 0 < i && 0 <= right < w
    ensures Plan(rev, pid, Concat(name, inputs, w, blur, b), idx, target) ==
      (var outgoing :- Plan(rev, pid, inputs[i - 1], left, Temp(pid, name, 0));
       var incoming :- Plan(rev, pid, inputs[i], right, Temp(pid, name, 1));
       Ok(outgoing + incoming + [Blend(name, Strength(right, w), if blur then Some(BlurRadius(right, w)) else None,
                                       Temp(pid, name, 1), Temp(pid, name, 0), target)]))
  {
    var n := Concat(name, inputs, w, blur, b);
    var requests := NodeStep(rev, pid, n, idx, target).value.requests;
    assert requests[1..] == [requests[1]];
    RunOne(rev, pid, n, requests[1]);
    var o := Plan(rev, pid, inputs[i - 1], left, Temp(pid, name, 0));
    var c := Plan(rev, pid, inputs[i], right, Temp(pid, name, 1));
    if o.Ok? && c.Ok? {
      assert o.value + c.value + [] == o.value + c.value;
    }
  }
}

=== FILE: example.dfy ===
/** The example graph embedded in the script (ava.py:274-600): four
    comparison clips, a tiled clip, a title that fades out and a disclaimer,
    concatenated with a 16-frame cross-blend and written out.  The nodes are
    the ones the script's builder makes from those descriptions, written
    out directly; the entry names are kept as node names. */
module Example {
  import opened Common
  import opened Boundaries
  import opened Graph
  import opened Segments
  import opened BlendFactors
  import opened Evaluate
  import opened Soundness
  import opened Backend
  import opened Naming
  import opened Render

  function Labeled(name: string, text: string, corner: string, input: Node): Node {
    Filter(name, AddLabel(text, corner), [input])
  }

  function Cropped(name: string, hSize: int, input: Node): Node {
    Filter(name, Crop(hSize, 100, 0, 0), [input])
  }

  /** The ten leaves of the graph: eight image sequences and two stills. */
  datatype Sources = Sources(
    swReference: Node, swRegular: Node, swMlaa: Node, swSraa: Node,
    reference: Node, sraa: Node, mlaa: Node, regular: Node,
    title: Node, disclaimer: Node)

  /** The leaves as the script's descriptions give them. */
  const Listed := Sources(
    ImageSequence("Load-SW-Reference", "ani-output/regular-16-{0:03}.png", 300, 1),
    ImageSequence("Load-SW-Regular", "ani-output/regular-1-{0:03}.png", 300, 1),
    ImageSequence("Load-SW-MLAA", "ani-output/mlaa-{0:03}.png", 300, 1),
    ImageSequence("Load-SW-SRAA", "ani-output/sraa-{0:03}.png", 300, 1),
    ImageSequence("Load-Reference", "RefBiasTweaked/capture{0:08}.tga", 700, 421),
    ImageSequence("Load-SRAA", "SRAA/capture{0:08}.png", 700, 388),
    ImageSequence("Load-MLAA", "MLAA/frame{0:08}.png", 700, 1),
    ImageSequence("Load-Regular", "NoMSAA/capture{0:08}.png", 700, 363),
    RepeatImage("TitleScreen", "title.png", 72),
    RepeatImage("DisclaimerScreen", "disclaimer.png", 120))

  predicate Sequence(n: Node, count: int) {
    n.ImageSequence? && n.count == count
  }

  /** What the lengths depend on: the kinds of the leaves and their frame
      counts. */
  predicate Counts(s: Sources) {
    && Sequence(s.swReference, 300) && Sequence(s.swRegular, 300)
    && Sequence(s.swMlaa, 300) && Sequence(s.swSraa, 300)
    && Sequence(s.reference, 700) && Sequence(s.sraa, 700)
    && Sequence(s.mlaa, 700) && Sequence(s.regular, 700)
    && s.title.RepeatImage? && s.title.duration == 72
    && s.disclaimer.RepeatImage? && s.disclaimer.duration == 120
  }

  // ----- the nine clips of the concatenation -----

  function TitleFadeOut(s: Sources): Node {
    Filter("Titlescreen-FadeOut", FadeOut(24, true, 72), [s.title])
  }

  function SwTiled(s: Sources): Node {
    Filter("SW-Tiled", MergeTiled(2, 2), [
      Labeled("SW-Regular-Labeled", "Input (1x shading)", "NorthWest", s.swRegular),
      Labeled("SW-Ref-Labeled", "Reference (16x shading)", "NorthEast", s.swReference),
      Labeled("SW-MLAA-Labeled", "MLAA", "SouthWest", s.swMlaa),
      Labeled("SW-SRAA-Labeled", "SRAA", "SouthEast", s.swSraa)])
  }

  function SraaRight(s: Sources): Node {
    Labeled("label-sraa-right", "SRAA (35 fps)", "NorthEast", Cropped("Crop-SRAA-50%", 50, s.sraa))
  }

  /** A comparison: the left half of one render, labelled in the top left
      corner, merged over the labelled right half of the SRAA render. */
  function HalfAndHalf(name: string, labelName: string, text: string, cropName: string, left: Node, s: Sources): Node {
    Filter(name, Merge, [Labeled(labelName, text, "NorthWest", Cropped(cropName, 50, left)), SraaRight(s)])
  }

  function RegularVsSraa(s: Sources): Node {
    HalfAndHalf("reg-vs-sraa", "label-regular-left", "Regular (36 fps)", "Crop-regular-left", s.regular, s)
  }

  function MlaaVsSraa(s: Sources): Node {
    HalfAndHalf("mlaa-vs-sraa", "label-mlaa-left", "MLAA (35 fps)", "Crop-mlaa-left", s.mlaa, s)
  }

  function ReferenceVsSraa(s: Sources): Node {
    HalfAndHalf("ref-vs-sraa", "label-ref-left", "Reference (1 fps)", "Crop-ref-left", s.reference, s)
  }

  function FourSideBySide(s: Sources): Node {
    Filter("Merge-4-side-by-side", Merge, [
      Labeled("AddLabel-regular", "Regular (1x)", "SouthWest", Cropped("Crop-regular", 25, s.regular)),
      Labeled("AddLabel-mlaa", "MLAA", "SouthWest", Cropped("Crop-mlaa", 25, s.mlaa)),
      Labeled("AddLabel-sraa", "SRAA", "SouthWest", Cropped("Crop-sraa", 25, s.sraa)),
      Labeled("AddLabel-ref", "Reference", "SouthWest", Cropped("Crop-ref", 25, s.reference))])
  }

  function FourSideBySideShort(s: Sources): Node {
    Substream("Merge-4-side-by-side-short", [FourSideBySide(s)], 0, 224)
  }

  function RegularFullscreen(s: Sources): Node {
    Labeled("fullres-label-reg", "Regular (36 fps)", "NorthEast", s.regular)
  }

  function RegularFullscreenShort(s: Sources): Node {
    Substream("Regular-Fullscreen-Labeled-Short", [RegularFullscreen(s)], 0, 224)
  }

  function SraaFullscreen(s: Sources): Node {
    Labeled("SRAA-Fullscreen-Labeled", "SRAA", "NorthEast", s.sraa)
  }

  function Clips(s: Sources): seq<Node> {
    [TitleFadeOut(s), SwTiled(s), s.disclaimer, RegularVsSraa(s), MlaaVsSraa(s), ReferenceVsSraa(s),
     FourSideBySideShort(s), RegularFullscreenShort(s), SraaFullscreen(s)]
  }

  const ClipLengths := [72, 300, 120, 700, 700, 700, 224, 224, 700]

  const ExampleBoundaries := [0, 56, 340, 444, 1128, 1812, 2496, 2704, 2912, 3612]

  function Concatenation(s: Sources): Node {
    Concat("Concatenate", Clips(s), 16, true, ExampleBoundaries)
  }

  /** The last entry, whose node CreateGraph returns. */
  function ExampleRoot(s: Sources): Node {
    Filter("Output", Output, [Concatenation(s)])
  }

  const Root := ExampleRoot(Listed)

  /** The boundaries of the nine clip lengths with a 16-frame window. */
  lemma BoundariesOfClips()
    ensures StartIndices(ClipLengths, 16) == Ok(ExampleBoundaries)
  {
    var l := ClipLengths;
    var b := StartIndices(l, 16).value;
    StartIndicesRecurrence(l, 16);
    assert b[1] == b[0] + l[0] - 16 == 56;
    assert b[2] == b[1] + l[1] - 16 == 340;
    assert b[3] == b[2] + l[2] - 16 == 444;
    assert b[4] == b[3] + l[3] - 16 == 1128;
    assert b[5] == b[4] + l[4] - 16 == 1812;
    assert b[6] == b[5] + l[5] - 16 == 2496;
    assert b[7] == b[6] + l[6] - 16 == 2704;
    assert b[8] == b[7] + l[7] - 16 == 2912;
    assert b[9] == b[8] + l[8] == 3612;
    assert |b| == |ExampleBoundaries|;
    assert forall k :: 0 <= k < |b| ==> b[k] == ExampleBoundaries[k];
    assert b == ExampleBoundaries;
  }

  /** A node of the default kind (not a fade) whose consistent inputs all
      have the same length is consistent and has that length. */
  lemma SameLengthInputs(name: string, op: Op, inputs: seq<Node>, length: int)
    requires !IsFade(op) && |inputs| > 0
    requires forall k :: 0 <= k < |inputs| ==> Consistent(inputs[k]) && Length(inputs[k]) == Ok(length)
    ensures Consistent(Filter(name, op, inputs)) && Length(Filter(name, op, inputs)) == Ok(length)
  {
    var m := MinLength(inputs);
    var k :| 0 <= k < |inputs| && Length(inputs[k]) == m;
  }

  /** A label, or a label over a crop, of an image sequence. */
  lemma LabeledSource(name: string, text: string, corner: string, source: Node, count: int)
    requires Sequence(source, count)
    ensures Consistent(Labeled(name, text, corner, source)) && Length(Labeled(name, text, corner, source)) == Ok(count)
  {
    SameLengthInputs(name, AddLabel(text, corner), [source], count);
  }

  lemma LabeledCrop(name: string, text: string, corner: string, cropName: string, hSize: int, source: Node)
    requires Sequence(source, 700)
    ensures var x := Labeled(name, text, corner, Cropped(cropName, hSize, source));
      Consistent(x) && Length(x) == Ok(700)
  {
    SameLengthInputs(cropName, Crop(hSize, 100, 0, 0), [source], 700);
    SameLengthInputs(name, AddLabel(text, corner), [Cropped(cropName, hSize, source)], 700);
  }

  lemma TitleClip(s: Sources)
    requires Counts(s)
    ensures Consistent(TitleFadeOut(s)) && Length(TitleFadeOut(s)) == Ok(72)
  {
  }

  lemma TiledClip(s: Sources)
    requires Counts(s)
    ensures Consistent(SwTiled(s)) && Length(SwTiled(s)) == Ok(300)
  {
    LabeledSource("SW-Regular-Labeled", "Input (1x shading)", "NorthWest", s.swRegular, 300);
    LabeledSource("SW-Ref-Labeled", "Reference (16x shading)", "NorthEast", s.swReference, 300);
    LabeledSource("SW-MLAA-Labeled", "MLAA", "SouthWest", s.swMlaa, 300);
    LabeledSource("SW-SRAA-Labeled", "SRAA", "SouthEast", s.swSraa, 300);
    SameLengthInputs("SW-Tiled", MergeTiled(2, 2), SwTiled(s).inputs, 300);
  }

  /** Each half-and-half comparison merges two 700-frame halves. */
  lemma ComparisonClip(name: string, labelName: string, text: string, cropName: string, left: Node, s: Sources)
    requires Sequence(left, 700) && Sequence(s.sraa, 700)
    ensures Consistent(HalfAndHalf(name, labelName, text, cropName, left, s))
    ensures Length(HalfAndHalf(name, labelName, text, cropName, left, s)) == Ok(700)
  {
    LabeledCrop("label-sraa-right", "SRAA (35 fps)", "NorthEast", "Crop-SRAA-50%", 50, s.sraa);
    LabeledCrop(labelName, text, "NorthWest", cropName, 50, left);
    SameLengthInputs(name, Merge, HalfAndHalf(name, labelName, text, cropName, left, s).inputs, 700);
  }

  /** A cut of the first 224 frames of a 700-frame clip. */
  lemma ShortCut(name: string, input: Node)
    requires Consistent(input) && Length(input) == Ok(700)
    ensures Consistent(Substream(name, [input], 0, 224)) && Length(Substream(name, [input], 0, 224)) == Ok(224)
  {
  }

  lemma FourSideBySideClip(s: Sources)
    requires Counts(s)
    ensures Consistent(FourSideBySide(s)) && Length(FourSideBySide(s)) == Ok(700)
  {
    LabeledCrop("AddLabel-regular", "Regular (1x)", "SouthWest", "Crop-regular", 25, s.regular);
    LabeledCrop("AddLabel-mlaa", "MLAA", "SouthWest", "Crop-mlaa", 25, s.mlaa);
    LabeledCrop("AddLabel-sraa", "SRAA", "SouthWest", "Crop-sraa", 25, s.sraa);
    LabeledCrop("AddLabel-ref", "Reference", "SouthWest", "Crop-ref", 25, s.reference);
    FourSameLength("Merge-4-side-by-side", Merge, FourSideBySide(s).inputs, 700);
  }

  /** Four inputs of one length, merged. */
  lemma FourSameLength(name: string, op: Op, inputs: seq<Node>, length: int)
    requires !IsFade(op) && |inputs| == 4
    requires Consistent(inputs[0]) && Length(inputs[0]) == Ok(length)
    requires Consistent(inputs[1]) && Length(inputs[1]) == Ok(length)
    requires Consistent(inputs[2]) && Length(inputs[2]) == Ok(length)
    requires Consistent(inputs[3]) && Length(inputs[3]) == Ok(length)
    ensures Consistent(Filter(name, op, inputs)) && Length(Filter(name, op, inputs)) == Ok(length)
  {
    SameLengthInputs(name, op, inputs, length);
  }

  /** Inputs with the listed lengths have exactly those lengths as a list. */
  lemma LengthsOf(clips: seq<Node>, lengths: seq<int>)
    requires |clips| == |lengths|
    requires forall k :: 0 <= k < |clips| ==> Length(clips[k]) == Ok(lengths[k])
    ensures Lengths(clips) == Ok(lengths)
  {
    var ls := Lengths(clips).value;
    assert forall k :: 0 <= k < |clips| ==> ls[k] == lengths[k];
    assert ls == lengths;
  }

  /** Nine nodes with the facts each clip lemma proves, as a list. */
  lemma NineClips(c0: Node, c1: Node, c2: Node, c3: Node, c4: Node, c5: Node, c6: Node, c7: Node, c8: Node)
    requires Consistent(c0) && Length(c0) == Ok(72)
    requires Consistent(c1) && Length(c1) == Ok(300)
    requires Consistent(c2) && Length(c2) == Ok(120)
    requires Consistent(c3) && Length(c3) == Ok(700)
    requires Consistent(c4) && Length(c4) == Ok(700)
    requires Consistent(c5) && Length(c5) == Ok(700)
    requires Consistent(c6) && Length(c6) == Ok(224)
    requires Consistent(c7) && Length(c7) == Ok(224)
    requires Consistent(c8) && Length(c8) == Ok(700)
    ensures var c := [c0, c1, c2, c3, c4, c5, c6, c7, c8];
      forall k :: 0 <= k < |c| ==> Consistent(c[k]) && Length(c[k]) == Ok(ClipLengths[k])
  {
  }

  /** Nine consistent clips of the listed lengths, cross-blended over 16
      frames at the listed boundaries and handed to the output node, make a
      consistent stream of 3612 frames. */
  lemma ConcatOfClips(c: seq<Node>)
    requires |c| == 9
    requires forall k :: 0 <= k < |c| ==> Consistent(c[k]) && Length(c[k]) == Ok(ClipLengths[k])
    ensures var x := Filter("Output", Output, [Concat("Concatenate", c, 16, true, ExampleBoundaries)]);
      Consistent(x) && Length(x) == Ok(3612)
  {
    ConcatenationOfClips(c);
    SameLengthInputs("Output", Output, [Concat("Concatenate", c, 16, true, ExampleBoundaries)], 3612);
  }

  /** The concatenation of nine such clips is consistent and 3612 frames
      long. */
  lemma ConcatenationOfClips(c: seq<Node>)
    requires |c| == 9
    requires forall k :: 0 <= k < |c| ==> Consistent(c[k]) && Length(c[k]) == Ok(ClipLengths[k])
    ensures var x := Concat("Concatenate", c, 16, true, ExampleBoundaries);
      Consistent(x) && Length(x) == Ok(3612)
  {
    LengthsOf(c, ClipLengths);
    BoundariesOfClips();
    ClipsBlendable();
  }

  /** Every clip but the last is longer than the 16-frame window. */
  lemma ClipsBlendable()
    ensures Blendable(ClipLengths, 16)
  {
  }

  /** Each clip is consistent and has the length listed for it. */
  lemma ClipsFit(s: Sources)
    requires Counts(s)
    ensures forall k :: 0 <= k < |Clips(s)| ==> Consistent(Clips(s)[k]) && Length(Clips(s)[k]) == Ok(ClipLengths[k])
  {
    TitleClip(s);
    TiledClip(s);
    ComparisonClip("reg-vs-sraa", "label-regular-left", "Regular (36 fps)", "Crop-regular-left", s.regular, s);
    ComparisonClip("mlaa-vs-sraa", "label-mlaa-left", "MLAA (35 fps)", "Crop-mlaa-left", s.mlaa, s);
    ComparisonClip("ref-vs-sraa", "label-ref-left", "Reference (1 fps)", "Crop-ref-left", s.reference, s);
    FourSideBySideClip(s);
    ShortCut("Merge-4-side-by-side-short", FourSideBySide(s));
    LabeledSource("fullres-label-reg", "Regular (36 fps)", "NorthEast", s.regular, 700);
    ShortCut("Regular-Fullscreen-Labeled-Short", RegularFullscreen(s));
    LabeledSource("SRAA-Fullscreen-Labeled", "SRAA", "NorthEast", s.sraa, 700);
    NineClips(TitleFadeOut(s), SwTiled(s), s.disclaimer, RegularVsSraa(s), MlaaVsSraa(s), ReferenceVsSraa(s),
      FourSideBySideShort(s), RegularFullscreenShort(s), SraaFullscreen(s));
  }

  /** The stream of the whole graph is 3612 frames long, the sum of the
      clip lengths less 16 frames for each of the eight joins, and the graph
      asks no node for a frame it does not have. */
  lemma RootLengthAndConsistency(s: Sources)
    requires Counts(s)
    ensures Length(ExampleRoot(s)) == Ok(3612)
    ensures Sum(ClipLengths) - 8 * 16 == 3612
    ensures Consistent(ExampleRoot(s))
  {
    ClipsFit(s);
    ConcatOfClips(Clips(s));
    BoundariesOfClips();
    TotalLength(ClipLengths, 16);
  }

  /** Every one of the 3612 frames the main block maps over renders into
      its numbered file. */
  lemma ExampleFramesRender(pid: nat, i: nat)
    requires i < 3612
    ensures var p := Plan(Corrected, pid, Root, i, OutputPath("poutput", "test", i));
      && p.Ok? && p.value != []
      && p.value[|p.value| - 1].out == OutputPath("poutput", "test", i)
      && WellStaged(p.value)
      && ReadsWithin(Root, p.value)
  {
    assert Counts(Listed);
    RootLengthAndConsistency(Listed);
    ConsistentFramesRender(pid, Root, i, OutputPath("poutput", "test", i));
  }

  /** Every substream of the example starts at frame 0 and no fade-in
      occurs, so the script as written makes exactly the calls of the
      corrected evaluation, frame by frame. */
  lemma ExampleUnaffectedByCorrections(pid: nat, s: Sources, i: int, target: Path)
    requires Counts(s)
    ensures Plan(AsWritten, pid, ExampleRoot(s), i, target) == Plan(Corrected, pid, ExampleRoot(s), i, target)
  {
    ExampleCorrectionsInert(s);
    PlansAgree(pid, ExampleRoot(s), i, target);
  }

  lemma ExampleCorrectionsInert(s: Sources)
    requires Counts(s)
    ensures CorrectionsInert(ExampleRoot(s))
  {
    ComparisonsInert(s);
    FourSideBySideInert(s);
    SourceInert(s.title);
    SourceInert(s.disclaimer);
    SourceInert(s.regular);
    SourceInert(s.sraa);
    FilterInert("fullres-label-reg", AddLabel("Regular (36 fps)", "NorthEast"), [s.regular]);
    FilterInert("SRAA-Fullscreen-Labeled", AddLabel("SRAA", "NorthEast"), [s.sraa]);
    SwTiledInert(s);
    ClipsInert(s);
    assert CorrectionsInert(Concatenation(s));
  }

  lemma ClipsInert(s: Sources)
    requires CorrectionsInert(s.title) && CorrectionsInert(SwTiled(s)) && CorrectionsInert(s.disclaimer)
    requires CorrectionsInert(RegularVsSraa(s)) && CorrectionsInert(MlaaVsSraa(s)) && CorrectionsInert(ReferenceVsSraa(s))
    requires CorrectionsInert(FourSideBySide(s)) && CorrectionsInert(RegularFullscreen(s)) && CorrectionsInert(SraaFullscreen(s))
    ensures forall k :: 0 <= k < |Clips(s)| ==> CorrectionsInert(Clips(s)[k])
  {
    FilterInert("Titlescreen-FadeOut", FadeOut(24, true, 72), [s.title]);
    assert CorrectionsInert(FourSideBySideShort(s));
    assert CorrectionsInert(RegularFullscreenShort(s));
  }

  lemma SourceInert(n: Node)
    requires n.ImageSequence? || n.RepeatImage?
    ensures CorrectionsInert(n)
  {
  }

  lemma FilterInert(name: string, op: Op, inputs: seq<Node>)
    requires !op.FadeIn?
    requires forall k :: 0 <= k < |inputs| ==> CorrectionsInert(inputs[k])
    ensures CorrectionsInert(Filter(name, op, inputs))
  {
  }

  lemma LabeledCropInert(name: string, text: string, corner: string, cropName: string, hSize: int, source: Node)
    requires source.ImageSequence?
    ensures CorrectionsInert(Labeled(name, text, corner, Cropped(cropName, hSize, source)))
  {
    SourceInert(source);
    FilterInert(cropName, Crop(hSize, 100, 0, 0), [source]);
    FilterInert(name, AddLabel(text, corner), [Cropped(cropName, hSize, source)]);
  }

  lemma FourSideBySideInert(s: Sources)
    requires Counts(s)
    ensures CorrectionsInert(FourSideBySide(s))
  {
    LabeledCropInert("AddLabel-regular", "Regular (1x)", "SouthWest", "Crop-regular", 25, s.regular);
    LabeledCropInert("AddLabel-mlaa", "MLAA", "SouthWest", "Crop-mlaa", 25, s.mlaa);
    LabeledCropInert("AddLabel-sraa", "SRAA", "SouthWest", "Crop-sraa", 25, s.sraa);
    LabeledCropInert("AddLabel-ref", "Reference", "SouthWest", "Crop-ref", 25, s.reference);
    FilterInert("Merge-4-side-by-side", Merge, FourSideBySide(s).inputs);
  }

  lemma SwTiledInert(s: Sources)
    requires Counts(s)
    ensures CorrectionsInert(SwTiled(s))
  {
    SourceInert(s.swRegular);
    SourceInert(s.swReference);
    SourceInert(s.swMlaa);
    SourceInert(s.swSraa);
    FilterInert("SW-Regular-Labeled", AddLabel("Input (1x shading)", "NorthWest"), [s.swRegular]);
    FilterInert("SW-Ref-Labeled", AddLabel("Reference (16x shading)", "NorthEast"), [s.swReference]);
    FilterInert("SW-MLAA-Labeled", AddLabel("MLAA", "SouthWest"), [s.swMlaa]);
    FilterInert("SW-SRAA-Labeled", AddLabel("SRAA", "SouthEast"), [s.swSraa]);
    FilterInert("SW-Tiled", MergeTiled(2, 2), SwTiled(s).inputs);
  }

  lemma ComparisonsInert(s: Sources)
    requires Counts(s)
    ensures CorrectionsInert(RegularVsSraa(s)) && CorrectionsInert(MlaaVsSraa(s)) && CorrectionsInert(ReferenceVsSraa(s))
  {
    LabeledCropInert("label-sraa-right", "SRAA (35 fps)", "NorthEast", "Crop-SRAA-50%", 50, s.sraa);
    LabeledCropInert("label-regular-left", "Regular (36 fps)", "NorthWest", "Crop-regular-left", 50, s.regular);
    LabeledCropInert("label-mlaa-left", "MLAA (35 fps)", "NorthWest", "Crop-mlaa-left", 50, s.mlaa);
    LabeledCropInert("label-ref-left", "Reference (1 fps)", "NorthWest", "Crop-ref-left", 50, s.reference);
    FilterInert("reg-vs-sraa", Merge, RegularVsSraa(s).inputs);
    FilterInert("mlaa-vs-sraa", Merge, MlaaVsSraa(s).inputs);
    FilterInert("ref-vs-sraa", Merge, ReferenceVsSraa(s).inputs);
  }

  lemma ExampleBoundariesIncrease()
    ensures StrictlyIncreasing(ExampleBoundaries)
    ensures Blendable(ClipLengths, 16)
  {
    BoundariesOfClips();
    ClipsBlendable();
    BoundariesIncrease(ClipLengths, 16);
  }

  /** Frame 60 lies four frames into the blend from the title into the tiled
      clip: the title's frame 60 (its 60 = 72 - 16 + 4) is blended with the
      tiled clip's frame 4 at strength 25 and blur radius 8. */
  lemma ExampleBlendFrame()
    ensures ConcatRoute(ExampleBoundaries, 16, 60) == Ok(CrossBlend(1, 60, 4))
    ensures Strength(4, 16) == 25 && BlurRadius(4, 16) == 8
  {
    ExampleBoundariesIncrease();
    SegmentUnique(ExampleBoundaries, 60, 1);
  }

  /** The last frame is the fullscreen clip's frame 699, and asking for the
      frame after it raises. */
  lemma ExampleLastFrame()
    ensures ConcatRoute(ExampleBoundaries, 16, 3611) == Ok(Direct(8, 699))
    ensures ConcatRoute(ExampleBoundaries, 16, 3612) == Err(IndexError)
  {
    ExampleBoundariesIncrease();
    SegmentUnique(ExampleBoundaries, 3611, 8);
    BoundariesOfClips();
    RouteOutOfRange(ClipLengths, 16, 3612);
  }
}

=== FILE: fades.dfy ===
/** The per-frame action of the fade nodes (FadeOutNode.Eval,
    ava/__init__.py:247-256; FadeInNode.Eval, ava/__init__.py:270-279; the
    same code at ava.py:186-195 and ava.py:209-218).  Progress is
    int((index - start) / duration * 100), computed on exact rationals; a
    zero duration raises before the branch is taken. */
module Fades {
  import opened Common
  import opened Backend

  /** Fade-out over the last `duration` frames of a `length`-frame stream:
      brightness 100 - progress, and when blurring a radius of 16 progress / 100. */
  function FadeOutAction(duration: int, blur: bool, length: int, idx: int): (r: Result<Action>)
    ensures r.Err? <==> duration == 0
    ensures r.Err? ==> r.fault == ZeroDivisionError
    ensures r.Ok? ==> (r.value.Copy? <==> idx < length - duration)
    ensures r.Ok? && r.value.Modulate? ==> (r.value.blur.Some? <==> blur)
  {
    if duration == 0 then Err(ZeroDivisionError)
    else
      var start := length - duration;
      var progress := TruncDiv(100 * (idx - start), duration);
      if idx >= start then Ok(Modulate(100 - progress, if blur then Some(TruncDiv(progress * 16, 100)) else None))
      else Ok(Copy)
  }

  /** Inside the window of a positive duration the progress p is the
      truncated percentage of the window already passed, 0 <= p < 100; the
      brightness is 100 - p and the blur 16 p / 100, below 16. */
  lemma FadeOutInWindow(duration: int, blur: bool, length: int, idx: int)
    requires 0 < duration && length - duration <= idx < length
    ensures var a := FadeOutAction(duration, blur, length, idx).value;
      var p := 100 - a.brightness;
      && a.Modulate?
      && 0 <= p < 100
      && p * duration <= 100 * (idx - (length - duration)) < (p + 1) * duration
      && (blur ==> a.blur == Some(p * 16 / 100) && 0 <= p * 16 / 100 < 16)
  {
    var p := TruncDiv(100 * (idx - (length - duration)), duration);
    LessByMul(p, 100, duration);
  }

  /** The fade-out only ever darkens: later frames are never brighter. */
  lemma FadeOutDarkens(duration: int, blur: bool, length: int, i: int, j: int)
    requires 0 < duration && length - duration <= i <= j
    ensures FadeOutAction(duration, blur, length, j).value.brightness
         <= FadeOutAction(duration, blur, length, i).value.brightness
  {
    var start := length - duration;
    DivMonotone(100 * (i - start), 100 * (j - start), duration);
  }

  /** FadeInNode.Eval as written: it alters the first `duration` frames,
      but measures progress from length - duration, like the fade-out. */
  function FadeInActionAsWritten(duration: int, blur: bool, length: int, idx: int): (r: Result<Action>)
    ensures r.Err? <==> duration == 0
    ensures r.Err? ==> r.fault == ZeroDivisionError
    ensures r.Ok? ==> (r.value.Copy? <==> idx >= duration)
    ensures r.Ok? && r.value.Modulate? ==> (r.value.blur.Some? <==> blur)
  {
    if duration == 0 then Err(ZeroDivisionError)
    else
      var progress := TruncDiv(100 * (idx - (length - duration)), duration);
      if idx < duration then Ok(Modulate(progress, if blur then Some(TruncDiv((100 - progress) * 16, 100)) else None))
      else Ok(Copy)
  }

  /** The fade-in with progress measured from the start of the stream,
      int(index / duration * 100): brightness p and, when blurring, a radius
      of 16 (100 - p) / 100. */
  function FadeInAction(duration: int, blur: bool, length: int, idx: int): (r: Result<Action>)
    ensures r.Err? <==> duration == 0
    ensures r.Err? ==> r.fault == ZeroDivisionError
    ensures r.Ok? ==> (r.value.Copy? <==> idx >= duration)
    ensures r.Ok? && r.value.Modulate? ==> (r.value.blur.Some? <==> blur)
  {
    if duration == 0 then Err(ZeroDivisionError)
    else
      var progress := TruncDiv(100 * idx, duration);
      if idx < duration then Ok(Modulate(progress, if blur then Some(TruncDiv((100 - progress) * 16, 100)) else None))
      else Ok(Copy)
  }

  /** Inside its window the fade-in brightness is the truncated percentage
      of the window passed, from 0 on the first frame up to below 100. */
  lemma FadeInInWindow(duration: int, blur: bool, length: int, idx: int)
    requires 0 <= idx < duration
    ensures var a := FadeInAction(duration, blur, length, idx).value;
      && a.Modulate?
      && 0 <= a.brightness < 100
      && a.brightness * duration <= 100 * idx < (a.brightness + 1) * duration
      && (idx == 0 ==> a.brightness == 0)
      && (blur ==> a.blur == Some((100 - a.brightness) * 16 / 100))
  {
    var p := TruncDiv(100 * idx, duration);
    LessByMul(p, 100, duration);
  }

  /** The fade-in only ever brightens. */
  lemma FadeInBrightens(duration: int, blur: bool, length: int, i: int, j: int)
    requires 0 <= i <= j < duration
    ensures FadeInAction(duration, blur, length, i).value.brightness
         <= FadeInAction(duration, blur, length, j).value.brightness
  {
    DivMonotone(100 * i, 100 * j, duration);
  }

  /** Fading in and fading out over the same duration are mirror images:
      k frames into either window the two brightnesses add up to 100. */
  lemma FadesMirror(duration: int, blur: bool, length: int, k: int)
    requires 0 <= k < duration
    ensures FadeInAction(duration, blur, length, k).value.brightness
          + FadeOutAction(duration, blur, length, length - duration + k).value.brightness == 100
  {
    assert length - duration + k - (length - duration) == k;
  }

  /** The fade-in as written agrees with the intended one when the
      fade covers the whole stream. */
  lemma FadeInAgreesOnWholeStream(duration: int, blur: bool, length: int, idx: int)
    requires length == duration
    ensures FadeInActionAsWritten(duration, blur, length, idx) == FadeInAction(duration, blur, length, idx)
  {
  }

  /** A 24-frame fade-in at the head of a 48-frame stream: as written, its
      first frame is modulated to brightness -100 instead of 0. */
  lemma FadeInAsWrittenCounterexample()
    ensures FadeInActionAsWritten(24, false, 48, 0) == Ok(Modulate(-100, None))
    ensures FadeInAction(24, false, 48, 0) == Ok(Modulate(0, None))
  {
    assert TruncDiv(100 * (0 - (48 - 24)), 24) == -100 by {
      assert Abs(-2400) / Abs(24) == 100;
    }
  }
}

=== FILE: freshness.dfy ===
/** Which files a frame's evaluation may overwrite.  A temporary is keyed by
    (process, node name, slot) (GetTemporary, ava/__init__.py:55-62), and
    CreateGraph rebinds a name without complaint (ava/__init__.py:387), so
    two nodes can share a name.  When no node shares its name with a node
    below it, the temporary a node stages for input k is not touched again
    before the node reads it; when one does, the later input can overwrite
    it. */
module Freshness {
  import opened Common
  import opened Backend
  import opened Graph
  import opened Segments
  import opened Evaluate
  import opened Soundness

  /** Some node at or below n is named m. */
  predicate Named(n: Node, m: string) {
    && !n.Null?
    && (n.name == m || exists k :: 0 <= k < |Inputs(n)| && Named(Inputs(n)[k], m))
  }

  /** No node shares its name with a node below it. */
  predicate UniqueNames(n: Node) {
    forall k :: 0 <= k < |Inputs(n)| ==> !Named(Inputs(n)[k], n.name) && UniqueNames(Inputs(n)[k])
  }

  /** A file that evaluating n into t may write: t itself, or a temporary of
      this process that belongs to n or a node below it. */
  predicate MayWrite(pid: nat, n: Node, t: Path, p: Path) {
    p == t || (p.Temp? && p.pid == pid && Named(n, p.node))
  }

  /** A temporary of this process belonging to the node named `name`. */
  predicate OwnTemp(pid: nat, name: string, p: Path) {
    p.Temp? && p.pid == pid && p.node == name
  }

  predicate WritesOnly(calls: seq<Call>, pid: nat, n: Node, t: Path) {
    forall i :: 0 <= i < |calls| ==> MayWrite(pid, n, t, calls[i].out)
  }

  /** Evaluating a frame of n into t writes t and temporaries of n and the
      nodes below it, and nothing else. */
  lemma {:induction false} PlanWritesOnly(rev: Revision, pid: nat, n: Node, idx: int, t: Path)
    ensures Plan(rev, pid, n, idx, t).Ok? ==> WritesOnly(Plan(rev, pid, n, idx, t).value, pid, n, t)
    decreases n, 1, 0
  {
    var s := NodeStep(rev, pid, n, idx, t);
    if s.Ok? {
      StepTargets(rev, pid, n, idx, t);
      RunWritesOnly(rev, pid, n, s.value.requests, t);
      var staged := Run(rev, pid, n, s.value.requests);
      if staged.Ok? && s.value.own.Ok? && s.value.own.value.Some? {
        OwnCallWritesTarget(staged.value, s.value.own.value.value, pid, n, t);
      }
    }
  }

  lemma {:induction false} RunWritesOnly(rev: Revision, pid: nat, n: Node, requests: seq<Request>, t: Path)
    requires !n.Null?
    requires forall q :: q in requests ==> q.target == t || OwnTemp(pid, n.name, q.target)
    ensures Run(rev, pid, n, requests).Ok? ==> WritesOnly(Run(rev, pid, n, requests).value, pid, n, t)
    decreases n, 0, |requests|
  {
    if |requests| > 0 && requests[0].input < |Inputs(n)| {
      var r := requests[0];
      assert r in requests;
      var first := Plan(rev, pid, Inputs(n)[r.input], r.index, r.target);
      PlanWritesOnly(rev, pid, Inputs(n)[r.input], r.index, r.target);
      RunWritesOnly(rev, pid, n, requests[1..], t);
      var rest := Run(rev, pid, n, requests[1..]);
      if first.Ok? && rest.Ok? {
        InputWritesWiden(first.value, pid, n, r.input, r.target, t);
        WritesOnlyJoin(first.value, rest.value, pid, n, t);
      }
    }
  }

  /** Every request of a node targets the node's own target or one of its
      own temporaries. */
  lemma StepTargets(rev: Revision, pid: nat, n: Node, idx: int, t: Path)
    ensures NodeStep(rev, pid, n, idx, t).Ok? ==>
      && !n.Null?
      && forall q :: q in NodeStep(rev, pid, n, idx, t).value.requests ==> q.target == t || OwnTemp(pid, n.name, q.target)
  {
  }

  lemma OwnCallWritesTarget(staged: seq<Call>, c: Call, pid: nat, n: Node, t: Path)
    requires WritesOnly(staged, pid, n, t) && c.out == t
    ensures WritesOnly(staged + [c], pid, n, t)
  {
    var s := staged + [c];
    assert forall i :: 0 <= i < |staged| ==> s[i] == staged[i];
  }

  /** What an input may write, its parent may write too. */
  lemma InputWritesWiden(calls: seq<Call>, pid: nat, n: Node, k: nat, tq: Path, t: Path)
    requires !n.Null? && k < |Inputs(n)|
    requires WritesOnly(calls, pid, Inputs(n)[k], tq)
    requires tq == t || OwnTemp(pid, n.name, tq)
    ensures WritesOnly(calls, pid, n, t)
  {
    forall i | 0 <= i < |calls|
      ensures MayWrite(pid, n, t, calls[i].out)
    {
      var p := calls[i].out;
      if p != tq {
        assert Named(Inputs(n)[k], p.node);
      }
    }
  }

  lemma WritesOnlyJoin(a: seq<Call>, b: seq<Call>, pid: nat, n: Node, t: Path)
    requires WritesOnly(a, pid, n, t) && WritesOnly(b, pid, n, t)
    ensures WritesOnly(a + b, pid, n, t)
  {
    var s := a + b;
    assert forall i :: 0 <= i < |a| ==> s[i] == a[i];
    assert forall i :: |a| <= i < |s| ==> s[i] == b[i - |a|];
  }

  /** A trace that writes only into another node's files leaves a temporary
      of a node named nowhere below it alone. */
  lemma OtherTempUntouched(calls: seq<Call>, pid: nat, input: Node, t: Path, p: Path)
    requires WritesOnly(calls, pid, input, t) && p != t && p.Temp? && !Named(input, p.node)
    ensures !Writes(calls, p)
  {
  }

  lemma NotWritesJoin(a: seq<Call>, b: seq<Call>, p: Path)
    requires !Writes(a, p) && !Writes(b, p)
    ensures !Writes(a + b, p)
  {
  }

  // ----- the default Execute -----

  /** Staging the inputs from `from` on never writes the slot of an input
      staged before. */
  lemma {:induction false} LaterStagingSparesSlot(rev: Revision, pid: nat, n: Node, idx: int, k: nat, from: nat)
    requires n.Filter? && UniqueNames(n) && k < from <= |n.inputs|
    ensures StageInputs(rev, pid, n.name, n.inputs, idx, from).Ok? ==>
      !Writes(StageInputs(rev, pid, n.name, n.inputs, idx, from).value, Temp(pid, n.name, k))
    decreases |n.inputs| - from
  {
    if from < |n.inputs| {
      var slot := Temp(pid, n.name, k);
      var first := Plan(rev, pid, n.inputs[from], idx, Temp(pid, n.name, from));
      PlanWritesOnly(rev, pid, n.inputs[from], idx, Temp(pid, n.name, from));
      LaterStagingSparesSlot(rev, pid, n, idx, k, from + 1);
      var rest := StageInputs(rev, pid, n.name, n.inputs, idx, from + 1);
      if first.Ok? && rest.Ok? {
        assert Inputs(n)[from] == n.inputs[from];
        OtherTempUntouched(first.value, pid, n.inputs[from], Temp(pid, n.name, from), slot);
        NotWritesJoin(first.value, rest.value, slot);
      }
    }
  }

  /** When staging from `from` succeeds, so do input k's trace and the
      staging after it. */
  lemma {:induction false} StagingReaches(rev: Revision, pid: nat, name: string, inputs: seq<Node>, idx: int, k: nat, from: nat)
    requires from <= k < |inputs|
    requires StageInputs(rev, pid, name, inputs, idx, from).Ok?
    ensures Plan(rev, pid, inputs[k], idx, Temp(pid, name, k)).Ok?
    ensures StageInputs(rev, pid, name, inputs, idx, k + 1).Ok?
    decreases k - from
  {
    StageStep(rev, pid, name, inputs, idx, from);
    if from < k {
      StagingReaches(rev, pid, name, inputs, idx, k, from + 1);
    }
  }

  /** The staged trace splits around input k's own trace. */
  lemma {:induction false} StagingSplits(rev: Revision, pid: nat, name: string, inputs: seq<Node>, idx: int, k: nat, from: nat)
      returns (pre: seq<Call>)
    requires from <= k < |inputs|
    requires StageInputs(rev, pid, name, inputs, idx, from).Ok?
    requires Plan(rev, pid, inputs[k], idx, Temp(pid, name, k)).Ok?
    requires StageInputs(rev, pid, name, inputs, idx, k + 1).Ok?
    ensures StageInputs(rev, pid, name, inputs, idx, from).value
      == pre + Plan(rev, pid, inputs[k], idx, Temp(pid, name, k)).value + StageInputs(rev, pid, name, inputs, idx, k + 1).value
    decreases k - from
  {
    StageStep(rev, pid, name, inputs, idx, from);
    var staged := StageInputs(rev, pid, name, inputs, idx, from).value;
    var first := Plan(rev, pid, inputs[from], idx, Temp(pid, name, from)).value;
    var next := StageInputs(rev, pid, name, inputs, idx, from + 1).value;
    var mine := Plan(rev, pid, inputs[k], idx, Temp(pid, name, k)).value;
    var rest := StageInputs(rev, pid, name, inputs, idx, k + 1).value;
    if from == k {
      pre := [];
      assert [] + mine + rest == mine + rest;
    } else {
      var tail := StagingSplits(rev, pid, name, inputs, idx, k, from + 1);
      pre := first + tail;
      SplitRegroups(staged, first, next, tail, mine, rest);
    }
  }

  lemma SplitRegroups(staged: seq<Call>, first: seq<Call>, next: seq<Call>, tail: seq<Call>, mine: seq<Call>, rest: seq<Call>)
    requires staged == first + next && next == tail + mine + rest
    ensures staged == first + tail + mine + rest
  {
  }

  /** Staging from `from` is input `from`'s trace, then the staging of the
      rest. */
  lemma StageStep(rev: Revision, pid: nat, name: string, inputs: seq<Node>, idx: int, from: nat)
    requires from < |inputs|
    requires StageInputs(rev, pid, name, inputs, idx, from).Ok?
    ensures Plan(rev, pid, inputs[from], idx, Temp(pid, name, from)).Ok?
    ensures StageInputs(rev, pid, name, inputs, idx, from + 1).Ok?
    ensures StageInputs(rev, pid, name, inputs, idx, from).value
      == Plan(rev, pid, inputs[from], idx, Temp(pid, name, from)).value + StageInputs(rev, pid, name, inputs, idx, from + 1).value
  {
  }

  /** When no node below shares its name, a default-Execute node's Eval
      reads, in slot k, exactly what input k's trace wrote last: the trace
      is some calls, then input k's trace (whose last call writes slot k),
      then calls that never write slot k, then the Eval over the slots. */
  lemma FilterSlotsFresh(rev: Revision, pid: nat, name: string, op: Op, inputs: seq<Node>, idx: int, target: Path, k: nat)
      returns (pre: seq<Call>, post: seq<Call>)
    requires UniqueNames(Filter(name, op, inputs)) && k < |inputs|
    requires Plan(rev, pid, Filter(name, op, inputs), idx, target).Ok?
    ensures FilterAction(rev, op, idx).Ok?
    ensures Plan(rev, pid, inputs[k], idx, Temp(pid, name, k)).Ok?
    ensures var mine := Plan(rev, pid, inputs[k], idx, Temp(pid, name, k)).value;
      mine != [] ==> mine[|mine| - 1].out == Temp(pid, name, k)
    ensures Plan(rev, pid, Filter(name, op, inputs), idx, target).value
      == pre + Plan(rev, pid, inputs[k], idx, Temp(pid, name, k)).value + post
         + [Apply(name, FilterAction(rev, op, idx).value, Slots(pid, name, |inputs|), target)]
    ensures !Writes(post, Temp(pid, name, k))
  {
    FilterPlan(rev, pid, name, op, inputs, idx, target);
    var staged := StageInputs(rev, pid, name, inputs, idx, 0);
    assert staged.Ok?;
    StagingReaches(rev, pid, name, inputs, idx, k, 0);
    pre := StagingSplits(rev, pid, name, inputs, idx, k, 0);
    post := StageInputs(rev, pid, name, inputs, idx, k + 1).value;
    LaterStagingSparesSlot(rev, pid, Filter(name, op, inputs), idx, k, k + 1);
    PlanWritesTarget(rev, pid, inputs[k], idx, Temp(pid, name, k));
  }

  // ----- the concatenation's blend -----

  /** When no node below shares its name, evaluating the incoming input of
      a blend never overwrites temporary 0, which holds the outgoing frame. */
  lemma ConcatTempFresh(rev: Revision, pid: nat, n: Node, idx: int, target: Path, i: nat, left: int, right: int)
    requires n.Concat? && UniqueNames(n) && i < |n.inputs|
    requires ConcatRoute(n.prefixSum, n.blend, idx) == Ok(CrossBlend(i, left, right))
    ensures var incoming := Plan(rev, pid, n.inputs[i], right, Temp(pid, n.name, 1));
      incoming.Ok? ==> !Writes(incoming.value, Temp(pid, n.name, 0))
  {
    var incoming := Plan(rev, pid, n.inputs[i], right, Temp(pid, n.name, 1));
    PlanWritesOnly(rev, pid, n.inputs[i], right, Temp(pid, n.name, 1));
    assert Inputs(n)[i] == n.inputs[i];
    if incoming.Ok? {
      OtherTempUntouched(incoming.value, pid, n.inputs[i], Temp(pid, n.name, 1), Temp(pid, n.name, 0));
    }
  }

  // ----- a shared name -----

  const ClobberX := ImageSequence("x", "x-{0:03}.png", 10, 0)
  const ClobberZ := ImageSequence("z", "z-{0:03}.png", 10, 0)
  const ClobberInner := Filter("m", AddLabel("z", "NorthWest"), [ClobberZ])

  /** A merge named "m" over x and a label that is also named "m": staging
      the label evaluates z into the label's slot 0, which is the merge's
      slot 0, after x was staged there, so the merge reads z's frame where
      x's belongs.  The graph is consistent and the trace well staged, and
      no such overwrite can happen once names are unique below every node. */
  lemma DuplicateNameClobbers(pid: nat, target: Path)
    ensures !UniqueNames(Filter("m", Merge, [ClobberX, ClobberInner]))
    ensures Consistent(Filter("m", Merge, [ClobberX, ClobberInner]))
    ensures Plan(Corrected, pid, Filter("m", Merge, [ClobberX, ClobberInner]), 0, target) == Ok([
      ReadFrame("x-{0:03}.png", 0, Temp(pid, "m", 0)),
      ReadFrame("z-{0:03}.png", 0, Temp(pid, "m", 0)),
      Apply("m", Annotate("z", "NorthWest"), [Temp(pid, "m", 0)], Temp(pid, "m", 1)),
      Apply("m", Append, [Temp(pid, "m", 0), Temp(pid, "m", 1)], target)])
  {
    ClobberGraph();
    var t0 := Temp(pid, "m", 0);
    var t1 := Temp(pid, "m", 1);
    var staged := [ReadFrame("x-{0:03}.png", 0, t0), ReadFrame("z-{0:03}.png", 0, t0),
                   Apply("m", Annotate("z", "NorthWest"), [t0], t1)];
    ClobberStaging(pid);
    assert Slots(pid, "m", 2) == [t0, t1];
    FilterPlan(Corrected, pid, "m", Merge, [ClobberX, ClobberInner], 0, target);
    var merge := Apply("m", Append, [t0, t1], target);
    assert staged + [merge] == [staged[0], staged[1], staged[2], merge];
  }

  /** The graph with the shared name is consistent and breaks UniqueNames. */
  lemma ClobberGraph()
    ensures !UniqueNames(Filter("m", Merge, [ClobberX, ClobberInner]))
    ensures Consistent(Filter("m", Merge, [ClobberX, ClobberInner]))
  {
    assert Named(ClobberInner, "m");
    assert Inputs(Filter("m", Merge, [ClobberX, ClobberInner]))[1] == ClobberInner;
    assert Consistent(ClobberX) && Consistent(ClobberZ);
    assert Consistent(ClobberInner);
  }

  /** Staging the merge's inputs: x into slot 0, then the label, which
      stages z into slot 0 again and writes slot 1. */
  lemma ClobberStaging(pid: nat)
    ensures StageInputs(Corrected, pid, "m", [ClobberX, ClobberInner], 0, 0) == Ok([
      ReadFrame("x-{0:03}.png", 0, Temp(pid, "m", 0)),
      ReadFrame("z-{0:03}.png", 0, Temp(pid, "m", 0)),
      Apply("m", Annotate("z", "NorthWest"), [Temp(pid, "m", 0)], Temp(pid, "m", 1))])
  {
    var t0 := Temp(pid, "m", 0);
    var t1 := Temp(pid, "m", 1);
    var x := ReadFrame("x-{0:03}.png", 0, t0);
    var z := ReadFrame("z-{0:03}.png", 0, t0);
    var annotate := Apply("m", Annotate("z", "NorthWest"), [t0], t1);
    ImageSequenceReadsOffsetFrame(Corrected, pid, "x", "x-{0:03}.png", 10, 0, 0, t0);
    assert Plan(Corrected, pid, ClobberX, 0, t0) == Ok([x]);
    ClobberInnerPlan(pid);
    assert StageInputs(Corrected, pid, "m", [ClobberX, ClobberInner], 0, 2) == Ok([]);
    assert [z, annotate] + [] == [z, annotate];
    assert StageInputs(Corrected, pid, "m", [ClobberX, ClobberInner], 0, 1) == Ok([z, annotate]);
    assert [x] + [z, annotate] == [x, z, annotate];
  }

  /** The label named "m" stages z into its slot 0 and annotates it into
      the temporary it was asked for. */
  lemma ClobberInnerPlan(pid: nat)
    ensures Plan(Corrected, pid, ClobberInner, 0, Temp(pid, "m", 1)) == Ok([
      ReadFrame("z-{0:03}.png", 0, Temp(pid, "m", 0)),
      Apply("m", Annotate("z", "NorthWest"), [Temp(pid, "m", 0)], Temp(pid, "m", 1))])
  {
    var t0 := Temp(pid, "m", 0);
    var t1 := Temp(pid, "m", 1);
    var z := ReadFrame("z-{0:03}.png", 0, t0);
    var annotate := Apply("m", Annotate("z", "NorthWest"), [t0], t1);
    ImageSequenceReadsOffsetFrame(Corrected, pid, "z", "z-{0:03}.png", 10, 0, 0, t0);
    assert Plan(Corrected, pid, ClobberZ, 0, t0) == Ok([z]);
    assert StageInputs(Corrected, pid, "m", [ClobberZ], 0, 1) == Ok([]);
    assert [z] + [] == [z];
    assert StageInputs(Corrected, pid, "m", [ClobberZ], 0, 0) == Ok([z]);
    assert Slots(pid, "m", 1) == [t0];
    FilterPlan(Corrected, pid, "m", AddLabel("z", "NorthWest"), [ClobberZ], 0, t1);
    assert FilterAction(Corrected, AddLabel("z", "NorthWest"), 0) == Ok(Annotate("z", "NorthWest"));
    assert [z] + [annotate] == [z, annotate];
  }
}

=== FILE: graph.dfy ===
/** The frame graph: one constructor per node kind, with the state each
    kind's constructor stores, and the stream length every node reports
    (GetStreamLength in ava/__init__.py, GetStreamSize in ava.py). */
module Graph {
  import opened Common

  /** The parameters of the nodes whose Execute is Node's default: stage every
      input, then run the node's own Eval on the staged files. */
  datatype Op =
    | AddLabel(text: string, corner: string)
    | Crop(hSize: int, vSize: int, hOffset: int, vOffset: int)
    | Merge
    | Resize(maximumWidth: int, maximumHeight: int)
    | ChangeCanvasSize(width: int, height: int, hShift: int, vShift: int)
    | MergeTiled(columns: int, rows: int)
    | Output
    | Overlay(overlay: string)
    | FadeOut(duration: int, blur: bool, length: int)   // length: the input's length, captured when built
    | FadeIn(duration: int, blur: bool, length: int)

  /** A node.  Null is Python's None, which the script's builder can bind
      to a name; any method called on it raises AttributeError. */
  datatype Node =
    | Null
    | ImageSequence(name: string, format: string, count: int, offset: int)
    | RepeatImage(name: string, image: string, duration: int)
    | RepeatInput(name: string, inputs: seq<Node>, frame: int, duration: int)
    | Substream(name: string, inputs: seq<Node>, first: int, last: int)
    | Concat(name: string, inputs: seq<Node>, blend: int, blur: bool, prefixSum: seq<int>)
    | Filter(name: string, op: Op, inputs: seq<Node>)

  predicate IsFade(op: Op) {
    op.FadeOut? || op.FadeIn?
  }

  /** The inputs list of a node; the sources have none. */
  function Inputs(n: Node): (s: seq<Node>)
    ensures n.Null? || n.ImageSequence? || n.RepeatImage? ==> s == []
  {
    match n
    case Null => []
    case ImageSequence(_, _, _, _) => []
    case RepeatImage(_, _, _) => []
    case RepeatInput(_, inputs, _, _) => inputs
    case Substream(_, inputs, _, _) => inputs
    case Concat(_, inputs, _, _, _) => inputs
    case Filter(_, _, inputs) => inputs
  }

  /** The number of frames a node's stream has, or the exception asking
      raises: sources and repeats report their count, a substream
      last - first, a concatenation its last boundary, a fade the length
      it captured, and every other node the shortest of its inputs. */
  function Length(n: Node): Result<int> {
    match n
    case Null => Err(AttributeError)
    case ImageSequence(_, _, count, _) => Ok(count)
    case RepeatImage(_, _, duration) => Ok(duration)
    case RepeatInput(_, _, _, duration) => Ok(duration)
    case Substream(_, _, first, last) => Ok(last - first)
    case Concat(_, _, _, _, prefixSum) =>
      if |prefixSum| == 0 then Err(IndexError) else Ok(prefixSum[|prefixSum| - 1])
    case Filter(_, op, inputs) =>
      if IsFade(op) then Ok(op.length) else MinLength(inputs)
  }

  /** min([i.GetStreamLength() for i in inputs]): the list is built first,
      so the first exception wins; min() of no lengths is a ValueError. */
  function MinLength(inputs: seq<Node>): (r: Result<int>)
    ensures |inputs| == 0 ==> r == Err(ValueError)
    ensures r.Ok? <==> |inputs| > 0 && forall k :: 0 <= k < |inputs| ==> Length(inputs[k]).Ok?
    ensures r.Ok? ==> forall k :: 0 <= k < |inputs| ==> r.value <= Length(inputs[k]).value
    ensures r.Ok? ==> exists k :: 0 <= k < |inputs| && Length(inputs[k]) == r
    ensures r.Err? && |inputs| > 0 ==> exists k :: 0 <= k < |inputs| && Length(inputs[k]) == r
    ensures r.Err? && |inputs| > 0 ==>
      exists k :: 0 <= k < |inputs| && Length(inputs[k]) == r && forall j :: 0 <= j < k ==> Length(inputs[j]).Ok?
    decreases inputs, 1
  {
    var ls :- Lengths(inputs);
    if |ls| == 0 then Err(ValueError)
    else
      var m := MinOf(ls);
      assert forall k :: 0 <= k < |inputs| ==> Length(inputs[k]) == Ok(ls[k]);
      Ok(m)
  }

  /** The smallest of a non-empty list of numbers. */
  function MinOf(s: seq<int>): (m: int)
    requires |s| > 0
    ensures forall k :: 0 <= k < |s| ==> m <= s[k]
    ensures exists k :: 0 <= k < |s| && s[k] == m
  {
    if |s| == 1 then s[0]
    else
      var rest := MinOf(s[1..]);
      assert forall k :: 1 <= k < |s| ==> s[k] == s[1..][k - 1];
      Min(s[0], rest)
  }

  /** The list of the inputs' lengths, [i.GetStreamLength() for i in inputs]:
      asked for in order, the first exception wins. */
  function Lengths(inputs: seq<Node>): (r: Result<seq<int>>)
    ensures r.Ok? <==> forall k :: 0 <= k < |inputs| ==> Length(inputs[k]).Ok?
    ensures r.Ok? ==> |r.value| == |inputs| && forall k :: 0 <= k < |inputs| ==> Length(inputs[k]) == Ok(r.value[k])
    ensures r.Err? ==>
      exists k :: 0 <= k < |inputs| && Length(inputs[k]) == Err(r.fault) && forall j :: 0 <= j < k ==> Length(inputs[j]).Ok?
    decreases inputs, 0
  {
    if |inputs| == 0 then Ok([])
    else
      var l :- Length(inputs[0]);
      var rest := Lengths(inputs[1..]);
      assert forall k :: 1 <= k < |inputs| ==> inputs[k] == inputs[1..][k - 1];
      var ls :- rest;
      Ok([l] + ls)
  }

  /** A merge over [None, an input-less merge] raises the AttributeError of
      its first input, not the second input's ValueError. */
  lemma FirstFailureWins()
    ensures Length(Filter("m", Merge, [Null, Filter("e", Merge, [])])) == Err(AttributeError)
    ensures Length(Filter("e", Merge, [])) == Err(ValueError)
  {
  }

  /** A node whose Execute is the default and that is not a fade keeps the
      length of its single input: labels, crops, resizes and the output
      stage do not change how many frames there are. */
  lemma SingleInputKeepsLength(name: string, op: Op, input: Node)
    requires !IsFade(op)
    ensures Length(Filter(name, op, [input])) == Length(input)
  {
  }
}

=== FILE: naming.dfy ===
/** File names the engine makes up: the text a temporary's name is hashed
    from, the temporary names themselves and the glob that sweeps them away
    after a run, and the zero-padded names of the output frames. */
module Naming {

  predicate IsDigit(c: char) {
    '0' <= c <= '9'
  }

  predicate AllDigits(s: string) {
    forall k :: 0 <= k < |s| ==> IsDigit(s[k])
  }

  function DigitChar(d: nat): (c: char)
    requires d < 10
    ensures IsDigit(c) && c as int - '0' as int == d
  {
    (d + '0' as int) as char
  }

  /** Python's str() of a natural number: its decimal digits, no leading zero. */
  function Decimal(n: nat): (s: string)
    ensures 1 <= |s| && AllDigits(s)
    ensures s[0] == '0' ==> n == 0
  {
    if n < 10 then [DigitChar(n)] else Decimal(n / 10) + [DigitChar(n % 10)]
  }

  /** The number a string of decimal digits denotes (leading zeros allowed). */
  function DigitsValue(s: string): nat
    requires AllDigits(s)
  {
    if s == [] then 0 else DigitsValue(s[..|s| - 1]) * 10 + (s[|s| - 1] as int - '0' as int)
  }

  lemma {:induction false} DecimalRoundTrip(n: nat)
    ensures DigitsValue(Decimal(n)) == n
  {
    if n >= 10 {
      var s := Decimal(n);
      assert s[..|s| - 1] == Decimal(n / 10);
      DecimalRoundTrip(n / 10);
    }
  }

  /** Two numbers with the same decimal text are the same number. */
  lemma DecimalInjective(m: nat, n: nat)
    requires Decimal(m) == Decimal(n)
    ensures m == n
  {
    DecimalRoundTrip(m);
    DecimalRoundTrip(n);
  }

  // ----- temporaries (ava/__init__.py:55-62, ava.py:55-62) -----

  /** The text GetTemporary hands to SHA-1 for an input slot:
      '{pid}_{name}_{slot}'.  The digest itself is computed by a foreign
      library and is not part of this model. */
  function TempKey(pid: nat, name: string, slot: nat): string {
    Decimal(pid) + "_" + name + "_" + Decimal(slot)
  }

  /** A separator that occurs in neither left part splits a join uniquely. */
  lemma SplitAtFirst(a: string, b: string, c: string, d: string, sep: char)
    requires sep !in a && sep !in c
    requires a + [sep] + b == c + [sep] + d
    ensures a == c && b == d
  {
    var s := a + [sep] + b;
    assert s[|a|] == sep && s[|c|] == sep;
    assert forall k :: 0 <= k < |a| ==> s[k] == a[k] != sep;
    assert forall k :: 0 <= k < |c| ==> s[k] == c[k] != sep;
    assert |a| == |c|;
    assert a == s[..|a|] == c;
    assert b == s[|a| + 1..] == d;
  }

  /** A separator that occurs in neither right part splits a join uniquely. */
  lemma SplitAtLast(a: string, b: string, c: string, d: string, sep: char)
    requires sep !in b && sep !in d
    requires a + [sep] + b == c + [sep] + d
    ensures a == c && b == d
  {
    var s := a + [sep] + b;
    assert s == c + [sep] + d;
    assert s[|a|] == sep && s[|c|] == sep;
    assert forall k :: |a| < k < |s| ==> s[k] == b[k - |a| - 1] != sep;
    assert forall k :: |c| < k < |s| ==> s[k] == d[k - |c| - 1] != sep;
    assert |a| == |c|;
    assert a == s[..|a|] == c;
    assert b == s[|a| + 1..] == d;
  }

  lemma NoSeparatorInDecimal(n: nat)
    ensures '_' !in Decimal(n)
  {
    var s := Decimal(n);
    assert forall k :: 0 <= k < |s| ==> s[k] != '_';
  }

  /** Different (process, node, slot) triples never share the hashed text,
      whatever the node name contains: the process id runs to the first
      underscore and the slot starts after the last one.  Together with a
      collision-free digest this is what keeps concurrent workers and
      sibling inputs on distinct temporary files. */
  lemma TempKeyInjective(p1: nat, n1: string, s1: nat, p2: nat, n2: string, s2: nat)
    requires TempKey(p1, n1, s1) == TempKey(p2, n2, s2)
    ensures p1 == p2 && n1 == n2 && s1 == s2
  {
    NoSeparatorInDecimal(p1);
    NoSeparatorInDecimal(p2);
    NoSeparatorInDecimal(s1);
    NoSeparatorInDecimal(s2);
    var r1 := n1 + "_" + Decimal(s1);
    var r2 := n2 + "_" + Decimal(s2);
    assert TempKey(p1, n1, s1) == Decimal(p1) + ['_'] + r1;
    assert TempKey(p2, n2, s2) == Decimal(p2) + ['_'] + r2;
    SplitAtFirst(Decimal(p1), r1, Decimal(p2), r2, '_');
    SplitAtLast(n1, Decimal(s1), n2, Decimal(s2), '_');
    DecimalInjective(p1, p2);
    DecimalInjective(s1, s2);
  }

  const TempPrefix := "_tmp_AVA__"
  const TempSuffix := ".tga"

  /** '_tmp_AVA__{digest}.tga': the name of a temporary, given the hex digest. */
  function TempFileName(digest: string): string {
    TempPrefix + digest + TempSuffix
  }

  /** What glob.glob("_tmp_AVA__*.tga") lists at the end of a run: names in
      the working directory (no '/') with that prefix and suffix. */
  predicate SweptBy(f: string) {
    && |f| >= |TempPrefix| + |TempSuffix|
    && f[..|TempPrefix|] == TempPrefix
    && f[|f| - |TempSuffix|..] == TempSuffix
    && '/' !in f
  }

  /** The sweep matches exactly the names of a temporary's shape,
      '_tmp_AVA__{digest}.tga' with a slash-free digest.  A real temporary's
      digest is 40 lowercase hex digits (TemporariesAreSwept); a file of the
      same shape with any other digest is removed too (UserFileSwept). */
  lemma SweepMatchesTemporaries(f: string)
    ensures SweptBy(f) <==> exists digest :: '/' !in digest && f == TempFileName(digest)
  {
    if SweptBy(f) {
      SweptIsTemporary(f);
    }
    if exists digest :: '/' !in digest && f == TempFileName(digest) {
      var digest :| '/' !in digest && f == TempFileName(digest);
      TemporaryIsSwept(digest);
    }
  }

  lemma SweptIsTemporary(f: string)
    requires SweptBy(f)
    ensures exists digest :: '/' !in digest && f == TempFileName(digest)
  {
    var digest := f[|TempPrefix|..|f| - |TempSuffix|];
    assert f == f[..|TempPrefix|] + digest + f[|f| - |TempSuffix|..];
    assert f == TempFileName(digest);
    assert forall k :: 0 <= k < |digest| ==> digest[k] == f[|TempPrefix| + k] != '/';
  }

  lemma TemporaryIsSwept(digest: string)
    requires '/' !in digest
    ensures SweptBy(TempFileName(digest))
  {
    var f := TempFileName(digest);
    assert f[..|TempPrefix|] == TempPrefix;
    assert f[|f| - |TempSuffix|..] == TempSuffix;
    assert forall k :: 0 <= k < |TempPrefix| ==> f[k] == TempPrefix[k] != '/';
    assert forall k :: |TempPrefix| <= k < |TempPrefix| + |digest| ==> f[k] == digest[k - |TempPrefix|] != '/';
    assert forall k :: |TempPrefix| + |digest| <= k < |f| ==> f[k] == TempSuffix[k - |TempPrefix| - |digest|] != '/';
  }

  /** What hashlib's hexdigest() of SHA-1 returns: 40 lowercase hex digits. */
  predicate HexDigest(d: string) {
    |d| == 40 && forall k :: 0 <= k < |d| ==> d[k] in "0123456789abcdef"
  }

  /** Every temporary the run creates is removed by the sweep. */
  lemma TemporariesAreSwept(d: string)
    requires HexDigest(d)
    ensures SweptBy(TempFileName(d))
  {
    assert forall k :: 0 <= k < |d| ==> d[k] != '/';
    TemporaryIsSwept(d);
  }

  /** The sweep is wider than the temporaries: a file of the user's named
      '_tmp_AVA__mine.tga', whose digest part is not a SHA-1 hex digest, is
      removed as well. */
  lemma UserFileSwept()
    ensures SweptBy("_tmp_AVA__mine.tga")
    ensures !HexDigest("mine")
    ensures forall d :: HexDigest(d) ==> TempFileName(d) != "_tmp_AVA__mine.tga"
  {
    TemporaryIsSwept("mine");
    assert TempFileName("mine") == "_tmp_AVA__mine.tga";
    forall d | HexDigest(d)
      ensures TempFileName(d) != "_tmp_AVA__mine.tga"
    {
      assert |TempFileName(d)| == 54;
    }
  }

  // ----- output frames (ava/__init__.py:391-395, ava.py:641-645) -----

  function Zeros(k: nat): (z: string)
    ensures |z| == k && AllDigits(z)
  {
    if k == 0 then [] else Zeros(k - 1) + ['0']
  }

  /** '{0:08}'.format(n) for a frame number: padded with zeros to 8 digits,
      longer numbers kept whole. */
  function ZeroPad8(n: nat): string {
    var d := Decimal(n);
    if |d| >= 8 then d else Zeros(8 - |d|) + d
  }

  /** The frame written for index n: os.path.join(folder, prefix + '{0:08}'.format(n) + '.png');
      the script's fixed "poutput/test{0:08}.png" is FrameFileName("poutput", "test", n). */
  function FrameFileName(folder: string, prefix: string, n: nat): string {
    folder + "/" + prefix + ZeroPad8(n) + ".png"
  }

  lemma {:induction false} LeadingZerosAddNothing(k: nat, s: string)
    requires AllDigits(s)
    ensures AllDigits(Zeros(k) + s) && DigitsValue(Zeros(k) + s) == DigitsValue(s)
  {
    var t := Zeros(k) + s;
    if s == [] {
      assert t == Zeros(k);
      ZerosValue(k);
    } else {
      assert t[..|t| - 1] == Zeros(k) + s[..|s| - 1];
      LeadingZerosAddNothing(k, s[..|s| - 1]);
    }
  }

  lemma {:induction false} ZerosValue(k: nat)
    ensures DigitsValue(Zeros(k)) == 0
  {
    if k > 0 {
      assert Zeros(k)[..k - 1] == Zeros(k - 1);
      ZerosValue(k - 1);
    }
  }

  lemma {:induction false} DecimalLength(n: nat, k: nat)
    requires 1 <= k && n < Pow10(k)
    ensures |Decimal(n)| <= k
  {
    if n >= 10 {
      DecimalLength(n / 10, k - 1);
    }
  }

  function Pow10(k: nat): nat {
    if k == 0 then 1 else 10 * Pow10(k - 1)
  }

  /** The padded text reads back as the frame number, and is exactly eight
      characters for every frame number below 10^8. */
  lemma ZeroPad8RoundTrip(n: nat)
    ensures AllDigits(ZeroPad8(n)) && DigitsValue(ZeroPad8(n)) == n
    ensures n < 100000000 ==> |ZeroPad8(n)| == 8
  {
    var d := Decimal(n);
    DecimalRoundTrip(n);
    if |d| < 8 {
      LeadingZerosAddNothing(8 - |d|, d);
    }
    if n < 100000000 {
      assert Pow10(8) == 100000000;
      DecimalLength(n, 8);
    }
  }

  /** Distinct frame indices are written to distinct files, so workers that
      render different frames never overwrite each other's output. */
  lemma FrameFileNamesDistinct(folder: string, prefix: string, i: nat, j: nat)
    ensures FrameFileName(folder, prefix, i) == FrameFileName(folder, prefix, j) <==> i == j
  {
    if FrameFileName(folder, prefix, i) == FrameFileName(folder, prefix, j) {
      var head := folder + "/" + prefix;
      assert FrameFileName(folder, prefix, i) == head + ZeroPad8(i) + ".png";
      assert FrameFileName(folder, prefix, j) == head + ZeroPad8(j) + ".png";
      var a := FrameFileName(folder, prefix, i);
      ZeroPad8RoundTrip(i);
      ZeroPad8RoundTrip(j);
      assert |ZeroPad8(i)| == |ZeroPad8(j)|;
      assert ZeroPad8(i) == a[|head|..|a| - 4] == ZeroPad8(j);
    }
  }

  /** An output frame is never swept away as a temporary. */
  lemma FramesAreNotSwept(folder: string, prefix: string, n: nat)
    ensures !SweptBy(FrameFileName(folder, prefix, n))
  {
    var f := FrameFileName(folder, prefix, n);
    assert f[|folder|] == '/';
  }
}

=== FILE: render.dfy ===
/** Rendering one output frame: Exec rebuilds the graph from its description
    and evaluates one frame of the last node into a numbered file
    (ava/__init__.py:391-395, ava.py:641-645); the script's main block
    renders every index below the result's stream length (ava.py:657-674). */
module Render {
  import opened Common
  import opened Naming
  import opened Backend
  import opened Graph
  import opened Evaluate
  import opened Soundness
  import opened Builder

  /** The output file of frame i. */
  function OutputPath(folder: string, prefix: string, i: nat): Path {
    File(FrameFileName(folder, prefix, i))
  }

  /** Exec(graph, i, folder, fileprefix): the calls that write frame i, or
      the exception the build or the evaluation raises.  `rev` picks the
      program as written or with the corrections of the findings; the
      source's Exec is `AsWritten`. */
  function Exec(rev: Revision, v: Variant, pid: nat, graph: seq<Desc>, i: nat, folder: string, prefix: string): (r: Result<seq<Call>>)
    ensures Build(v, graph).Err? ==> r == Err(Build(v, graph).fault)
    ensures Build(v, graph).Ok? && Build(v, graph).value.root.Null? ==> r == Err(AttributeError)
  {
    var b :- Build(v, graph);
    Plan(rev, pid, b.root, i, OutputPath(folder, prefix, i))
  }

  /** The script's Exec(i): the script's builder, into
      "poutput/test{i:08}.png", a file the final sweep leaves alone. */
  function ScriptExec(rev: Revision, pid: nat, graph: seq<Desc>, i: nat): (r: Result<seq<Call>>)
    ensures Build(Script, graph).Err? ==> r == Err(Build(Script, graph).fault)
    ensures EndsWriting(r, OutputPath("poutput", "test", i))
    ensures r.Ok? && r.value != [] ==> !SweptBy(r.value[|r.value| - 1].out.name)
  {
    ExecWritesOutput(rev, Script, pid, graph, i, "poutput", "test");
    FramesAreNotSwept("poutput", "test", i);
    Exec(rev, Script, pid, graph, i, "poutput", "test")
  }

  /** The number of frames the main block maps Exec over: the stream length
      of the graph's result (GetStreamSize in the script). */
  function FrameCount(v: Variant, graph: seq<Desc>): (r: Result<int>)
    ensures Build(v, graph).Err? ==> r == Err(Build(v, graph).fault)
    ensures Build(v, graph).Ok? ==> r == Length(Build(v, graph).value.root)
  {
    var b :- Build(v, graph);
    Length(b.root)
  }

  /** Once the graph builds, Exec is the plan of its result for the frame's
      own numbered file. */
  lemma ExecPlansRoot(rev: Revision, v: Variant, pid: nat, graph: seq<Desc>, i: nat, folder: string, prefix: string)
    requires Build(v, graph).Ok?
    ensures Exec(rev, v, pid, graph, i, folder, prefix) == Plan(rev, pid, Build(v, graph).value.root, i, OutputPath(folder, prefix, i))
  {
  }

  /** An empty description list leaves the result None, so Exec raises. */
  lemma EmptyGraphFails(rev: Revision, v: Variant, pid: nat, i: nat, folder: string, prefix: string)
    ensures Exec(rev, v, pid, [], i, folder, prefix) == Err(AttributeError)
    ensures FrameCount(v, []) == Err(AttributeError)
  {
    RootIsLastBound(v, []);
  }

  /** For a description list that builds a consistent graph, every index
      the main block maps over renders: the trace raises nothing, stages
      every temporary before reading it, reads only the graph's sources, and
      ends by writing the frame's own numbered file, which the final sweep
      of temporaries leaves alone.  This holds of the corrected program on
      every consistent graph, and of the program as written on every
      consistent graph whose substreams start at frame 0 and whose fade-ins
      span their stream (see ExecAsWrittenCounterexample for one that does
      not). */
  lemma EveryFrameRenders(rev: Revision, v: Variant, pid: nat, graph: seq<Desc>, i: nat, folder: string, prefix: string)
    requires Build(v, graph).Ok? && Consistent(Build(v, graph).value.root)
    requires rev == Corrected || CorrectionsInert(Build(v, graph).value.root)
    requires FrameCount(v, graph).Ok? && i < FrameCount(v, graph).value
    ensures var r := Exec(rev, v, pid, graph, i, folder, prefix);
      && r.Ok? && r.value != []
      && r.value[|r.value| - 1].out == OutputPath(folder, prefix, i)
      && WellStaged(r.value)
      && ReadsWithin(Build(v, graph).value.root, r.value)
      && !SweptBy(r.value[|r.value| - 1].out.name)
  {
    var root := Build(v, graph).value.root;
    var out := OutputPath(folder, prefix, i);
    ExecPlansRoot(rev, v, pid, graph, i, folder, prefix);
    RevisionRenders(rev, pid, root, i, out);
    FramesAreNotSwept(folder, prefix, i);
  }

  /** The frame renders under either revision where that revision's plan
      is the corrected one. */
  lemma RevisionRenders(rev: Revision, pid: nat, root: Node, i: int, out: Path)
    requires Consistent(root) && Length(root).Ok? && 0 <= i < Length(root).value
    requires rev == Corrected || CorrectionsInert(root)
    ensures Renders(root, Plan(rev, pid, root, i, out))
    ensures EndsWriting(Plan(rev, pid, root, i, out), out)
  {
    if rev == Corrected {
      CorrectedRenders(pid, root, i, out);
    } else {
      PlansAgree(pid, root, i, out);
      CorrectedRenders(pid, root, i, out);
    }
  }

  lemma CorrectedRenders(pid: nat, root: Node, i: int, out: Path)
    requires Consistent(root) && Length(root).Ok? && 0 <= i < Length(root).value
    ensures Renders(root, Plan(Corrected, pid, root, i, out))
    ensures EndsWriting(Plan(Corrected, pid, root, i, out), out)
  {
    ConsistentFramesRender(pid, root, i, out);
  }

  /** Two different indices are rendered into two different files, so the
      workers of the pool never write each other's output. */
  lemma FramesWriteDistinctFiles(rev: Revision, v: Variant, pid1: nat, pid2: nat, graph: seq<Desc>, i: nat, j: nat, folder: string, prefix: string)
    requires i != j
    ensures var a := Exec(rev, v, pid1, graph, i, folder, prefix);
      var b := Exec(rev, v, pid2, graph, j, folder, prefix);
      a.Ok? && a.value != [] && b.Ok? && b.value != [] ==> a.value[|a.value| - 1].out != b.value[|b.value| - 1].out
  {
    ExecWritesOutput(rev, v, pid1, graph, i, folder, prefix);
    ExecWritesOutput(rev, v, pid2, graph, j, folder, prefix);
    DistinctOutputPaths(folder, prefix, i, j);
  }

  /** A successful, non-empty trace whose last call writes `out`. */
  predicate EndsWriting(r: Result<seq<Call>>, out: Path) {
    r.Ok? && r.value != [] ==> r.value[|r.value| - 1].out == out
  }

  /** Whatever Exec does, its last call writes the frame's numbered file. */
  lemma ExecWritesOutput(rev: Revision, v: Variant, pid: nat, graph: seq<Desc>, i: nat, folder: string, prefix: string)
    ensures EndsWriting(Exec(rev, v, pid, graph, i, folder, prefix), OutputPath(folder, prefix, i))
  {
    if Build(v, graph).Ok? {
      BuiltExecWritesOutput(rev, v, pid, graph, i, folder, prefix);
    }
  }

  lemma BuiltExecWritesOutput(rev: Revision, v: Variant, pid: nat, graph: seq<Desc>, i: nat, folder: string, prefix: string)
    requires Build(v, graph).Ok?
    ensures EndsWriting(Exec(rev, v, pid, graph, i, folder, prefix), OutputPath(folder, prefix, i))
  {
    var out := OutputPath(folder, prefix, i);
    var p := Plan(rev, pid, Build(v, graph).value.root, i, out);
    ExecPlansRoot(rev, v, pid, graph, i, folder, prefix);
    PlanWritesTarget(rev, pid, Build(v, graph).value.root, i, out);
    assert EndsWriting(p, out);
  }

  lemma DistinctOutputPaths(folder: string, prefix: string, i: nat, j: nat)
    requires i != j
    ensures OutputPath(folder, prefix, i) != OutputPath(folder, prefix, j)
  {
    FrameFileNamesDistinct(folder, prefix, i, j);
  }

  /** A two-entry list: twenty images, then frames 5 .. 14 of them. */
  const SubstreamList: seq<Desc> := [
    Desc("src", "ImageSequence", Given(map["format" := Str("f"), "count" := Int(20)]), Absent),
    Desc("sub", "SubSequence", Given(map["first" := Int(5), "last" := Int(15)]), Given(["src"]))
  ]

  /** The substream the list builds to. */
  const SubstreamRoot: Node := Substream("sub", [ImageSequence("src", "f", 20, 0)], 5, 15)

  /** The list builds a consistent graph of 10 frames. Frame 3 is within
      them, yet Exec as written reads image -2, where the corrected Exec
      reads image 8: the revision premise of EveryFrameRenders is needed. */
  lemma ExecAsWrittenCounterexample(pid: nat, folder: string, prefix: string)
    ensures Build(Library, SubstreamList).Ok? && Build(Library, SubstreamList).value.root == SubstreamRoot
    ensures Consistent(SubstreamRoot) && FrameCount(Library, SubstreamList) == Ok(10)
    ensures Exec(AsWritten, Library, pid, SubstreamList, 3, folder, prefix) == Ok([ReadFrame("f", -2, OutputPath(folder, prefix, 3))])
    ensures Exec(Corrected, Library, pid, SubstreamList, 3, folder, prefix) == Ok([ReadFrame("f", 8, OutputPath(folder, prefix, 3))])
  {
    SubstreamListBuilds();
    SubstreamAsWrittenCounterexample(pid, "sub", "src", "f", 3, OutputPath(folder, prefix, 3));
  }

  lemma SubstreamListBuilds()
    ensures Build(Library, SubstreamList).Ok? && Build(Library, SubstreamList).value.root == SubstreamRoot
  {
    var src := ImageSequence("src", "f", 20, 0);
    SourceEntryBuilds();
    assert SubstreamList[..1] == [SubstreamList[0]];
    assert [SubstreamList[0]][..0] == [];
    assert Build(Library, SubstreamList[..1]) == Ok(Built(map["src" := src], src));
    SubstreamEntryBuilds();
    assert SubstreamList[..|SubstreamList| - 1] == SubstreamList[..1];
  }

  lemma SourceEntryBuilds()
    ensures Construct(Library, map[], Null, SubstreamList[0]) == Ok(ImageSequence("src", "f", 20, 0))
  {
    var params := map["format" := Str("f"), "count" := Int(20)];
    var specs := [Required("format", StrKind), Required("count", IntKind), Optional("offset", Int(0))];
    assert params.Keys <= Keys(specs) by {
      assert specs[0].key == "format" && specs[1].key == "count";
    }
    var a := Bind(params, specs);
    assert a.Ok? && a.value[0] == Str("f") && a.value[1] == Int(20) && a.value[2] == Int(0) by {
      assert BindOne(params, specs[0]) == Ok(Str("f"));
      assert BindOne(params, specs[1]) == Ok(Int(20));
      assert BindOne(params, specs[2]) == Ok(Int(0));
    }
    assert MakeImageSequence("src", params) == Ok(ImageSequence("src", "f", 20, 0));
  }

  lemma SubstreamEntryBuilds()
    ensures Construct(Library, map["src" := ImageSequence("src", "f", 20, 0)], ImageSequence("src", "f", 20, 0), SubstreamList[1])
         == Ok(SubstreamRoot)
  {
    var src := ImageSequence("src", "f", 20, 0);
    var g := map["src" := src];
    var params := map["first" := Int(5), "last" := Int(15)];
    var ins := InputNodes(g, Given(["src"]));
    assert ["src"][0] in g;
    assert ins.Ok? && |ins.value| == 1 && ins.value[0] == src;
    assert ins.value == [src];
    assert Params(Library, Given(params)) == Ok(params);
    assert ClassOf(Library, "SubSequence") == Some(SubstreamNode);
    SubstreamDispatch(params, [src]);
    SubstreamMade();
  }

  lemma SubstreamDispatch(params: map<string, Value>, inputs: seq<Node>)
    ensures MakeNode(Library, "sub", SubstreamNode, params, inputs) == MakeSubstream("sub", params, inputs)
  {
  }

  lemma SubstreamMade()
    ensures MakeSubstream("sub", map["first" := Int(5), "last" := Int(15)], [ImageSequence("src", "f", 20, 0)]) == Ok(SubstreamRoot)
  {
    var params := map["first" := Int(5), "last" := Int(15)];
    var specs := [Optional("first", Int(0)), Optional("last", Int(0))];
    assert params.Keys <= Keys(specs) by {
      assert specs[0].key == "first" && specs[1].key == "last";
    }
    var a := Bind(params, specs);
    assert a.Ok? && a.value[0] == Int(5) && a.value[1] == Int(15) by {
      assert BindOne(params, specs[0]) == Ok(Int(5));
      assert BindOne(params, specs[1]) == Ok(Int(15));
    }
  }
}

=== FILE: segments.dfy ===
/** How ConcatNode.Execute picks the input for a global frame index
    (ava/__init__.py:306-337, ava.py:244-271): a linear scan over the
    boundaries for the segment holding the index, then either a direct
    delegation or a cross-blend with the previous input. */
module Segments {
  import opened Common
  import opened Boundaries

  /** The outcome of the scan: the segment i with b[i] <= idx < b[i+1]; no
      segment at all; or the index reached the last boundary, where the
      lookup of b[i+1] raises IndexError. */
  datatype Scan = Found(segment: nat) | NotFound | PastEnd

  /** The scan from position i onwards. */
  function ScanFrom(b: seq<int>, idx: int, i: nat): (s: Scan)
    requires i <= |b|
    ensures s.Found? ==> i <= s.segment && s.segment + 1 < |b| && b[s.segment] <= idx < b[s.segment + 1]
    decreases |b| - i
  {
    if i == |b| then NotFound
    else if idx >= b[i] then
      if i + 1 == |b| then PastEnd
      else if idx < b[i + 1] then Found(i)
      else ScanFrom(b, idx, i + 1)
    else ScanFrom(b, idx, i + 1)
  }

  function Segment(b: seq<int>, idx: int): Scan {
    ScanFrom(b, idx, 0)
  }

  /** The scan loop of ConcatNode.Execute, leaving at the first segment
      that holds the index. */
  method FindSegment(prefixSum: seq<int>, index: int) returns (s: Scan)
    ensures s == Segment(prefixSum, index)
  {
    s := NotFound;
    var i := 0;
    while i < |prefixSum|
      invariant 0 <= i <= |prefixSum|
      invariant ScanFrom(prefixSum, index, i) == Segment(prefixSum, index)
    {
      if index >= prefixSum[i] {
        if i + 1 == |prefixSum| {
          return PastEnd;
        }
        if index < prefixSum[i + 1] {
          return Found(i);
        }
      }
      i := i + 1;
    }
  }

  /** If some segment at or after position i holds the index, the scan
      from i finds a segment (whatever the order of the boundaries). */
  lemma {:induction false} ScanReachesCover(b: seq<int>, idx: int, i: nat, k: nat)
    requires i <= k && k + 1 < |b| && b[k] <= idx < b[k + 1]
    ensures ScanFrom(b, idx, i).Found?
    decreases k - i
  {
    if i < k {
      if !(idx >= b[i] && idx < b[i + 1]) {
        ScanReachesCover(b, idx, i + 1, k);
      }
    }
  }

  /** Between the first and the last boundary some segment holds the index. */
  lemma {:induction false} SomeSegmentCovers(b: seq<int>, idx: int, k: nat)
    requires k + 1 < |b| && b[k] <= idx < b[|b| - 1]
    ensures exists j :: k <= j < |b| - 1 && b[j] <= idx < b[j + 1]
    decreases |b| - k
  {
    if idx >= b[k + 1] {
      SomeSegmentCovers(b, idx, k + 1);
    }
  }

  /** Every index from the first boundary up to (not including) the last
      one lands in a segment. */
  lemma SegmentFoundInRange(b: seq<int>, idx: int)
    requires |b| >= 2 && b[0] <= idx < b[|b| - 1]
    ensures Segment(b, idx).Found?
  {
    SomeSegmentCovers(b, idx, 0);
    var k :| 0 <= k < |b| - 1 && b[k] <= idx < b[k + 1];
    ScanReachesCover(b, idx, 0, k);
  }

  /** With increasing boundaries the segment found is the only one holding
      the index. */
  lemma SegmentUnique(b: seq<int>, idx: int, j: nat)
    requires StrictlyIncreasing(b)
    requires j + 1 < |b| && b[j] <= idx < b[j + 1]
    ensures Segment(b, idx) == Found(j)
  {
    ScanReachesCover(b, idx, 0, j);
    assert forall p, q :: 0 <= p <= q < |b| ==> b[p] <= b[q];
  }

  /** With increasing boundaries, an index at or past the last boundary
      makes the scan reach the end of the list and raise. */
  lemma {:induction false} ScanPastEnd(b: seq<int>, idx: int, i: nat)
    requires StrictlyIncreasing(b) && i < |b| && idx >= b[|b| - 1]
    ensures ScanFrom(b, idx, i) == PastEnd
    decreases |b| - i
  {
    if i + 1 < |b| {
      assert b[i + 1] <= b[|b| - 1];
      ScanPastEnd(b, idx, i + 1);
    }
  }

  /** With increasing boundaries, an index before the first boundary is in
      no segment. */
  lemma {:induction false} ScanBeforeStart(b: seq<int>, idx: int, i: nat)
    requires StrictlyIncreasing(b) && i <= |b| && |b| > 0 && idx < b[0]
    ensures ScanFrom(b, idx, i) == NotFound
    decreases |b| - i
  {
    if i < |b| {
      assert i == 0 || b[0] < b[i];
      ScanBeforeStart(b, idx, i + 1);
    }
  }

  /** Where one frame of a concatenation comes from. */
  datatype Route =
    | Direct(input: nat, local: int)                    // input `input` at `local`, straight into the target
    | CrossBlend(segment: nat, left: int, right: int)   // inputs segment-1 at `left` and segment at `right`, blended
    | Nothing                                           // no segment holds the index: nothing is written

  /** The routing decision of ConcatNode.Execute for window w. */
  function ConcatRoute(b: seq<int>, w: int, idx: int): (r: Result<Route>)
    ensures r.Err? <==> Segment(b, idx) == PastEnd
    ensures r.Err? ==> r.fault == IndexError
    ensures r == Ok(Nothing) <==> Segment(b, idx) == NotFound
    ensures r.Ok? && r.value.Direct? ==> Segment(b, idx) == Found(r.value.input)
    ensures r.Ok? && r.value.CrossBlend? ==> Segment(b, idx) == Found(r.value.segment)
    ensures r.Ok? && r.value.CrossBlend? ==> 0 < r.value.segment && 0 <= r.value.right < w
  {
    match Segment(b, idx)
    case NotFound => Ok(Nothing)
    case PastEnd => Err(IndexError)
    case Found(i) =>
      if idx - b[i] < w && i > 0 then Ok(CrossBlend(i, idx - b[i - 1], idx - b[i]))
      else Ok(Direct(i, idx - b[i]))
  }

  /** A blend happens exactly in the first w frames of every segment but
      the first; with a window of 0 it never happens. */
  lemma BlendZone(b: seq<int>, w: int, idx: int)
    requires Segment(b, idx).Found?
    ensures var i := Segment(b, idx).segment;
      ConcatRoute(b, w, idx).value.CrossBlend? <==> i > 0 && idx - b[i] < w
    ensures w <= 0 ==> !ConcatRoute(b, w, idx).value.CrossBlend?
  {
  }

  /** Over the boundaries of inputs of lengths L with a window w >= 0, every
      index of the concatenation is routed in range: a direct read of input
      i at a local index below L[i] (and at least w unless i is 0), or a
      blend whose incoming index r is below w and whose outgoing index is
      L[i-1] - w + r, the last w frames of the previous input. */
  lemma RouteInRange(lengths: seq<int>, w: int, idx: int)
    requires |lengths| > 0 && 0 <= w
    requires var b := StartIndices(lengths, w).value; 0 <= idx < b[|lengths|]
    ensures var r := ConcatRoute(StartIndices(lengths, w).value, w, idx);
      && r.Ok?
      && !r.value.Nothing?
      && (r.value.Direct? ==>
            && r.value.input < |lengths|
            && 0 <= r.value.local < lengths[r.value.input]
            && (r.value.input == 0 || r.value.local >= w))
      && (r.value.CrossBlend? ==>
            && 0 < r.value.segment < |lengths|
            && 0 <= r.value.right < w
            && r.value.right < lengths[r.value.segment]
            && r.value.left == lengths[r.value.segment - 1] - w + r.value.right)
  {
    var b := StartIndices(lengths, w).value;
    StartIndicesRecurrence(lengths, w);
    SegmentFoundInRange(b, idx);
    var i := Segment(b, idx).segment;
    assert b[i + 1] - b[i] <= lengths[i];
    if i > 0 {
      assert b[i] == b[i - 1] + lengths[i - 1] - w;
    }
  }

  /** The first frame of a concatenation whose first input is not empty
      comes straight from frame 0 of that input. */
  lemma FirstFrameDirect(lengths: seq<int>, w: int)
    requires |lengths| > 0 && 0 <= w && lengths[0] > w
    ensures ConcatRoute(StartIndices(lengths, w).value, w, 0) == Ok(Direct(0, 0))
  {
    var b := StartIndices(lengths, w).value;
    StartIndicesRecurrence(lengths, w);
    assert b[1] > 0;
  }

  /** Past the end of a concatenation with increasing boundaries the scan
      raises IndexError; before its start nothing is written. */
  lemma RouteOutOfRange(lengths: seq<int>, w: int, idx: int)
    requires Blendable(lengths, w)
    ensures var b := StartIndices(lengths, w).value;
      && (idx >= b[|lengths|] ==> ConcatRoute(b, w, idx) == Err(IndexError))
      && (idx < 0 ==> ConcatRoute(b, w, idx) == Ok(Nothing))
  {
    var b := StartIndices(lengths, w).value;
    BoundariesIncrease(lengths, w);
    StartIndicesRecurrence(lengths, w);
    if idx >= b[|lengths|] {
      ScanPastEnd(b, idx, 0);
    }
    if idx < 0 {
      ScanBeforeStart(b, idx, 0);
    }
  }
}

=== FILE: soundness.dfy ===
/** What a well-formed graph guarantees for every frame it reports: the
    frame is produced without an exception, the last call writes the
    requested target, every temporary a call reads was written by an
    earlier call, and every source frame read lies inside a source's
    numbered range. */
module Soundness {
  import opened Common
  import opened Boundaries
  import opened Backend
  import opened Graph
  import opened Segments
  import opened BlendFactors
  import opened Evaluate

  /** A graph whose every node asks its inputs only for frames they have:
      single-input repeats and substreams inside their input, concatenations
      whose boundaries are those of their inputs' lengths with a window no
      longer than any input it blends out of, and default-Execute nodes
      with at least one input (fades: exactly one, a nonzero duration and
      the input's length). */
  predicate Consistent(n: Node) {
    match n
    case Null => false
    case ImageSequence(_, _, _, _) => true
    case RepeatImage(_, _, _) => true
    case RepeatInput(_, inputs, frame, _) =>
      && |inputs| == 1
      && Consistent(inputs[0])
      && Length(inputs[0]).Ok?
      && 0 <= frame < Length(inputs[0]).value
    case Substream(_, inputs, first, last) =>
      && |inputs| == 1
      && Consistent(inputs[0])
      && Length(inputs[0]).Ok?
      && 0 <= first
      && last <= Length(inputs[0]).value
    case Concat(_, inputs, w, _, prefixSum) =>
      && |inputs| > 0
      && (forall k :: 0 <= k < |inputs| ==> Consistent(inputs[k]))
      && Lengths(inputs).Ok?
      && 0 <= w
      && (forall k :: 0 <= k < |inputs| - 1 ==> Lengths(inputs).value[k] >= w)
      && prefixSum == StartIndices(Lengths(inputs).value, w).value
    case Filter(_, op, inputs) =>
      && |inputs| > 0
      && (forall k :: 0 <= k < |inputs| ==> Consistent(inputs[k]))
      && (IsFade(op) ==> |inputs| == 1 && op.duration != 0 && Length(inputs[0]) == Ok(op.length))
  }

  /** A consistent graph has a length. */
  lemma {:induction false} ConsistentHasLength(n: Node)
    requires Consistent(n)
    ensures Length(n).Ok?
  {
    match n
    case Filter(_, op, inputs) =>
      forall k | 0 <= k < |inputs|
        ensures Length(inputs[k]).Ok?
      {
        ConsistentHasLength(inputs[k]);
      }
    case _ =>
  }

  /** The source frames node n can read: those of the image sequences
      below it. */
  predicate ProvidesFrame(n: Node, format: string, number: int) {
    match n
    case Null => false
    case ImageSequence(_, f, count, offset) => f == format && offset <= number < offset + count
    case RepeatImage(_, _, _) => false
    case RepeatInput(_, inputs, _, _) => exists k :: 0 <= k < |inputs| && ProvidesFrame(inputs[k], format, number)
    case Substream(_, inputs, _, _) => exists k :: 0 <= k < |inputs| && ProvidesFrame(inputs[k], format, number)
    case Concat(_, inputs, _, _, _) => exists k :: 0 <= k < |inputs| && ProvidesFrame(inputs[k], format, number)
    case Filter(_, _, inputs) => exists k :: 0 <= k < |inputs| && ProvidesFrame(inputs[k], format, number)
  }

  /** The outcome p renders a frame of n: no exception, at least one call,
      every temporary written before it is read, and every source frame read
      one that n provides. */
  predicate Renders(n: Node, p: Result<seq<Call>>) {
    && p.Ok? && p.value != []
    && WellStaged(p.value)
    && ReadsWithin(n, p.value)
  }

  predicate Writes(calls: seq<Call>, p: Path) {
    exists i :: 0 <= i < |calls| && calls[i].out == p
  }

  /** Every temporary a call reads was written by an earlier call. */
  predicate WellStaged(calls: seq<Call>) {
    forall j, p :: 0 <= j < |calls| && p in Reads(calls[j]) && p.Temp? ==> Writes(calls[..j], p)
  }

  /** Frame-source reads that stay inside the sources of n. */
  predicate ReadsWithin(n: Node, calls: seq<Call>) {
    forall c :: c in calls && c.ReadFrame? ==> ProvidesFrame(n, c.format, c.number)
  }

  lemma WritesPrefix(calls: seq<Call>, j: nat, m: nat, p: Path)
    requires j <= m <= |calls| && Writes(calls[..j], p)
    ensures Writes(calls[..m], p)
  {
    var i :| 0 <= i < j && calls[..j][i].out == p;
    assert calls[..m][i] == calls[i];
  }

  /** Running two well-staged traces one after the other is well staged. */
  lemma WellStagedJoin(a: seq<Call>, b: seq<Call>)
    requires WellStaged(a) && WellStaged(b)
    ensures WellStaged(a + b)
  {
    var s := a + b;
    forall j, p | 0 <= j < |s| && p in Reads(s[j]) && p.Temp?
      ensures Writes(s[..j], p)
    {
      if j < |a| {
        assert s[j] == a[j];
        var i :| 0 <= i < j && a[..j][i].out == p;
        assert s[..j][i] == a[i];
      } else {
        assert s[j] == b[j - |a|];
        var i :| 0 <= i < j - |a| && b[..j - |a|][i].out == p;
        assert s[..j][i + |a|] == b[i];
      }
    }
  }

  /** A call whose temporaries are all written by a well-staged trace can
      follow it. */
  lemma WellStagedSnoc(a: seq<Call>, c: Call)
    requires WellStaged(a)
    requires forall p :: p in Reads(c) && p.Temp? ==> Writes(a, p)
    ensures WellStaged(a + [c])
  {
    var s := a + [c];
    assert s[..|a|] == a;
    forall j, p | 0 <= j < |s| && p in Reads(s[j]) && p.Temp?
      ensures Writes(s[..j], p)
    {
      if j < |a| {
        assert s[j] == a[j];
        var i :| 0 <= i < j && a[..j][i].out == p;
        assert s[..j][i] == a[i];
      }
    }
  }

  lemma ReadsWithinJoin(n: Node, a: seq<Call>, b: seq<Call>)
    requires ReadsWithin(n, a) && ReadsWithin(n, b)
    ensures ReadsWithin(n, a + b)
  {
  }

  /** The end-to-end guarantee: for every frame index of a consistent
      graph's stream, the frame is produced without an exception by a
      non-empty, well-staged trace whose last call writes the target and
      whose source reads stay inside the graph's image sequences. */
  lemma {:induction false} ConsistentFramesRender(pid: nat, n: Node, idx: int, target: Path)
    requires Consistent(n) && Length(n).Ok? && 0 <= idx < Length(n).value
    ensures Renders(n, Plan(Corrected, pid, n, idx, target))
    ensures Plan(Corrected, pid, n, idx, target).Ok? ==> Plan(Corrected, pid, n, idx, target).value[|Plan(Corrected, pid, n, idx, target).value| - 1].out == target
    decreases n, 2, 0
  {
    PlanWritesTarget(Corrected, pid, n, idx, target);
    if n.ImageSequence? || n.RepeatImage? {
      SourceFramesRender(pid, n, idx, target);
    } else if n.RepeatInput? {
      RepeatFramesRender(pid, n, idx, target);
    } else if n.Substream? {
      SubstreamWithinInput(n, idx);
      SubstreamFramesRender(pid, n, idx, n.first + idx, target);
    } else if n.Concat? {
      ConcatFramesRender(pid, n, idx, target);
    } else {
      FilterFramesRender(pid, n, idx, target);
    }
  }

  lemma SourceFramesRender(pid: nat, n: Node, idx: int, target: Path)
    requires n.ImageSequence? || n.RepeatImage?
    requires 0 <= idx < Length(n).value
    ensures Renders(n, Plan(Corrected, pid, n, idx, target))
  {
    if n.ImageSequence? {
      SequenceFrameRenders(pid, n.name, n.format, n.count, n.offset, idx, target);
    } else {
      ImageRenders(pid, n.name, n.image, n.duration, idx, target);
    }
  }

  /** Frame idx of an image sequence is one read of its own source frame. */
  lemma SequenceFrameRenders(pid: nat, name: string, format: string, count: int, offset: int, idx: int, target: Path)
    requires 0 <= idx < count
    ensures Renders(ImageSequence(name, format, count, offset), Plan(Corrected, pid, ImageSequence(name, format, count, offset), idx, target))
  {
    ImageSequenceReadsOffsetFrame(Corrected, pid, name, format, count, offset, idx, target);
  }

  /** A repeated image is one read of the image, which no source frame is. */
  lemma ImageRenders(pid: nat, name: string, image: string, duration: int, idx: int, target: Path)
    ensures Renders(RepeatImage(name, image, duration), Plan(Corrected, pid, RepeatImage(name, image, duration), idx, target))
  {
    assert [] + [ReadImage(image, target)] == [ReadImage(image, target)];
  }

  /** A repeat renders its pinned frame of its input. */
  lemma {:induction false} RepeatFramesRender(pid: nat, n: Node, idx: int, target: Path)
    requires n.RepeatInput? && Consistent(n)
    ensures Renders(n, Plan(Corrected, pid, n, idx, target))
    decreases n, 1, 0
  {
    var input := n.inputs[0];
    assert n.inputs == [input];
    ProvidedByInput(n, 0);
    RepeatInputPinned(Corrected, pid, n.name, input, n.frame, n.duration, idx, idx, target);
    ConsistentFramesRender(pid, input, n.frame, target);
  }

  /** A substream renders frame first + idx of its input. */
  lemma {:induction false} SubstreamFramesRender(pid: nat, n: Node, idx: int, j: int, target: Path)
    requires n.Substream? && |n.inputs| == 1 && j == n.first + idx
    requires Consistent(n.inputs[0]) && Length(n.inputs[0]).Ok? && 0 <= j < Length(n.inputs[0]).value
    ensures Renders(n, Plan(Corrected, pid, n, idx, target))
    decreases n, 1, 0
  {
    var input := n.inputs[0];
    SubstreamPlansInput(pid, n, idx, j, target);
    ConsistentFramesRender(pid, input, j, target);
    ProvidedByInput(n, 0);
    RenderTransfer(n, input, Plan(Corrected, pid, n, idx, target), Plan(Corrected, pid, input, j, target));
  }

  /** A trace that renders within an input of n renders within n. */
  lemma RenderTransfer(n: Node, input: Node, a: Result<seq<Call>>, b: Result<seq<Call>>)
    requires a == b && Renders(input, b)
    requires forall calls :: ReadsWithin(input, calls) ==> ReadsWithin(n, calls)
    ensures Renders(n, a)
  {
  }

  /** The frame a consistent substream asks of its input is one the input
      has. */
  lemma SubstreamWithinInput(n: Node, idx: int)
    requires n.Substream? && Consistent(n) && 0 <= idx < Length(n).value
    ensures |n.inputs| == 1 && Consistent(n.inputs[0]) && Length(n.inputs[0]).Ok?
    ensures 0 <= n.first + idx < Length(n.inputs[0]).value
  {
  }

  lemma SubstreamPlansInput(pid: nat, n: Node, idx: int, j: int, target: Path)
    requires n.Substream? && |n.inputs| == 1 && j == n.first + idx
    ensures Plan(Corrected, pid, n, idx, target) == Plan(Corrected, pid, n.inputs[0], j, target)
  {
    var input := n.inputs[0];
    assert n.inputs == [input];
    SubstreamDelegates(Corrected, pid, n.name, input, n.first, n.last, idx, target);
  }

  /** A frame read within one input of n is read within n. */
  lemma ProvidedByInput(n: Node, k: nat)
    requires k < |Inputs(n)| && !n.ImageSequence?
    ensures forall calls :: ReadsWithin(Inputs(n)[k], calls) ==> ReadsWithin(n, calls)
  {
  }

  lemma {:induction false} ConcatFramesRender(pid: nat, n: Node, idx: int, target: Path)
    requires n.Concat? && Consistent(n) && 0 <= idx < Length(n).value
    ensures Renders(n, Plan(Corrected, pid, n, idx, target))
    decreases n, 1, 0
  {
    var ls := Lengths(n.inputs).value;
    RouteInRange(ls, n.blend, idx);
    var route := ConcatRoute(n.prefixSum, n.blend, idx).value;
    if route.Direct? {
      ConcatDirectRender(pid, n, idx, target, route.input, route.local);
    } else {
      var i := route.segment;
      ConsistentHasLength(n.inputs[i - 1]);
      ConsistentHasLength(n.inputs[i]);
      ConcatCrossRender(pid, n, idx, target, i - 1, i, route.left, route.right);
    }
  }

  /** A frame outside the blend zones renders as its input's frame does. */
  lemma {:induction false} ConcatDirectRender(pid: nat, n: Node, idx: int, target: Path, k: nat, local: int)
    requires n.Concat? && k < |n.inputs|
    requires ConcatRoute(n.prefixSum, n.blend, idx) == Ok(Direct(k, local))
    requires Consistent(n.inputs[k]) && Length(n.inputs[k]).Ok? && 0 <= local < Length(n.inputs[k]).value
    ensures Renders(n, Plan(Corrected, pid, n, idx, target))
    decreases n, 0, 0
  {
    var input := n.inputs[k];
    ConcatDirectPlan(Corrected, pid, n.name, n.inputs, n.blend, n.blur, n.prefixSum, idx, target, k, local);
    ConsistentFramesRender(pid, input, local, target);
    ProvidedByInput(n, k);
    RenderTransfer(n, input, Plan(Corrected, pid, n, idx, target), Plan(Corrected, pid, input, local, target));
  }

  /** Frame j of a consistent input of a concatenation renders into t, and
      its trace ends by writing t. */
  lemma {:induction false} ConcatInputRenders(pid: nat, n: Node, k: nat, j: int, t: Path)
    requires n.Concat? && k < |n.inputs| && Consistent(n.inputs[k]) && Length(n.inputs[k]).Ok?
    requires 0 <= j < Length(n.inputs[k]).value
    ensures Renders(n.inputs[k], Plan(Corrected, pid, n.inputs[k], j, t))
    ensures Plan(Corrected, pid, n.inputs[k], j, t).Ok? ==> Writes(Plan(Corrected, pid, n.inputs[k], j, t).value, t)
    decreases n, 0, 0
  {
    ConsistentFramesRender(pid, n.inputs[k], j, t);
    PlanWrites(pid, n.inputs[k], j, t);
  }

  /** A plan that succeeds with some calls writes its target. */
  lemma PlanWrites(pid: nat, n: Node, idx: int, t: Path)
    ensures Plan(Corrected, pid, n, idx, t).Ok? && Plan(Corrected, pid, n, idx, t).value != [] ==> Writes(Plan(Corrected, pid, n, idx, t).value, t)
  {
    PlanWritesTarget(Corrected, pid, n, idx, t);
    if Plan(Corrected, pid, n, idx, t).Ok? && Plan(Corrected, pid, n, idx, t).value != [] {
      LastWrites(Plan(Corrected, pid, n, idx, t).value, t);
    }
  }

  lemma LastWrites(calls: seq<Call>, t: Path)
    requires calls != [] && calls[|calls| - 1].out == t
    ensures Writes(calls, t)
  {
  }

  /** A frame in a blend zone renders the two frames it blends: frame left
      of input h = i - 1 and frame right of input i. */
  lemma {:induction false} ConcatCrossRender(pid: nat, n: Node, idx: int, target: Path, h: nat, i: nat, left: int, right: int)
    requires n.Concat? && i == h + 1 && i < |n.inputs|
    requires ConcatRoute(n.prefixSum, n.blend, idx) == Ok(CrossBlend(i, left, right))
    requires Consistent(n.inputs[h]) && Length(n.inputs[h]).Ok? && 0 <= left < Length(n.inputs[h]).value
    requires Consistent(n.inputs[i]) && Length(n.inputs[i]).Ok? && 0 <= right < Length(n.inputs[i]).value
    ensures Renders(n, Plan(Corrected, pid, n, idx, target))
    decreases n, 0, 1
  {
    var t0 := Temp(pid, n.name, 0);
    var t1 := Temp(pid, n.name, 1);
    ConcatInputRenders(pid, n, h, left, t0);
    ConcatInputRenders(pid, n, i, right, t1);
    BlendPlanJoins(pid, n, idx, target, h, i, left, right);
    var bl: Call :| bl.Blend? && bl.incoming == t1 && bl.outgoing == t0
      && Plan(Corrected, pid, n, idx, target) == Ok(Plan(Corrected, pid, n.inputs[h], left, t0).value + Plan(Corrected, pid, n.inputs[i], right, t1).value + [bl]);
    BlendRenders(n, h, i, Plan(Corrected, pid, n, idx, target), Plan(Corrected, pid, n.inputs[h], left, t0), Plan(Corrected, pid, n.inputs[i], right, t1), bl);
  }

  /** When both blended frames render, the blend zone's trace is the two
      traces followed by the blend. */
  lemma BlendPlanJoins(pid: nat, n: Node, idx: int, target: Path, h: nat, i: nat, left: int, right: int)
    requires n.Concat? && i == h + 1 && i < |n.inputs|
    requires ConcatRoute(n.prefixSum, n.blend, idx) == Ok(CrossBlend(i, left, right))
    requires Plan(Corrected, pid, n.inputs[h], left, Temp(pid, n.name, 0)).Ok?
    requires Plan(Corrected, pid, n.inputs[i], right, Temp(pid, n.name, 1)).Ok?
    ensures exists bl: Call ::
      && bl.Blend? && bl.incoming == Temp(pid, n.name, 1) && bl.outgoing == Temp(pid, n.name, 0)
      && Plan(Corrected, pid, n, idx, target)
         == Ok(Plan(Corrected, pid, n.inputs[h], left, Temp(pid, n.name, 0)).value + Plan(Corrected, pid, n.inputs[i], right, Temp(pid, n.name, 1)).value + [bl])
  {
    ConcatBlendPlan(Corrected, pid, n.name, n.inputs, n.blend, n.blur, n.prefixSum, idx, target, i, left, right);
    assert n.inputs[i - 1] == n.inputs[h];
    var bl := Blend(n.name, Strength(right, n.blend), if n.blur then Some(BlurRadius(right, n.blend)) else None,
                    Temp(pid, n.name, 1), Temp(pid, n.name, 0), target);
    assert Plan(Corrected, pid, n, idx, target)
        == Ok(Plan(Corrected, pid, n.inputs[h], left, Temp(pid, n.name, 0)).value + Plan(Corrected, pid, n.inputs[i], right, Temp(pid, n.name, 1)).value + [bl]);
  }

  /** A blend of what input h rendered and what input i rendered, read from
      the temporaries each wrote last, renders within n. */
  lemma BlendRenders(n: Node, h: nat, i: nat, a: Result<seq<Call>>, o: Result<seq<Call>>, c: Result<seq<Call>>, bl: Call)
    requires n.Concat? && h < |n.inputs| && i < |n.inputs|
    requires Renders(n.inputs[h], o) && Renders(n.inputs[i], c)
    requires bl.Blend? && Writes(o.value, bl.outgoing) && Writes(c.value, bl.incoming)
    requires a == Ok(o.value + c.value + [bl])
    ensures Renders(n, a)
  {
    ProvidedByInput(n, h);
    ProvidedByInput(n, i);
    BlendTraceStaged(o.value, c.value, bl);
    ReadsWithinJoin(n, o.value, c.value);
    ReadsWithinJoin(n, o.value + c.value, [bl]);
  }

  /** Two staged traces followed by a blend of temporaries each of them
      writes form a staged trace. */
  lemma BlendTraceStaged(o: seq<Call>, c: seq<Call>, bl: Call)
    requires WellStaged(o) && WellStaged(c)
    requires bl.Blend? && Writes(o, bl.outgoing) && Writes(c, bl.incoming)
    ensures WellStaged(o + c + [bl])
  {
    WellStagedJoin(o, c);
    WritesJoin(o, c, bl.outgoing);
    WritesJoin(o, c, bl.incoming);
    WellStagedSnoc(o + c, bl);
  }

  /** A path written by either part of a trace is written by the whole. */
  lemma WritesJoin(a: seq<Call>, b: seq<Call>, p: Path)
    requires Writes(a, p) || Writes(b, p)
    ensures Writes(a + b, p)
  {
    if Writes(a, p) {
      var i :| 0 <= i < |a| && a[i].out == p;
      assert (a + b)[i] == a[i];
    } else {
      var i :| 0 <= i < |b| && b[i].out == p;
      assert (a + b)[|a| + i] == b[i];
    }
  }

  lemma {:induction false} FilterFramesRender(pid: nat, n: Node, idx: int, target: Path)
    requires n.Filter? && Consistent(n) && Length(n).Ok? && 0 <= idx < Length(n).value
    ensures Renders(n, Plan(Corrected, pid, n, idx, target))
    decreases n, 1, 0
  {
    forall k | 0 <= k < |n.inputs|
      ensures Length(n.inputs[k]).Ok? && idx < Length(n.inputs[k]).value
    {
      ConsistentHasLength(n.inputs[k]);
    }
    StagedInputsRender(pid, n, idx, 0);
    FilterRenders(pid, n, idx, target);
  }

  /** Once its inputs are staged, a filter's own call can run. */
  lemma FilterRenders(pid: nat, n: Node, idx: int, target: Path)
    requires n.Filter? && StagedFrom(pid, n, idx, 0)
    requires FilterAction(Corrected, n.op, idx).Ok?
    ensures Renders(n, Plan(Corrected, pid, n, idx, target))
  {
    FilterPlan(Corrected, pid, n.name, n.op, n.inputs, idx, target);
    var staged := StageInputs(Corrected, pid, n.name, n.inputs, idx, 0).value;
    ApplyAfterStaging(n, pid, staged, Apply(n.name, FilterAction(Corrected, n.op, idx).value, Slots(pid, n.name, |n.inputs|), target));
  }

  /** A call that reads the temporaries of every slot can follow the
      staging loop that wrote them. */
  lemma ApplyAfterStaging(n: Node, pid: nat, staged: seq<Call>, c: Call)
    requires n.Filter? && WellStaged(staged) && ReadsWithin(n, staged)
    requires forall k :: 0 <= k < |n.inputs| ==> Writes(staged, Temp(pid, n.name, k))
    requires c.Apply? && c.ins == Slots(pid, n.name, |n.inputs|)
    ensures WellStaged(staged + [c]) && ReadsWithin(n, staged + [c])
  {
    assert forall p :: p in c.ins ==> exists k :: 0 <= k < |n.inputs| && p == Temp(pid, n.name, k);
    WellStagedSnoc(staged, c);
    ReadsWithinJoin(n, staged, [c]);
  }

  /** Node.Execute's staging loop, from input `from` on: it raises
      nothing, is well staged, reads only sources of n, and writes the
      temporary of every slot it covers. */
  predicate StagedFrom(pid: nat, n: Node, idx: int, from: nat)
    requires n.Filter? && from <= |n.inputs|
  {
    var s := StageInputs(Corrected, pid, n.name, n.inputs, idx, from);
    && s.Ok?
    && WellStaged(s.value)
    && ReadsWithin(n, s.value)
    && forall k :: from <= k < |n.inputs| ==> Writes(s.value, Temp(pid, n.name, k))
  }

  /** The staging loop over inputs that each render renders. */
  lemma {:induction false} StagedInputsRender(pid: nat, n: Node, idx: int, from: nat)
    requires n.Filter? && from <= |n.inputs|
    requires forall k :: from <= k < |n.inputs| ==>
      Consistent(n.inputs[k]) && Length(n.inputs[k]).Ok? && 0 <= idx < Length(n.inputs[k]).value
    ensures StagedFrom(pid, n, idx, from)
    decreases n, 0, |n.inputs| - from
  {
    if from < |n.inputs| {
      ConsistentFramesRender(pid, n.inputs[from], idx, Temp(pid, n.name, from));
      StagedInputsRender(pid, n, idx, from + 1);
      StageOneMore(pid, n, idx, from, from + 1);
    }
  }

  /** One more input that renders in front of a staged rest keeps the
      loop staged. */
  lemma StageOneMore(pid: nat, n: Node, idx: int, from: nat, next: nat)
    requires n.Filter? && from < |n.inputs| && next == from + 1
    requires var p := Plan(Corrected, pid, n.inputs[from], idx, Temp(pid, n.name, from));
      Renders(n.inputs[from], p) && p.value[|p.value| - 1].out == Temp(pid, n.name, from)
    requires StagedFrom(pid, n, idx, next)
    ensures StagedFrom(pid, n, idx, from)
  {
    var first := Plan(Corrected, pid, n.inputs[from], idx, Temp(pid, n.name, from)).value;
    var rest := StageInputs(Corrected, pid, n.name, n.inputs, idx, next).value;
    StageInputsStep(pid, n.name, n.inputs, idx, from, next);
    ProvidedByInput(n, from);
    StagedSlots(n, pid, from, first, rest);
  }

  /** The staging loop from `from` is input from's trace, then the loop
      from the next input. */
  lemma StageInputsStep(pid: nat, name: string, inputs: seq<Node>, idx: int, from: nat, next: nat)
    requires from < |inputs| && next == from + 1
    requires Plan(Corrected, pid, inputs[from], idx, Temp(pid, name, from)).Ok?
    requires StageInputs(Corrected, pid, name, inputs, idx, next).Ok?
    ensures StageInputs(Corrected, pid, name, inputs, idx, from)
         == Ok(Plan(Corrected, pid, inputs[from], idx, Temp(pid, name, from)).value + StageInputs(Corrected, pid, name, inputs, idx, next).value)
  {
  }

  /** The trace facts of one staging step, on the traces alone. */
  lemma StagedSlots(n: Node, pid: nat, from: nat, first: seq<Call>, rest: seq<Call>)
    requires n.Filter? && from < |n.inputs|
    requires WellStaged(first) && first != [] && first[|first| - 1].out == Temp(pid, n.name, from)
    requires ReadsWithin(n, first)
    requires WellStaged(rest) && ReadsWithin(n, rest)
    requires forall k :: from + 1 <= k < |n.inputs| ==> Writes(rest, Temp(pid, n.name, k))
    ensures WellStaged(first + rest) && ReadsWithin(n, first + rest)
    ensures forall k :: from <= k < |n.inputs| ==> Writes(first + rest, Temp(pid, n.name, k))
  {
    StagedJoin(first, rest, Temp(pid, n.name, from));
    ReadsWithinJoin(n, first, rest);
  }

  /** Joining a staged trace that ends by writing t to a staged trace keeps
      it staged, and the join writes t and whatever the second part writes. */
  lemma StagedJoin(first: seq<Call>, rest: seq<Call>, t: Path)
    requires WellStaged(first) && WellStaged(rest) && first != [] && first[|first| - 1].out == t
    ensures WellStaged(first + rest) && Writes(first + rest, t)
    ensures forall p :: Writes(rest, p) ==> Writes(first + rest, p)
  {
    WellStagedJoin(first, rest);
    assert (first + rest)[|first| - 1] == first[|first| - 1];
    forall p | Writes(rest, p)
      ensures Writes(first + rest, p)
    {
      var i :| 0 <= i < |rest| && rest[i].out == p;
      assert (first + rest)[|first| + i] == rest[i];
    }
  }
}
